=== FILE: README.md ===
# A verified model of the hackathon finance-chat application

The application is a React frontend with a Flask backend. It has a financial dashboard, an orders page, and a chat with an AI agent. The agent runs tools such as a market search or a user-account analysis. Its answers come back as a list of thinking, text, tool-use and tool-result blocks, each tagged with the agent iteration that produced it. There are also user sign-up, login, logout and profile endpoints.

This project models the sequential logic of that application as pure Dafny functions over immutable data:

- **Financial dashboard** (`financial_dashboard.dfy`): the totals, net income, per-category grouping, category colours and the net-income style.
- **Orders page** (`orders_page.dfy`): the order search filter, the selected-order fallback and the initial selection.
- **Chat message list** (`chat_interface.dfy`): the send guard, the user message and loading placeholder it appends, how the reply settles the last message, and the panel toggles.
- **Chat rendering**:
  - `chat_message.dfy`: which view a message becomes, and which element each response block becomes;
  - `thinking_block.dfy`: the preview of the first 200 UTF-16 code units, and the iteration label;
  - `tool_block.dfy`: tool icons, region labels, the artifact guards, the display caps, recommendation parsing and priority colours.
- **Chat service** (`chat_service.dfy`): the response chain. It turns the model's successive replies into an iteration-tagged block list and the conversation history, dispatches tool calls, and shapes the `process_message` result.
- **Example agent** (`agent.dfy`): the older loop, which executes only the first tool call of each reply. `tools_example.dfy` holds its mock weather and news tools.
- **User controllers** (`user_controllers.dfy`): sign-up, login, logout, the token blacklist and the profile check, over an abstract user store.

Shared vocabulary lives in a few small modules:

- `wrappers.dfy`: `Option` and `Outcome`, where `Outcome` is a value or a raised exception's message;
- `json.dfy`: a JSON value type;
- `seqs.dfy`: filter, take, map and subsequence;
- `text.dfy`: JavaScript trimming, ASCII case mapping, substring search, and decimal printing and parsing;
- `chat_blocks.dfy`: the frontend's chat block and response types;
- `model_api.dfy`: the model API's content blocks, stop reason and conversation history.

Outside effects become parameters:

- the sequence of model replies (`seq<ApiReply>`);
- the local analysis tools and the remote search service (`ChatService.Oracles`);
- the password hasher (`UserControllers.Hasher`);
- the token encoder and the token id (`jti`);
- the database commit outcome;
- the server's reply to a chat request;
- the clock readings of one send (`ChatInterface.Clock`);
- the two regular-expression splits of the recommendation parser (`ToolBlock.Splitters`).

Money is modelled as exact integers, so every sum is exact.

## Model

| member | source | states |
|---|---|---|
| FinancialDashboard.AddToGroup | frontend/src/components/Financial/FinancialDashboard.tsx:132-145 | One reduce step keeps categories distinct. It appends a new summary, carrying the entry's amount and the type tag, exactly when the category is new; otherwise it adds the amount to that category's existing summary only. |
| FinancialDashboard.GroupByCategory | frontend/src/components/Financial/FinancialDashboard.tsx:132-146 | Each category appears at most once. Its amount is the total of the items carrying that category. Every summary has the type tag passed in. The categories emitted are exactly those present. |
| FinancialDashboard.GroupStep | frontend/src/components/Financial/FinancialDashboard.tsx:132-146 | Folding the last item into a grouping of the others groups all the items: categories stay distinct, each carries its total, and exactly the present categories appear. |
| FinancialDashboard.AbsentCategoryTotal | frontend/src/components/Financial/FinancialDashboard.tsx:136-139 | A category no item carries totals zero. |
| FinancialDashboard.AddToGroupSum | frontend/src/components/Financial/FinancialDashboard.tsx:136-143 | Folding one item into a grouping raises the grouping's total by exactly that item's amount. |
| FinancialDashboard.GroupedSumIsTotal | frontend/src/components/Financial/FinancialDashboard.tsx:132-146 | The grouped amounts add up to the plain sum of all the items. |
| FinancialDashboard.CalculateSummary | frontend/src/components/Financial/FinancialDashboard.tsx:110-130 | Net income is total income minus total expenses. Expense groups are tagged 'expense' and income groups 'deposit'. |
| FinancialDashboard.SumAmountsConcat | frontend/src/components/Financial/FinancialDashboard.tsx:113-117 | The left-fold sum of amounts splits over concatenation. |
| FinancialDashboard.FlattenedExpenses | frontend/src/components/Financial/FinancialDashboard.tsx:113-116 | Summing the flattened expense list equals summing each account's expenses and adding the results in account order. |
| FinancialDashboard.FlattenedDeposits | frontend/src/components/Financial/FinancialDashboard.tsx:113-117 | Summing the flattened deposit list equals summing each account's deposits and adding the results in account order. |
| FinancialDashboard.BalancesEitherWay | frontend/src/components/Financial/FinancialDashboard.tsx:111 | The left fold over the balances equals the sum taken from the front. |
| FinancialDashboard.SummaryTotals | frontend/src/components/Financial/FinancialDashboard.tsx:110-130 | The total balance is the sum of the accounts' balance fields. Total expenses and total income are the per-account sums. Net income is their difference. |
| FinancialDashboard.BalanceIgnoresTransactions | frontend/src/components/Financial/FinancialDashboard.tsx:111 | The total balance reads only the balance fields. Accounts with equal balances give equal totals, whatever their transactions. |
| FinancialDashboard.CategoriesCoverTotals | frontend/src/components/Financial/FinancialDashboard.tsx:113-130 | The expense groups sum to total expenses and the income groups to total income. Each grouping emits exactly the categories present. |
| FinancialDashboard.EmptySummary | frontend/src/components/Financial/FinancialDashboard.tsx:110-130 | A user without accounts gets zero totals and empty category lists. |
| FinancialDashboard.Palette | frontend/src/components/Financial/FinancialDashboard.tsx:155-170 | Both palettes have a "default" entry. |
| FinancialDashboard.CategoryColor | frontend/src/components/Financial/FinancialDashboard.tsx:155-172 | The palette is chosen by type. A key present in it gets its own colour; any other key gets that palette's default. The result is always a colour of that palette. |
| FinancialDashboard.ExpenseColors | frontend/src/components/Financial/FinancialDashboard.tsx:156-162 | Every expense colour is one of the red, orange, purple, blue and gray classes. |
| FinancialDashboard.IncomeColors | frontend/src/components/Financial/FinancialDashboard.tsx:164-168 | Every income colour is one of the green, pink and emerald classes. |
| FinancialDashboard.ColorRevealsKind | frontend/src/components/Financial/FinancialDashboard.tsx:155-172 | The palettes share no colour, so a colour is an expense colour iff it was chosen for an expense. "food" as a deposit gets the income default. |
| FinancialDashboard.NetIncomeClass | frontend/src/components/Financial/FinancialDashboard.tsx:259 | Green iff a summary exists and its net income is at least zero; red otherwise. |
| OrdersPage.FilterOrders | frontend/src/pages/Content.tsx:107-115 | The result is an order-preserving subsequence of the orders. Every kept order matches and every matching order is kept. Each order occurs in the result exactly as often as in the input if it matches, and not at all otherwise. |
| OrdersPage.Matches | frontend/src/pages/Content.tsx:107-115 | The filter predicate: an empty query matches every order; otherwise the decimal id contains the query, or some item name contains it, both lower-cased. Its properties are stated by OrdersPage.LongerQueryMatchesLess and OrdersPage.EmptyQueryKeepsAll. |
| Seqs.FilterCounts | frontend/src/pages/Content.tsx:107-115 | `filter` keeps every passing element as many times as it occurs and drops every other one (occurrences counted by `Seqs.Count`, which `Seqs.CountIsMultiplicity` equates with multiset multiplicity). |
| OrdersPage.EmptyQueryKeepsAll | frontend/src/pages/Content.tsx:107-109 | An empty query returns the order list unchanged. |
| OrdersPage.LongerQueryMatchesLess | frontend/src/pages/Content.tsx:110-114 | An order matching a query also matches every substring of that query. |
| OrdersPage.LongerQueryNarrows | frontend/src/pages/Content.tsx:107-115 | Lengthening the query, keeping the old one as a substring, yields a subsequence of the old result, so it never adds orders. |
| OrdersPage.FindIndexById | frontend/src/pages/Content.tsx:117 | `find` stops at the first order with the id, and finds nothing iff no order has it. |
| OrdersPage.SelectedOrder | frontend/src/pages/Content.tsx:117-118 | None iff the filtered list is empty. Otherwise the result is a member of the list: the first filtered order with the selected id if there is one, else the first filtered order. |
| OrdersPage.InitialSelection | frontend/src/pages/Content.tsx:82 | The selection becomes the first order's id only when nothing is selected and the list is non-empty; otherwise it stays. |
| OrdersPage.LoadShowsFirstOrder | frontend/src/pages/Content.tsx:82-118 | After loading a non-empty list with nothing selected and no query, the detail pane shows the first order. |
| ChatInterface.Append | frontend/src/components/Chat/ChatInterface.tsx:49-65 | Exactly two messages are appended behind the unchanged history: the trimmed user message, then a loading assistant placeholder. The busy flag is set and the panel flags are kept. |
| ChatInterface.Settle | frontend/src/components/Chat/ChatInterface.tsx:85-116 | Only the last message changes, and the length stays the same. On success it becomes an assistant message with the response. On a reported error or an exception it keeps its id, role, timestamp and response, and its content becomes "Error: " + the error or the fixed failure text. Nothing is loading afterwards. |
| ChatInterface.SendMessage | frontend/src/components/Chat/ChatInterface.tsx:46-117 | Blank content or a request in flight leaves the state unchanged and sends nothing. Otherwise the request carries the untrimmed content, the pending state is the append, and the settled state is the settle of that. |
| ChatInterface.SendKeepsHistory | frontend/src/components/Chat/ChatInterface.tsx:46-117 | An accepted send grows the list by two, keeps every earlier message, leaves the user message in place, and clears the busy flag. |
| ChatInterface.ExtendIdle | frontend/src/components/Chat/ChatInterface.tsx:46-117 | An idle history followed by a settled user message and a settled assistant reply is still idle. |
| ChatInterface.InitialIsIdle | frontend/src/components/Chat/ChatInterface.tsx:22-29 | The initial state is idle: no messages, not loading, the panel shown and not collapsed. |
| ChatInterface.SendPreservesIdle | frontend/src/components/Chat/ChatInterface.tsx:46-117 | Every send, accepted or refused and whatever the reply, leaves an idle chat idle. Idle means nothing is loading, messages alternate user then assistant, and every user message is non-empty with no surrounding whitespace. |
| ChatInterface.TogglePanel | frontend/src/components/Chat/ChatInterface.tsx:119-125 | On a collapsed panel the toggle only uncollapses it and keeps visibility. Otherwise it flips visibility. Messages and the busy flag are untouched. |
| ChatInterface.ToggleCollapsed | frontend/src/components/Chat/ChatInterface.tsx:127-129 | Flips only the collapsed flag. |
| ChatInterface.ToggleLaws | frontend/src/components/Chat/ChatInterface.tsx:119-129 | After the panel toggle nothing is collapsed. On an uncollapsed panel the panel toggle is an involution, and the collapse toggle always is. On a collapsed panel the two toggles coincide. |
| ChatMessage.RenderBlock | frontend/src/components/Chat/ChatMessage.tsx:36-80 | An unknown block type renders nothing, and every known type renders something. Thinking and redacted thinking become a thinking element that is redacted iff the type is redacted; missing content becomes "". Tool use and tool result become tool elements of type use and result; a missing name becomes "". Text becomes a text element. |
| ChatMessage.IterationWord | frontend/src/components/Chat/ChatMessage.tsx:83 | "iterations" iff the count is not 1, "iteration" iff it is. |
| ChatMessage.Render | frontend/src/components/Chat/ChatMessage.tsx:9-94 | A user message is always a plain bubble. For an assistant message, loading beats a response, and a response beats plain content. A response renders one element per block, in block order, with the iteration footer. |
| ChatMessage.UserViewIgnoresResponse | frontend/src/components/Chat/ChatMessage.tsx:9-21 | A user message's view does not depend on its response or its loading flag. |
| ChatMessage.Drawn | frontend/src/components/Chat/ChatMessage.tsx:36-80 | A counting helper: the number of drawn elements is at most the number of slots. What it counts is stated by ChatMessage.DrawnAreKnownBlocks. |
| ChatMessage.DrawnAreKnownBlocks | frontend/src/components/Chat/ChatMessage.tsx:36-80 | The number of elements drawn equals the number of known blocks. All blocks are drawn iff every block is of a known type. |
| ChatMessage.SendRendersReply | frontend/src/components/Chat/ChatMessage.tsx:27-94 | While a request is in flight, the placeholder renders as the loading indicator. Once it settles, the last message never does. A success with a response renders one element slot per block. A failure renders the error text as plain content. |
| ThinkingBlock.Utf16Char | frontend/src/components/Chat/ThinkingBlock.tsx:12-13 | A character is one code unit below U+10000, carrying its code point, and otherwise a high surrogate followed by a low surrogate. |
| ThinkingBlock.ShouldTruncate | frontend/src/components/Chat/ThinkingBlock.tsx:13 | The toggle condition counts UTF-16 code units: more than 200 characters always truncate, and 100 or fewer never do. |
| ThinkingBlock.DisplayContent | frontend/src/components/Chat/ThinkingBlock.tsx:12-13 | The shown text is a prefix of the content's UTF-16 code units. Expanded or short content is shown whole. Collapsed long content shows exactly 200 code units. |
| ThinkingBlock.Utf16Concat | frontend/src/components/Chat/ThinkingBlock.tsx:12-13 | The code units of a concatenation are those of the parts, in order. |
| ThinkingBlock.BmpUnits | frontend/src/components/Chat/ThinkingBlock.tsx:12-13 | Text without astral characters has one code unit per character, equal to its code point. |
| ThinkingBlock.BmpPreviewIsCharacterPrefix | frontend/src/components/Chat/ThinkingBlock.tsx:12-13 | On such text the toggle appears iff there are more than 200 characters, and the preview is the first 200 characters. |
| ThinkingBlock.PreviewCanSplitSurrogatePair | frontend/src/components/Chat/ThinkingBlock.tsx:12-13 | 199 letters and an emoji are truncated after the emoji's high surrogate, so `slice` splits the character. |
| ThinkingBlock.IterationSlotAsWritten | frontend/src/components/Chat/ThinkingBlock.tsx:23-25 | As written, the slot is the stray text "0" iff the iteration is 0, a label carrying the iteration iff it is present and non-zero, and empty otherwise. |
| ThinkingBlock.ZeroIterationShowsStrayZero | frontend/src/components/Chat/ThinkingBlock.tsx:23-25 | As written, an iteration of 0 puts a bare "0" into the header. |
| ThinkingBlock.IterationSlotFor | frontend/src/components/Chat/ThinkingBlock.tsx:23-25 | The label appears exactly for a present, non-zero iteration and shows that number. No stray text is ever rendered. |
| ThinkingBlock.SlotsAgreeAwayFromZero | frontend/src/components/Chat/ThinkingBlock.tsx:23-25 | The as-written and intended iteration slots differ only at iteration 0. |
| ThinkingBlock.Render | frontend/src/components/Chat/ThinkingBlock.tsx:21-44 | The toggle exists iff the content is longer than 200 code units, and is labelled by the expanded state. A redacted block shows the fixed notice whatever its content. Otherwise the body shows the display content, with the "..." marker iff truncating and collapsed. The iteration slot is the as-written one, so iteration 0 shows a stray "0". |
| ThinkingBlock.RenderedSlotAsIntended | frontend/src/components/Chat/ThinkingBlock.tsx:23-25 | The rendered slot is the intended one for every iteration except 0, where it is the stray "0". |
| ThinkingBlock.PreviewIsPrefix | frontend/src/components/Chat/ThinkingBlock.tsx:12-13 | The collapsed preview is a prefix of the content's code units, at most 200 long, and equals them all iff no truncation is needed. |
| ToolBlock.RegionDisplayName | frontend/src/components/Chat/ToolBlock.tsx:200-211 | The seven known regions get their fixed labels. Any other region keeps its length and its characters after the first, with the first character upper-cased. |
| ToolBlock.RegionLabelShapes | frontend/src/components/Chat/ToolBlock.tsx:200-211 | The empty region stays empty, and a known region's label is never empty. |
| ToolBlock.ToolIconFor | frontend/src/components/Chat/ToolBlock.tsx:413-429 | The rules apply in precedence order on the lower-cased name: search or finance, then the user-analysis names, then exactly "weather" or "news", then the wrench. Each icon is characterised by an iff. |
| ToolBlock.IconIgnoresCase | frontend/src/components/Chat/ToolBlock.tsx:413-429 | A name and its lower-cased spelling get the same icon, so "Weather" gets the weather icon. |
| ToolBlock.WeatherNotSpecial | frontend/src/components/Chat/ToolBlock.tsx:413-429 | "weather" matches neither the search/finance rule nor the user-analysis rule. |
| ToolBlock.JsIn | frontend/src/components/Chat/ToolBlock.tsx:432-449 | JavaScript's `in` throws iff its right operand is not a non-null object. |
| ToolBlock.IsSearchResultAsWritten | frontend/src/components/Chat/ToolBlock.tsx:432-440 | Throws iff the result is a non-null object whose `search_results` is null. Returns true iff `search_results` is an object whose own `search_results` has `typeof` "object", null included. |
| ToolBlock.IsUserAnalysisResultAsWritten | frontend/src/components/Chat/ToolBlock.tsx:442-449 | Throws iff the result is a non-null object whose `user_analysis` is null. Returns true iff the intended guard holds. |
| ToolBlock.ShouldShowArtifactAsWritten | frontend/src/components/Chat/ToolBlock.tsx:451 | False for a tool call. For a result it throws iff the search guard throws, or the search guard is false and the user-analysis guard throws; it is true iff the search guard is true, or false with the user-analysis guard holding. |
| ToolBlock.ShouldShowArtifact | frontend/src/components/Chat/ToolBlock.tsx:451 | The intended decision shows an artifact only for a result that is a non-null object. ToolBlock.ArtifactDecisionAgrees relates it to the as-written decision. |
| ToolBlock.NullSearchResultsThrows | frontend/src/components/Chat/ToolBlock.tsx:432-451 | As written, the result `{"search_results": null}` makes the artifact decision throw. |
| ToolBlock.NullInnermostShowsSearchArtifact | frontend/src/components/Chat/ToolBlock.tsx:432-451 | As written, the result `{"search_results": {"search_results": null}}` passes the search guard, so the artifact is shown, while the intended decision shows none. |
| ToolBlock.GuardsAgreeAwayFromNull | frontend/src/components/Chat/ToolBlock.tsx:432-449 | Each as-written guard throws exactly when its probed field is null. Otherwise it agrees with the intended guard, except that a null innermost search field passes the search guard as written. |
| ToolBlock.ArtifactFor | frontend/src/components/Chat/ToolBlock.tsx:451-499 | An artifact is shown iff the block is a result and a guard holds. The search artifact wins when both guards hold. |
| ToolBlock.ArtifactDecisionAgrees | frontend/src/components/Chat/ToolBlock.tsx:432-451 | Away from the null fields, the as-written decision returns the intended decision without throwing. |
| ToolBlock.RegionSections | frontend/src/components/Chat/ToolBlock.tsx:216-228 | One section per region, in order, headed by the region's display name and holding its first 8 cards. |
| ToolBlock.RenderSearch | frontend/src/components/Chat/ToolBlock.tsx:185-245 | One section per market region, as RegionSections gives it. Every list shown is the leading min(cap, length) entries of its source list: 8 market cards per region, 2 organic results, 1 forum with its title and 1 answer. The organic and forum sections appear iff their lists are non-empty. |
| ToolBlock.ShortListsShownWhole | frontend/src/components/Chat/ToolBlock.tsx:185-220 | A region's cards or the organic results within their cap are shown whole: the caps only cut longer lists. |
| ToolBlock.BeforeBullet | frontend/src/components/Chat/ToolBlock.tsx:361 | The text up to its first bullet character: a prefix with no bullet in it, followed in the text by a bullet unless it is the whole text. |
| ToolBlock.FirstLine | frontend/src/components/Chat/ToolBlock.tsx:355 | The text up to its first line break: a prefix with no line break in it, followed in the text by a line break unless it is the whole text. |
| ToolBlock.BulletItems | frontend/src/components/Chat/ToolBlock.tsx:352-356 | The candidates are the bullet pieces after the first, one per piece and in order, each trimmed and cut at its first line break. |
| ToolBlock.ActionItems | frontend/src/components/Chat/ToolBlock.tsx:352-363 | The kept items are the leading non-empty candidates: the first min(3, n) of the n non-empty candidates, in their original order. When fewer than three are kept, every non-empty candidate is among them. |
| ToolBlock.FirstNonEmptyFacts | frontend/src/components/Chat/ToolBlock.tsx:352-363 | A scan that keeps non-empty candidates until it has k of them keeps them in order, keeps no empty one, and misses none when it keeps fewer than k. |
| ToolBlock.TakeFilterIsFirstNonEmpty | frontend/src/components/Chat/ToolBlock.tsx:352-363 | Dropping the empty candidates and then keeping the first k gives the same items as that scan. |
| ToolBlock.SectionAt | frontend/src/components/Chat/ToolBlock.tsx:347-364 | The recommendation for a header: its category is the trimmed header and also its title. Its description is the trimmed text of the body before the first bullet marker, with a missing body read as empty. Its priority is "medium", and its action items are those of the body. |
| ToolBlock.ParseRecommendations | frontend/src/components/Chat/ToolBlock.tsx:343-367 | One recommendation per header, half the length of the split, in order. The k-th is the one SectionAt makes from position 2k + 1 and the body after it. |
| ToolBlock.Positions | frontend/src/components/Chat/ToolBlock.tsx:347 | The positions `for (let i = start; i < n; i += 2)` visits all lie in [start, n), and there are ⌈(n − start)/2⌉ of them. |
| ToolBlock.PositionsAt | frontend/src/components/Chat/ToolBlock.tsx:347 | The k-th visited position is start + 2k. |
| ToolBlock.ParseLoop | frontend/src/components/Chat/ToolBlock.tsx:347-365 | The loop pushes one recommendation per visited position. ParseIsLoop relates it to the header reading. |
| ToolBlock.ParseIsLoop | frontend/src/components/Chat/ToolBlock.tsx:343-367 | The header reading equals the loop from position 1 in steps of two: the same recommendations, in the same order. |
| ToolBlock.ShownRecommendations | frontend/src/components/Chat/ToolBlock.tsx:370-401 | A supplied list, even an empty one, takes precedence over parsing the overall analysis. At most three are shown, taken from the front. |
| ToolBlock.PriorityColor | frontend/src/components/Chat/ToolBlock.tsx:307-314 | High, medium and low map to three distinct classes, and anything else maps to gray, each by an iff. |
| ChatService.DictGet | backend/app/chat/services.py:277 | `get` with a default on a dictionary gives the value or the default. On anything else it raises Python's AttributeError message naming the type. |
| ChatService.RemoteResults | backend/app/chat/services.py:277 | Three nested lookups. A missing key gives {}, and a non-dictionary along the way raises. |
| ChatService.NestedResults | backend/app/chat/services.py:277 | The value under search_results, then data, then results is what the remote branch returns. |
| ChatService.Wrap | backend/app/chat/services.py:265-291 | A success is wrapped as the only key "search_results". An exception becomes the only key "error", holding "Tool execution failed: " + its message. |
| ChatService.ExecuteTool | backend/app/chat/services.py:256-291 | The two local tools are dispatched by name; a missing argument raises the quoted key. Every other name goes to the remote service and its nested lookup. The reply always has exactly one key: "search_results", or "error" after any exception. |
| ChatService.NullRemoteResultsFail | backend/app/chat/services.py:277-291 | A remote result whose "search_results" is null yields the error reply naming `'NoneType' object has no attribute 'get'`. |
| ChatService.ExtractBlocks | backend/app/chat/services.py:96-126 | One block per translatable content block, tagged with the iteration. |
| ChatService.ExtractIsTranslation | backend/app/chat/services.py:96-126 | Extraction translates the translatable blocks in order. Thinking keeps its text, redacted thinking gets the fixed text, text keeps its text, tool use keeps name, input and id, and other types are dropped. |
| ChatService.FinalBlocks | backend/app/chat/services.py:215-243 | The final blocks contain no tool use. |
| ChatService.FinalIsExtractWithoutTools | backend/app/chat/services.py:215-243 | The final extraction is the loop's extraction with the tool-use blocks removed. |
| ChatService.ExtractConcat | backend/app/chat/services.py:96-128 | Extraction distributes over concatenated contents. |
| ChatService.NamesOf | backend/app/chat/services.py:117-172 | The names of one kind's blocks, in order, never more than there are blocks. |
| ChatService.NamesOfConcat | backend/app/chat/services.py:128-172 | Collecting the names of one kind distributes over concatenation. |
| ChatService.ExtractedUseNames | backend/app/chat/services.py:117-145 | The tool-use blocks extracted from a reply name its tool calls, in order. |
| ChatService.CallNamesHead | backend/app/chat/services.py:143-145 | The tool-call names of a reply are its first block's name, if that block is a tool use, followed by the rest's. |
| ChatService.ToolResultBlocks | backend/app/chat/services.py:152-172 | One tool-result block per call, in order, each tagged with the iteration and naming its call. |
| ChatService.ResultNames | backend/app/chat/services.py:152-172 | The result blocks name the calls they answer, in order, and none of them is a tool-use block. |
| ChatService.NamesOfAll | backend/app/chat/services.py:152-172 | Blocks that all have one kind yield one name per block, each block's own. |
| ChatService.Entries | backend/app/chat/services.py:174-191 | The history entries' tool-use ids equal the calls' ids, in order. |
| ChatService.IterationBlocks | backend/app/chat/services.py:95-172 | All of an iteration's blocks carry its number. The tool-use names and the tool-result names agree, in order. |
| ChatService.Chain | backend/app/chat/services.py:75-254 | The chain raises exactly when the reply that settles the loop (ModelApi.Settle) is a failed call, and then with that call's message. Otherwise the loop's invariants hold: tags between the iteration and the total, nondecreasing, tool use only before the final iteration, nothing final after a break, tool-use and tool-result names paired, and the history alternating assistant turns with tool results that answer them. |
| ChatService.FinalTail | backend/app/chat/services.py:215-254 | A reply that does not stop for tool use contributes its final blocks tagged iteration + 1. The total is iteration + 1 and the history stays empty. |
| ChatService.BreakTail | backend/app/chat/services.py:84-254 | A tool-use reply without tool calls adds its blocks and its assistant turn, then breaks. No final blocks are added, and the stop reason stays "tool_use". |
| ChatService.StepTail | backend/app/chat/services.py:84-207 | A continuing reply puts its blocks, results, assistant turn and tool-results message in front of the rest, keeping the invariants. |
| ChatService.StepBlockFacts | backend/app/chat/services.py:128-172 | Prefixing one iteration's blocks keeps the block invariants one iteration earlier. |
| ChatService.StepHistoryFacts | backend/app/chat/services.py:137-191 | Prefixing an assistant turn and its answering results keeps the history invariants one iteration earlier. |
| ChatService.NamesOfAbsent | backend/app/chat/services.py:215-243 | Blocks with none of a kind name no tools of that kind. |
| ChatService.ProcessMessage | backend/app/chat/services.py:24-73 | The result is a failure exactly when the reply that settles the loop (ModelApi.Settle) is a failed call, and the failure carries that call's message. A success carries blocks that satisfy the loop's block invariants from iteration 0. |
| ChatService.Conversation | backend/app/chat/services.py:24-191 | The history exists iff processing succeeds. It starts with the prompt, alternates user and assistant, and each tool-results message answers the turn before it, id for id. |
| ChatService.PromptFirst | backend/app/chat/services.py:132-191 | The prompt in front of a loop-built history alternates roles. Its length is 2·total − 1, less one after a break, and it ends on an assistant turn iff the stop reason is "tool_use". |
| ChatService.HistoryCountsIterations | backend/app/chat/services.py:75-254 | The history length is fixed by total_iterations, and it ends on an assistant turn exactly after a break. |
| ChatService.DirectAnswer | backend/app/chat/services.py:84-254 | A first reply that does not stop for tool use gives one iteration, its final blocks tagged 1, and its stop reason. |
| ModelApi.HistoryBlocks | backend/app/chat/services.py:132-135 | The assistant turn is an order-preserving subsequence of the response that keeps the thinking, redacted-thinking and tool-use blocks, each exactly as often as it occurs, and no other block. |
| ModelApi.ToolCalls | backend/app/chat/services.py:143-146 | Every call comes from a tool-use block of the reply. There are none iff the reply has no tool-use block. The exact list, in order, is pinned by ToolCallsHead. |
| ModelApi.ToolCallsHead | backend/app/chat/services.py:143-146 | The calls are the first block's call, if it is a tool use, followed by the calls of the remaining blocks: one call per tool-use block, in reply order. |
| ModelApi.ToolCallsSurviveHistory | backend/app/agent/agent.py:102-114 | Filtering to history blocks loses no tool call. |
| ModelApi.CallIds | backend/app/chat/services.py:178 | The ids of the calls, one per call, in order. |
| ModelApi.EntryIds | backend/app/chat/services.py:175-181 | The tool-use ids of the entries, one per entry, in order. |
| ModelApi.Settle | backend/app/chat/services.py:84-210 | The settling reply is the first that is a failed call or does not continue the `while stop_reason == "tool_use"` loop (a tool-use stop with no tool call breaks it). Every reply before it continues. |
| ModelApi.ContinuingNeverEnds | backend/app/chat/services.py:84-210 | A chain in which every reply continues never reaches a settling reply. The loop has no iteration cap. |
| ExampleTools.Reading | backend/app/agent/tools/example.py:4-11 | A weather record has exactly the temperature and condition fields. |
| ExampleTools.Weather | backend/app/agent/tools/example.py:2-13 | A listed city gets its stored record by exact lookup. Any other location gets an error naming it. An error is present iff the city is not listed. |
| ExampleTools.WeatherIsCaseSensitive | backend/app/agent/tools/example.py:4-13 | "London" gets its record; "london" gets the error. |
| ExampleTools.News | backend/app/agent/tools/example.py:15-35 | The result is always under "headlines": the topic's stored headlines, found by the lower-cased topic, or the single fallback headline. |
| ExampleTools.NewsIgnoresCase | backend/app/agent/tools/example.py:35 | A topic and its lower-cased spelling get the same news. |
| ExampleTools.NewsHeadlineCount | backend/app/agent/tools/example.py:17-35 | A known topic gives three headlines and any other topic gives one. |
| Agent.WeatherCall | backend/app/agent/agent.py:120-123 | A string location goes to the weather lookup. A list or object raises Python's unhashable-type error. Other scalars are not found. |
| Agent.NewsCall | backend/app/agent/agent.py:124-125 | A string topic goes to the news lookup. Anything else raises the missing `lower` attribute error. |
| Agent.Dispatch | backend/app/agent/agent.py:120-127 | "weather" and "news" read their argument, and a missing one raises the quoted key. Any other name gives {"error": "Unknown tool"}. |
| Agent.AgentStop | backend/app/agent/agent.py:97-178 | The run ends at the first reply that does not proceed: a failed call, a reply that does not continue the loop, or a continuing reply whose first tool call raises. Every reply before it proceeds. |
| Agent.AgentLoop | backend/app/agent/agent.py:97-178 | The run raises exactly when the reply at Agent.AgentStop has a fault, and then with the fault's message. A fault is a failed model call, or an exception from the first tool call of a continuing reply. Otherwise the history alternates assistant turns with single tool results, each answering the first tool call of the turn before it. Its length is fixed by the iteration count and whether the loop broke. |
| Agent.AgentStep | backend/app/agent/agent.py:108-140 | An answered iteration in front of the rest keeps the loop's invariants one iteration earlier. |
| Agent.AgentBreak | backend/app/agent/agent.py:102-178 | A tool-use reply without a tool call adds only its assistant turn and counts one more iteration, keeping the loop's invariants. |
| Agent.MultipleToolCalls | backend/app/agent/agent.py:89-178 | The run raises exactly when the reply at Agent.AgentStop has a fault, and then with the fault's message. A run's conversation starts with the question, alternates user and assistant, and every tool-results message holds the single result of the first tool call of the turn before it. It has 2·iterations + 1 messages, one fewer after a break, and ends on an assistant turn exactly when the last reply stopped for tool use. |
| Agent.QuestionFirst | backend/app/agent/agent.py:89-140 | The question in front of a loop-built history alternates roles. Its length is 2·iterations + 1, less one after a break, and it ends on an assistant turn iff the loop broke. |
| Agent.UnknownToolAnswered | backend/app/agent/agent.py:126-127 | A call to an unknown tool never raises and is answered with the unknown-tool error. |
| UserControllers.FindByUsername | backend/app/user/controllers.py:48-72 | The first user with the name, or none iff no user has it. |
| UserControllers.FindById | backend/app/user/controllers.py:101 | A user with the id, or none iff no user has it. |
| UserControllers.NextId | backend/app/user/controllers.py:53-57 | A fresh id, at least 1 and above every stored id. |
| UserControllers.Signup | backend/app/user/controllers.py:39-61 | The checks come in order: missing fields give 400, then a taken username 409, then a taken email 409, then a failed commit 500. A 201 happens iff all pass; it appends exactly one user with a fresh id and the hashed password. Every rejection leaves the store unchanged. |
| UserControllers.SignupKeepsWellFormed | backend/app/user/controllers.py:39-61 | Sign-up keeps user ids and usernames unique. |
| UserControllers.Login | backend/app/user/controllers.py:64-83 | Missing fields give 400. An unknown user and a wrong password both give 401 with the same message. Success gives 200 with a token whose identity is the decimal id, and a body with exactly the fields "message" ("Login successful"), "access_token" (the encoded token) and "user" (the id and username). A token is issued iff the status is 200. |
| UserControllers.IsRevoked | backend/app/__init__.py:9-11 | The revocation callback: a token is revoked iff its jti is in the blacklist. UserControllers.Guard and UserControllers.LogoutRevokes state what follows from it. |
| UserControllers.Guard | backend/app/__init__.py:8-11 | A request is served iff it carries a token whose jti is not blacklisted. A missing token is rejected as missing. |
| UserControllers.Logout | backend/app/user/controllers.py:86-91 | A missing or revoked token is refused and changes nothing. Otherwise the token's jti joins the blacklist and the reply is 200. The blacklist only grows. |
| UserControllers.LogoutRevokes | backend/app/user/controllers.py:89-90 | After logout the token is revoked. |
| UserControllers.GetProfile | backend/app/user/controllers.py:94-104 | A missing or revoked token is refused. An identity that is not a decimal number is a server error. A different id gives 403, checked before the 404 for a missing user. Otherwise 200 with id, username and email. |
| UserControllers.LoginOpensOwnProfile | backend/app/user/controllers.py:76-104 | A token from a successful login, while not revoked, opens its own user's profile with 200. |
| Text.TrimIsSlice | frontend/src/components/Chat/ToolBlock.tsx:348-349 | `trim` keeps one contiguous slice of its input, starting where the leading whitespace ends. |
| Text.TrimDropsSpaces | frontend/src/components/Chat/ToolBlock.tsx:348-349 | Every character `trim` removes, before or after the kept slice, is JavaScript whitespace or a line terminator. |

## Left out

- Floating-point arithmetic and number formatting (`Intl.NumberFormat`, `toFixed`, `toLocaleString`, Python's `:.2f`): amounts are exact integers.
- `Object.entries` key order: the category grouping is stated by contents (distinct categories, per-category totals, the set of categories), not by the order of the emitted list.
- FinancialDashboard.CategoryColor: keys inherited from `Object.prototype` (for example "toString") are not modelled as present in the palettes.
- FinancialDashboard.AddToGroup: the reduce accumulator is a plain object, and the model treats every category name alike. In the source, a category named after an `Object.prototype` member behaves differently. "toString" starts from the inherited function, because `!acc[c]` is false, and `+=` then turns it into a string. For "__proto__", the assignment replaces the prototype and the category never reaches `Object.entries`.
- FinancialDashboard.GroupByCategory: inherits that gap from AddToGroup. In the source, a "toString" category gets a string amount, and a "__proto__" category is missing from the result.
- ToolBlock.RegionDisplayName: the label table is a plain object. In the source, a region named after an `Object.prototype` member ("constructor", "toString", …) gets the inherited function instead of the capitalised name; the model treats it as an unknown region.
- Text.Lower: case mapping is ASCII only, with no Unicode case rules (JavaScript `toLowerCase` and Python `lower` map other letters too). Text.Trim removes JavaScript's full `trim` set of whitespace and line terminators.
- ToolBlock.RenderSearch: takes the already decoded search payload. Reading the JSON result as that payload is not modelled, nor is the TypeError the source throws when the innermost `search_results` is `null` (ToolBlock.tsx 198 and 216 read `markets` on it); `ToolBlock.NullInnermostShowsSearchArtifact` shows that the as-written guard lets that input through.
- ToolBlock.ParseRecommendations: the regular expressions are not reproduced; the header and bullet splits are parameters (`ToolBlock.Splitters`).
- `parseAccountDetails` and the rest of the user-analysis artifact's presentation: this is string formatting with regular expressions and no state.
- The tool-use block's caption, expand button and JSON pretty-printing (ToolBlock.tsx 457-489): these are presentation only.
- ChatService.Chain: the `while stop_reason == "tool_use"` loop (services.py line 84) has no iteration cap, and the model requires a reply chain that ends it (`ModelApi.Ends`). A model that keeps answering with tool calls makes the source call it forever; `ModelApi.ContinuingNeverEnds` states that the requirement rules such a chain out.
- ChatService.ProcessMessage: inherits the same requirement from Chain.
- Agent.AgentLoop: the same uncapped `while` loop (agent.py line 97), with the same requirement that the reply chain ends it.
- Agent.MultipleToolCalls: inherits that requirement from AgentLoop.
- ChatService.Conversation: the history holds each tool result as a JSON value, where the source stores `json.dumps` of it; serialisation is not modelled.
- The model API, the remote search service and the local analysis functions are not modelled; they are parameters. The model name, token budgets and tool schemas are omitted.
- ChatService.ExecuteTool: the local tools' own failures are whatever the given oracle returns; their internals are not part of this model.
- Agent.WeatherCall: a JSON number that would equal a listed key under Python's hashing is ignored (no key is a number, so none is found).
- Logging and `print` output throughout the backend.
- UserControllers.NextId: the database's id allocation is modelled as one more than the largest stored id.
- UserControllers.GetProfile: Python's `int()` also accepts surrounding whitespace, a leading `+` and digit underscores; only optional `-` and digits are parsed here. The identity comes from the token, which only login creates, so the difference matters only for foreign tokens.
- UserControllers.Signup: request fields are strings or missing. A non-string JSON value (for example a number as password) is not modelled.
- JWT and bcrypt internals: tokens are an identity plus a `jti`, the encoder and the hasher are parameters, and expiry and signature checks are not modelled. The library's own rejection replies are modelled only as `Rejection` values (missing or revoked).
- The user model file and its column constraints are not part of this model. Uniqueness of usernames and ids is stated as `UserControllers.WellFormed` and proved to be kept by sign-up.
- `get_users`, `create_user` and `get_user` in the controllers, and the thin chat HTTP controller: these are not part of the core.
- Network calls, local storage, routing, the search debounce timer and the chat scroll effect.
- ChatInterface.Append: `Date.now()` is read once per message, so the user message's id and timestamp come from the same clock reading. The placeholder and the reply read their own readings (`ChatInterface.Clock`).
- The oracles are functions, so the same tool call with the same input always returns the same result.
- Fixture and mock data (the dashboard's fallback user, the account data files): these are data, not logic.

## Findings

| source | as written | input that shows it | evidently intended | confidence | as-written member | corrected member |
|---|---|---|---|---|---|---|
| frontend/src/components/Chat/ThinkingBlock.tsx:23-25 | `{iteration && (<span>…)}` evaluates to the number 0 when the iteration is 0, and React renders it as the text "0" | a thinking block with `iteration = 0`; this backend never sends it, since every block ChatService.ProcessMessage emits is tagged 1 or more, so only another producer of thinking blocks reaches it | no label and no stray text for iteration 0, as for a missing iteration | high (not executed) | ThinkingBlock.ZeroIterationShowsStrayZero | ThinkingBlock.IterationSlotFor |
| frontend/src/components/Chat/ToolBlock.tsx:432-449 | the guards test `typeof result.search_results === 'object'`, which holds for null, then apply `in` to that field, which throws a TypeError on null (likewise `user_analysis`) | a tool result `{"search_results": null}` | the guard is false and no artifact is shown | high (not executed) | ToolBlock.NullSearchResultsThrows | ToolBlock.ArtifactFor |
| frontend/src/components/Chat/ToolBlock.tsx:438 | the search guard tests `typeof result.search_results.search_results === 'object'`, which holds for null, and the artifact then reads `markets` on that null field (lines 198 and 216) and throws a TypeError | a tool result `{"search_results": {"search_results": null}}` | the guard is false and no artifact is shown | high (not executed) | ToolBlock.NullInnermostShowsSearchArtifact | ToolBlock.ArtifactFor |

=== FILE: agent.dfy ===
/** The example agent's tool-use loop: it echoes each reply's thinking and
    tool-use blocks back to the model, runs only the first tool call of the
    reply with the mock weather and news tools, and sends that one result
    back, until a reply no longer stops for tool use. The model replies are
    given as a sequence. */
module Agent {
  import opened Wrappers
  import opened JsonValues
  import opened Text
  import opened ChatBlocks
  import opened ModelApi
  import opened ExampleTools

  /** The fixed question the example run asks. */
  const Question := "What's the weather in London, and can you also tell me the latest news about technology?"

  /** Python's `str` of a hashable decoded JSON scalar. */
  function PyStr(v: Json): string {
    match v
    case JNull => "None"
    case JBool(b) => if b then "True" else "False"
    case JNum(n) => IntToDecimal(n)
    case JStr(s) => s
    case _ => ""
  }

  /** `weather(location)` on whatever the model passed: a list or object cannot be a
      dictionary key and raises `TypeError`; any other non-string is simply not found. */
  function WeatherCall(arg: Json): (r: Outcome<Json>)
    ensures arg.JStr? ==> r == Ok(Weather(arg.s))
    ensures arg.JArr? || arg.JObj? ==> r == Raised(Unhashable(PyTypeName(arg)))
    ensures !arg.JStr? && !arg.JArr? && !arg.JObj? ==>
      r == Ok(Single("error", JStr(NoWeatherFor(PyStr(arg)))))
  {
    match arg
    case JStr(s) => Ok(Weather(s))
    case JArr(_) => Raised(Unhashable(PyTypeName(arg)))
    case JObj(_) => Raised(Unhashable(PyTypeName(arg)))
    case _ => Ok(Single("error", JStr(NoWeatherFor(PyStr(arg)))))
  }

  /** `news(topic)` on whatever the model passed: only strings have `lower`. */
  function NewsCall(arg: Json): (r: Outcome<Json>)
    ensures arg.JStr? ==> r == Ok(News(arg.s))
    ensures !arg.JStr? ==> r == Raised(NoAttribute(PyTypeName(arg), "lower"))
  {
    match arg
    case JStr(s) => Ok(News(s))
    case _ => Raised(NoAttribute(PyTypeName(arg), "lower"))
  }

  /** The tool switch: "weather" and "news" read their argument (a missing one raises
      `KeyError`, whose message is the quoted key) and call the mock tool; any other
      name gives the unknown-tool error object and never raises. */
  function Dispatch(call: ToolCall): (r: Outcome<Json>)
    ensures call.name == "weather" ==>
      r == (if "location" in call.input then WeatherCall(call.input["location"]) else Raised("'location'"))
    ensures call.name == "news" ==>
      r == (if "topic" in call.input then NewsCall(call.input["topic"]) else Raised("'topic'"))
    ensures call.name != "weather" && call.name != "news" ==> r == Ok(Single("error", JStr("Unknown tool")))
  {
    if call.name == "weather" then
      if "location" in call.input then WeatherCall(call.input["location"]) else Raised("'location'")
    else if call.name == "news" then
      if "topic" in call.input then NewsCall(call.input["topic"]) else Raised("'topic'")
    else Ok(Single("error", JStr("Unknown tool")))
  }

  /** What the loop appends to the conversation from iteration `iteration + 1` on, the
      iteration count it reaches and the stop reason of the last reply. */
  datatype AgentTail = AgentTail(history: seq<HistoryMessage>, iterations: nat, stopReason: string)

  /** Each tool-results message holds one entry, answering the first tool call of the turn before it. */
  predicate AnswersFirstCall(h: seq<HistoryMessage>) {
    forall i | 0 < i < |h| && h[i].content.ToolResults? ::
      && h[i - 1].content.AssistantTurn?
      && |ToolCalls(h[i - 1].content.blocks)| > 0
      && |h[i].content.entries| == 1
      && h[i].content.entries[0].toolUseId == ToolCalls(h[i - 1].content.blocks)[0].id
  }

  /** The loop's invariants over what it appends after `iteration` iterations: an
      assistant turn per iteration, answered by one tool result except after a break. */
  predicate AgentFacts(t: AgentTail, iteration: nat) {
    && t.iterations >= iteration
    && |t.history| + (if t.stopReason == ToolUseStop then 1 else 0) == 2 * (t.iterations - iteration)
    && (forall i | 0 <= i < |t.history| :: t.history[i].role == (if i % 2 == 0 then Assistant else User))
    && (forall i | 0 <= i < |t.history| :: t.history[i].content.AssistantTurn? <==> i % 2 == 0)
    && (forall i | 0 <= i < |t.history| && i % 2 == 1 :: t.history[i].content.ToolResults?)
    && AnswersFirstCall(t.history)
  }

  /** What stops the run at a reply: the message of a failed model call, or of the
      exception the first tool call of a continuing reply raises. */
  function Fault(reply: ApiReply): Option<string> {
    match reply
    case ApiFailed(msg) => Some(msg)
    case Answered(resp) =>
      if Continues(resp) && Dispatch(ToolCalls(resp.content)[0]).Raised?
      then Some(Dispatch(ToolCalls(resp.content)[0]).message) else None
  }

  /** A reply the loop answers and goes on from: it continues and its tool call raises nothing. */
  predicate Proceeds(reply: ApiReply) {
    reply.Answered? && Continues(reply.response) && Fault(reply).None?
  }

  /** The position of the reply that ends the run: the first with a fault or the first
      that does not continue; every reply before it continues without a fault. */
  function AgentStop(replies: seq<ApiReply>): (n: nat)
    requires Ends(replies)
    ensures n < |replies| && !Proceeds(replies[n])
    ensures forall j | 0 <= j < n :: Proceeds(replies[j])
    decreases |replies|
  {
    if !Proceeds(replies[0]) then 0
    else
      var n := AgentStop(replies[1..]);
      1 + n
  }

  /** The `while response.stop_reason == "tool_use"` loop from the reply at hand on. A
      failed model call or a raising tool ends the run with that exception. */
  function AgentLoop(replies: seq<ApiReply>, iteration: nat): (r: Outcome<AgentTail>)
    requires Ends(replies)
    ensures replies[0].ApiFailed? ==> r == Raised(replies[0].message)
    ensures r.Raised? <==> Fault(replies[AgentStop(replies)]).Some?
    ensures r.Raised? ==> r.message == Fault(replies[AgentStop(replies)]).value
    ensures r.Ok? ==> AgentFacts(r.value, iteration)
    decreases |replies|
  {
    match replies[0]
    case ApiFailed(msg) => Raised(msg)
    case Answered(resp) =>
      if resp.stopReason != ToolUseStop then Ok(AgentTail([], iteration, resp.stopReason))
      else
        var turn := HistoryMessage(Assistant, AssistantTurn(HistoryBlocks(resp.content)));
        var calls := ToolCalls(resp.content);
        if |calls| == 0 then Ok(AgentBreak(turn, iteration, resp.stopReason))
        else
          match Dispatch(calls[0])
          case Raised(msg) => Raised(msg)
          case Ok(result) =>
            match AgentLoop(replies[1..], iteration + 1)
            case Raised(msg) => Raised(msg)
            case Ok(rest) =>
              var answer := HistoryMessage(User, ToolResults([ToolResultEntry(calls[0].id, result)]));
              assert ToolCalls(turn.content.blocks) == calls by { ToolCallsSurviveHistory(resp.content); }
              Ok(AgentStep(turn, answer, iteration + 1, rest))
  }

  /** One answered iteration in front of what the rest of the run appends. */
  function AgentStep(turn: HistoryMessage, answer: HistoryMessage, it: nat, rest: AgentTail): (t: AgentTail)
    requires it >= 1 && AgentFacts(rest, it)
    requires turn.role == Assistant && turn.content.AssistantTurn? && |ToolCalls(turn.content.blocks)| > 0
    requires answer.role == User && answer.content.ToolResults? && |answer.content.entries| == 1
    requires answer.content.entries[0].toolUseId == ToolCalls(turn.content.blocks)[0].id
    ensures AgentFacts(t, it - 1)
    ensures t.history == [turn, answer] + rest.history
    ensures t.iterations == rest.iterations && t.stopReason == rest.stopReason
  {
    var h := [turn, answer] + rest.history;
    forall i | 0 <= i < |h|
      ensures h[i].role == (if i % 2 == 0 then Assistant else User)
      ensures h[i].content.AssistantTurn? <==> i % 2 == 0
      ensures i % 2 == 1 ==> h[i].content.ToolResults?
    {
      if i >= 2 {
        assert h[i] == rest.history[i - 2];
        assert (i - 2) % 2 == i % 2;
      }
    }
    forall i | 0 < i < |h| && h[i].content.ToolResults?
      ensures h[i - 1].content.AssistantTurn? && |ToolCalls(h[i - 1].content.blocks)| > 0
      ensures |h[i].content.entries| == 1
      ensures h[i].content.entries[0].toolUseId == ToolCalls(h[i - 1].content.blocks)[0].id
    {
      if i >= 2 {
        assert h[i] == rest.history[i - 2] && h[i - 1] == rest.history[i - 3];
      }
    }
    AgentTail(h, rest.iterations, rest.stopReason)
  }

  /** A reply that stops for tool use without a tool call: its assistant turn alone, then the loop ends. */
  function AgentBreak(turn: HistoryMessage, iteration: nat, stopReason: string): (t: AgentTail)
    requires turn.role == Assistant && turn.content.AssistantTurn? && stopReason == ToolUseStop
    ensures AgentFacts(t, iteration)
    ensures t.history == [turn] && t.iterations == iteration + 1
  {
    AgentTail([turn], iteration + 1, stopReason)
  }

  datatype AgentRun = AgentRun(conversation: seq<HistoryMessage>, iterations: nat, stopReason: string)

  /** `multiple_tool_calls_with_thinking`: the question, then the loop. The conversation
      alternates user and assistant, and every tool-results message carries the single
      result of the first tool call of the turn before it. */
  function MultipleToolCalls(replies: seq<ApiReply>): (r: Outcome<AgentRun>)
    requires Ends(replies)
    ensures replies[0].ApiFailed? ==> r == Raised(replies[0].message)
    ensures r.Raised? <==> Fault(replies[AgentStop(replies)]).Some?
    ensures r.Raised? ==> r.message == Fault(replies[AgentStop(replies)]).value
    ensures r.Ok? ==>
      && |r.value.conversation| >= 1 && r.value.conversation[0] == HistoryMessage(User, Prompt(Question))
      && RolesAlternate(r.value.conversation) && AnswersFirstCall(r.value.conversation)
    ensures r.Ok? ==> var run := r.value;
      && |run.conversation| == 2 * run.iterations + 1 - (if run.stopReason == ToolUseStop then 1 else 0)
      && (run.conversation[|run.conversation| - 1].role == Assistant <==> run.stopReason == ToolUseStop)
  {
    match AgentLoop(replies, 0)
    case Raised(msg) => Raised(msg)
    case Ok(t) =>
      var h := [HistoryMessage(User, Prompt(Question))] + t.history;
      QuestionFirst(h, t);
      Ok(AgentRun(h, t.iterations, t.stopReason))
  }

  lemma QuestionFirst(h: seq<HistoryMessage>, t: AgentTail)
    requires AgentFacts(t, 0)
    requires h == [HistoryMessage(User, Prompt(Question))] + t.history
    ensures RolesAlternate(h) && AnswersFirstCall(h)
    ensures |h| == 2 * t.iterations + 1 - (if t.stopReason == ToolUseStop then 1 else 0)
    ensures h[|h| - 1].role == Assistant <==> t.stopReason == ToolUseStop
  {
    forall i | 1 <= i < |h|
      ensures h[i] == t.history[i - 1]
      ensures h[i].role == (if i % 2 == 0 then User else Assistant)
    {
      assert (i - 1) % 2 == 0 <==> i % 2 == 1;
    }
    forall i | 0 < i < |h| && h[i].content.ToolResults?
      ensures h[i - 1].content.AssistantTurn? && |ToolCalls(h[i - 1].content.blocks)| > 0
      ensures |h[i].content.entries| == 1
      ensures h[i].content.entries[0].toolUseId == ToolCalls(h[i - 1].content.blocks)[0].id
    {
      assert h[i] == t.history[i - 1];
      assert (i - 1) % 2 == 1;
      assert h[i - 1] == t.history[i - 2];
    }
    if |t.history| > 0 {
      assert (|h| - 1) % 2 == 0 <==> t.stopReason != ToolUseStop;
    }
  }

  /** A reply whose first tool call names an unknown tool is answered with the
      unknown-tool error, whatever its input. */
  lemma UnknownToolAnswered(call: ToolCall)
    requires call.name != "weather" && call.name != "news"
    ensures Dispatch(call).Ok? && Dispatch(call).value.fields["error"] == JStr("Unknown tool")
  {
  }
}

=== FILE: chat_blocks.dfy ===
/** The response shape the chat backend sends and the chat frontend renders:
    content blocks tagged with their kind and the loop iteration that
    produced them, plus the stop reason and the number of iterations. */
module ChatBlocks {
  import opened Wrappers
  import opened JsonValues

  datatype Role = User | Assistant

  /** The `type` field of a block; any other tag the frontend does not know is `UnknownKind`. */
  datatype BlockKind =
    | ThinkingKind
    | RedactedThinkingKind
    | TextKind
    | ToolUseKind
    | ToolResultKind
    | UnknownKind(tag: string)

  datatype ChatBlock = ChatBlock(
    kind: BlockKind,
    content: Option<string>,
    toolName: Option<string>,
    toolInput: Option<Json>,
    toolResult: Option<Json>,
    toolId: Option<string>,
    iteration: Option<int>)

  datatype ChatResponse = ChatResponse(blocks: seq<ChatBlock>, stopReason: string, totalIterations: int)
}

=== FILE: chat_interface.dfy ===
/** The chat page's state machine: the message list, the busy flag and the
    two financial-panel flags, and how sending a message and the panel
    buttons change them. The network exchange is a parameter: the reply the
    backend gives (or the exception the request throws) is supplied by the
    caller, as are the clock readings. */
module ChatInterface {
  import opened Wrappers
  import opened Text
  import opened ChatBlocks

  datatype Message = Message(
    id: string,
    role: Role,
    content: string,
    response: Option<ChatResponse>,
    timestamp: int,
    isLoading: bool)

  datatype ChatState = ChatState(
    messages: seq<Message>,
    isLoading: bool,
    showPanel: bool,
    collapsed: bool)

  /** What the `fetch` produced: a body with `success` truthy (and maybe a `response`),
      a body reporting an `error` (maybe absent), or an exception. */
  datatype ServerReply =
    | Succeeded(response: Option<ChatResponse>)
    | Reported(error: Option<string>)
    | Threw

  /** The three `Date.now()` instants of one send: the user message, the
      placeholder and the assistant reply are stamped with them. */
  datatype Clock = Clock(userAt: int, placeholderAt: int, replyAt: int)

  /** One call of `sendMessage`: the state after the two appends, the request body
      sent (none when the guard returns early) and the state once the reply is in. */
  datatype SendStep = SendStep(pending: ChatState, request: Option<string>, settled: ChatState)

  const Placeholder := "Thinking..."
  const ReplyCaption := "Assistant response"
  const FailureText := "Error: Failed to send message"

  /** The state the component mounts with. */
  const Initial := ChatState([], false, true, false)

  /** The send guard: nothing happens for blank input or while a request is in flight. */
  predicate Refused(s: ChatState, content: string) {
    Trim(content) == [] || s.isLoading
  }

  /** Appends the trimmed user message and the loading placeholder, and marks the chat busy. */
  function Append(s: ChatState, content: string, clock: Clock): (r: ChatState)
    ensures |r.messages| == |s.messages| + 2 && r.messages[..|s.messages|] == s.messages
    ensures r.messages[|s.messages|] == Message(IntToDecimal(clock.userAt), User, Trim(content), None, clock.userAt, false)
    ensures r.messages[|s.messages| + 1].role == Assistant && r.messages[|s.messages| + 1].isLoading
    ensures r.messages[|s.messages| + 1].content == Placeholder
    ensures r.isLoading && r.showPanel == s.showPanel && r.collapsed == s.collapsed
  {
    var user := Message(IntToDecimal(clock.userAt), User, Trim(content), None, clock.userAt, false);
    var loading := Message(IntToDecimal(clock.placeholderAt + 1), Assistant, Placeholder, None, clock.placeholderAt, true);
    s.(messages := s.messages + [user, loading], isLoading := true)
  }

  /** The message that replaces the last one once the reply is in. */
  function SettledMessage(last: Message, reply: ServerReply, clock: Clock): Message {
    match reply
    case Succeeded(response) =>
      Message(IntToDecimal(clock.replyAt + 2), Assistant, ReplyCaption, response, clock.replyAt, false)
    case Reported(error) => last.(content := "Error: " + error.GetOr("undefined"), isLoading := false)
    case Threw => last.(content := FailureText, isLoading := false)
  }

  /** Replaces the last message according to the reply and clears the busy flag;
      every earlier message and both panel flags stay as they were. */
  function Settle(s: ChatState, reply: ServerReply, clock: Clock): (r: ChatState)
    requires |s.messages| > 0
    ensures |r.messages| == |s.messages|
    ensures r.messages[..|s.messages| - 1] == s.messages[..|s.messages| - 1]
    ensures !r.isLoading && r.showPanel == s.showPanel && r.collapsed == s.collapsed
    ensures !r.messages[|r.messages| - 1].isLoading
    ensures reply.Succeeded? ==>
      var m := r.messages[|r.messages| - 1];
      m.role == Assistant && m.response == reply.response && m.content == ReplyCaption
    ensures !reply.Succeeded? ==>
      var old_ := s.messages[|s.messages| - 1];
      var m := r.messages[|r.messages| - 1];
      m.id == old_.id && m.role == old_.role && m.timestamp == old_.timestamp && m.response == old_.response
      && m.content == (if reply.Threw? then FailureText else "Error: " + reply.error.GetOr("undefined"))
  {
    var n := |s.messages|;
    s.(messages := s.messages[n - 1 := SettledMessage(s.messages[n - 1], reply, clock)], isLoading := false)
  }

  /** `sendMessage`: a refused send changes nothing and sends nothing; an accepted one
      appends two messages, posts the untrimmed content and then settles the placeholder. */
  function SendMessage(s: ChatState, content: string, clock: Clock, reply: ServerReply): (r: SendStep)
    ensures Refused(s, content) ==> r.pending == s && r.settled == s && r.request == None
    ensures !Refused(s, content) ==>
      && r.request == Some(content)
      && r.pending == Append(s, content, clock)
      && r.settled == Settle(r.pending, reply, clock)
  {
    if Refused(s, content) then SendStep(s, None, s)
    else
      var pending := Append(s, content, clock);
      SendStep(pending, Some(content), Settle(pending, reply, clock))
  }

  /** An accepted send grows the list by exactly two: the history is kept, the trimmed
      user message follows it, and the last slot holds the settled reply. */
  lemma SendKeepsHistory(s: ChatState, content: string, clock: Clock, reply: ServerReply)
    requires !Refused(s, content)
    ensures var r := SendMessage(s, content, clock, reply).settled;
      && |r.messages| == |s.messages| + 2
      && r.messages[..|s.messages|] == s.messages
      && r.messages[|s.messages|] == Message(IntToDecimal(clock.userAt), User, Trim(content), None, clock.userAt, false)
      && Trim(content) != []
      && r.messages[|s.messages| + 1].role == Assistant && !r.messages[|s.messages| + 1].isLoading
      && !r.isLoading
  {
    var p := Append(s, content, clock);
    var r := Settle(p, reply, clock);
    assert r.messages[..|s.messages| + 1] == p.messages[..|s.messages| + 1];
    assert r.messages[..|s.messages|] == r.messages[..|s.messages| + 1][..|s.messages|];
    assert p.messages[..|s.messages|] == p.messages[..|s.messages| + 1][..|s.messages|];
    assert r.messages[|s.messages|] == r.messages[..|s.messages| + 1][|s.messages|];
    assert p.messages[|s.messages|] == p.messages[..|s.messages| + 1][|s.messages|];
  }

  /** The state between sends: nothing is loading, messages alternate user, assistant,
      and every user message is non-empty with no surrounding whitespace. */
  predicate Idle(s: ChatState) {
    && !s.isLoading
    && |s.messages| % 2 == 0
    && (forall i | 0 <= i < |s.messages| :: !s.messages[i].isLoading)
    && (forall i | 0 <= i < |s.messages| :: s.messages[i].role == (if i % 2 == 0 then User else Assistant))
    && (forall i | 0 <= i < |s.messages| && s.messages[i].role == User :: TrimmedText(s.messages[i].content))
  }

  predicate TrimmedText(t: string) {
    |t| > 0 && !IsSpace(t[0]) && !IsSpace(t[|t| - 1])
  }

  lemma InitialIsIdle()
    ensures Idle(Initial)
  {
  }

  /** Every send, accepted or refused, whatever the reply, leaves an idle chat idle. */
  lemma {:induction false} SendPreservesIdle(s: ChatState, content: string, clock: Clock, reply: ServerReply)
    requires Idle(s)
    ensures Idle(SendMessage(s, content, clock, reply).settled)
  {
    if !Refused(s, content) {
      SendKeepsHistory(s, content, clock, reply);
      var r := SendMessage(s, content, clock, reply).settled;
      ExtendIdle(s, r);
    }
  }

  /** An idle history followed by a trimmed user message and a settled assistant message is idle. */
  lemma ExtendIdle(s: ChatState, r: ChatState)
    requires Idle(s) && !r.isLoading
    requires |r.messages| == |s.messages| + 2 && r.messages[..|s.messages|] == s.messages
    requires r.messages[|s.messages|].role == User && !r.messages[|s.messages|].isLoading
    requires TrimmedText(r.messages[|s.messages|].content)
    requires r.messages[|s.messages| + 1].role == Assistant && !r.messages[|s.messages| + 1].isLoading
    ensures Idle(r)
  {
    var n := |s.messages|;
    forall i | 0 <= i < |r.messages|
      ensures !r.messages[i].isLoading
      ensures r.messages[i].role == (if i % 2 == 0 then User else Assistant)
      ensures r.messages[i].role == User ==> TrimmedText(r.messages[i].content)
    {
      if i < n {
        assert r.messages[i] == r.messages[..n][i];
      } else if i == n {
        assert i % 2 == 0;
      } else {
        assert i % 2 == 1;
      }
    }
  }

  /** `toggleFinancialPanel`: a collapsed panel is only expanded; otherwise visibility flips. */
  function TogglePanel(s: ChatState): (r: ChatState)
    ensures s.collapsed ==> !r.collapsed && r.showPanel == s.showPanel
    ensures !s.collapsed ==> r.showPanel == !s.showPanel && r.collapsed == s.collapsed
    ensures r.messages == s.messages && r.isLoading == s.isLoading
  {
    if s.collapsed then s.(collapsed := false) else s.(showPanel := !s.showPanel)
  }

  /** `toggleFinancialCollapsed`: flips only the collapsed flag. */
  function ToggleCollapsed(s: ChatState): (r: ChatState)
    ensures r.collapsed == !s.collapsed
    ensures r.showPanel == s.showPanel && r.messages == s.messages && r.isLoading == s.isLoading
  {
    s.(collapsed := !s.collapsed)
  }

  /** After the panel button the panel is never collapsed; pressing it twice on an
      expanded panel restores the state, and so does the collapse button twice. */
  lemma ToggleLaws(s: ChatState)
    ensures !TogglePanel(s).collapsed
    ensures !s.collapsed ==> TogglePanel(TogglePanel(s)) == s
    ensures ToggleCollapsed(ToggleCollapsed(s)) == s
    ensures s.collapsed ==> TogglePanel(s) == ToggleCollapsed(s)
  {
  }
}

=== FILE: chat_message.dfy ===
/** How one chat message is drawn: a user bubble, a loading indicator, the
    block-by-block view of an agent response, or plain assistant text. Only
    the choice of view and the properties handed to each block component are
    modelled; styling and time-of-day formatting are not. */
module ChatMessage {
  import opened Wrappers
  import opened JsonValues
  import opened Text
  import opened Seqs
  import opened ChatBlocks
  import opened ChatInterface
  import opened ToolBlock

  /** The component a block becomes, with the properties it is given. */
  datatype Element =
    | ThinkingElement(content: string, isRedacted: bool, iteration: Option<int>)
    | ToolElement(blockType: ToolBlockType, toolName: string, toolInput: Option<Json>, toolResult: Option<Json>, iteration: Option<int>)
    | TextElement(text: string)

  datatype View =
    | UserBubble(text: string)
    | LoadingIndicator
    | ResponseView(elements: seq<Option<Element>>, footer: string)
    | PlainText(text: string)

  /** The switch over `block.type`: unknown types render nothing; a missing content or
      tool name is shown as the empty string. */
  function RenderBlock(b: ChatBlock): (r: Option<Element>)
    ensures r.None? <==> b.kind.UnknownKind?
    ensures b.kind.ThinkingKind? || b.kind.RedactedThinkingKind? ==>
      r == Some(ThinkingElement(b.content.GetOr(""), b.kind.RedactedThinkingKind?, b.iteration))
    ensures b.kind.ToolUseKind? ==> r == Some(ToolElement(Use, b.toolName.GetOr(""), b.toolInput, None, b.iteration))
    ensures b.kind.ToolResultKind? ==>
      r == Some(ToolElement(Result, b.toolName.GetOr(""), b.toolInput, b.toolResult, b.iteration))
    ensures b.kind.TextKind? ==> r == Some(TextElement(b.content.GetOr("")))
  {
    match b.kind
    case ThinkingKind => Some(ThinkingElement(b.content.GetOr(""), false, b.iteration))
    case RedactedThinkingKind => Some(ThinkingElement(b.content.GetOr(""), true, b.iteration))
    case ToolUseKind => Some(ToolElement(Use, b.toolName.GetOr(""), b.toolInput, None, b.iteration))
    case ToolResultKind => Some(ToolElement(Result, b.toolName.GetOr(""), b.toolInput, b.toolResult, b.iteration))
    case TextKind => Some(TextElement(b.content.GetOr("")))
    case UnknownKind(_) => None
  }

  /** The footer's noun: plural for every count except exactly one. */
  function IterationWord(n: int): (r: string)
    ensures r == "iterations" <==> n != 1
    ensures r == "iteration" <==> n == 1
  {
    if n != 1 then "iterations" else "iteration"
  }

  function Footer(total: int): string {
    "Completed in " + IntToDecimal(total) + " " + IterationWord(total)
  }

  /** The view of one message. A user message is always a bubble; for the assistant
      a loading flag wins over a response, and a response wins over plain content.
      A response shows one slot per block, in block order. */
  function Render(m: Message): (r: View)
    ensures m.role == User ==> r == UserBubble(m.content)
    ensures m.role == Assistant && m.isLoading ==> r == LoadingIndicator
    ensures m.role == Assistant && !m.isLoading && m.response.Some? ==>
      && r.ResponseView?
      && |r.elements| == |m.response.value.blocks|
      && (forall i | 0 <= i < |r.elements| :: r.elements[i] == RenderBlock(m.response.value.blocks[i]))
      && r.footer == Footer(m.response.value.totalIterations)
    ensures m.role == Assistant && !m.isLoading && m.response.None? ==> r == PlainText(m.content)
  {
    if m.role == User then UserBubble(m.content)
    else if m.isLoading then LoadingIndicator
    else match m.response
      case Some(resp) => ResponseView(Map(RenderBlock, resp.blocks), Footer(resp.totalIterations))
      case None => PlainText(m.content)
  }

  /** A user message looks the same whatever response or loading flag it carries. */
  lemma UserViewIgnoresResponse(m: Message, response: Option<ChatResponse>, loading: bool)
    requires m.role == User
    ensures Render(m.(response := response, isLoading := loading)) == Render(m)
  {
  }

  predicate KnownBlock(b: ChatBlock) {
    !b.kind.UnknownKind?
  }

  /** The number of slots that draw something. */
  function Drawn(elements: seq<Option<Element>>): (n: nat)
    ensures n <= |elements|
  {
    if |elements| == 0 then 0
    else (if elements[0].Some? then 1 else 0) + Drawn(elements[1..])
  }

  /** Exactly the blocks of a known type are drawn, each once, and their elements
      appear in the order of those blocks. */
  lemma {:induction false} DrawnAreKnownBlocks(blocks: seq<ChatBlock>)
    ensures Drawn(Map(RenderBlock, blocks)) == |Filter(KnownBlock, blocks)|
    ensures Drawn(Map(RenderBlock, blocks)) == |blocks| <==> forall i | 0 <= i < |blocks| :: KnownBlock(blocks[i])
    decreases |blocks|
  {
    if |blocks| > 0 {
      DrawnAreKnownBlocks(blocks[1..]);
      assert Map(RenderBlock, blocks)[1..] == Map(RenderBlock, blocks[1..]);
      assert forall i | 1 <= i < |blocks| :: blocks[i] == blocks[1..][i - 1];
    }
  }

  /** Through one send: while the request is in flight the placeholder shows the loading
      indicator; once settled the last message never does, and a success carrying a
      response shows that response's blocks. */
  lemma SendRendersReply(s: ChatState, content: string, clock: Clock, reply: ServerReply)
    requires !Refused(s, content)
    ensures var p := SendMessage(s, content, clock, reply).pending;
      Render(p.messages[|p.messages| - 1]) == LoadingIndicator
    ensures var t := SendMessage(s, content, clock, reply).settled;
      var v := Render(t.messages[|t.messages| - 1]);
      && v != LoadingIndicator
      && (reply.Succeeded? && reply.response.Some? ==>
            v.ResponseView? && |v.elements| == |reply.response.value.blocks|)
      && (reply.Threw? ==> v == PlainText(FailureText))
      && (reply.Reported? ==> v == PlainText("Error: " + reply.error.GetOr("undefined")))
  {
  }
}

=== FILE: chat_service.dfy ===
/** The chat backend's agent loop: it turns the chain of model replies into
    the flat, iteration-tagged block list the frontend renders, runs every
    tool call of each reply, and keeps the conversation history it sends
    back to the model. The model replies are given as a sequence and the
    tools as oracle functions. */
module ChatService {
  import opened Wrappers
  import opened JsonValues
  import opened Seqs
  import opened ChatBlocks
  import opened ModelApi

  const RedactedText := "[Thinking content redacted]"
  const FailurePrefix := "Tool execution failed: "

  /** The tool back-ends the dispatcher calls: the two local analysis functions and the
      remote tool service, each returning a value or raising with a message. */
  datatype Oracles = Oracles(
    analyzeUser: Json -> Outcome<Json>,
    analyzeResults: Json -> Outcome<Json>,
    remote: (string, map<string, Json>) -> Outcome<Json>)

  // ---------------------------------------------------------------- tool dispatch

  /** `v.get(key, {})`: only dictionaries have `get`; anything else raises `AttributeError`. */
  function DictGet(v: Json, key: string): (r: Outcome<Json>)
    ensures v.JObj? <==> r.Ok?
    ensures v.JObj? && key in v.fields ==> r == Ok(v.fields[key])
    ensures v.JObj? && key !in v.fields ==> r == Ok(JObj(map[]))
    ensures !v.JObj? ==> r == Raised(NoAttribute(PyTypeName(v), "get"))
  {
    match v
    case JObj(fields) => Ok(if key in fields then fields[key] else JObj(map[]))
    case _ => Raised(NoAttribute(PyTypeName(v), "get"))
  }

  /** `result.get("search_results", {}).get("data", {}).get("results", {})`. */
  function RemoteResults(raw: Json): (r: Outcome<Json>)
    ensures raw == JObj(map[]) ==> r == Ok(JObj(map[]))
    ensures !raw.JObj? ==> r.Raised?
  {
    match DictGet(raw, "search_results")
    case Raised(m) => Raised(m)
    case Ok(sr) =>
      match DictGet(sr, "data")
      case Raised(m) => Raised(m)
      case Ok(data) => DictGet(data, "results")
  }

  /** The service's answer nested three levels deep is extracted whole. */
  lemma NestedResults(v: Json)
    ensures RemoteResults(Single("search_results", Single("data", Single("results", v)))) == Ok(v)
  {
    var inner := Single("results", v);
    var mid := Single("data", inner);
    assert DictGet(Single("search_results", mid), "search_results") == Ok(mid);
    assert DictGet(mid, "data") == Ok(inner);
    assert DictGet(inner, "results") == Ok(v);
  }

  /** The dispatcher's reply: a successful result under "search_results", any exception
      as its message under "error". */
  function Wrap(o: Outcome<Json>): (r: Json)
    ensures r.JObj? && |r.fields| == 1
    ensures o.Ok? ==> r == Single("search_results", o.value)
    ensures o.Raised? ==> r == Single("error", JStr(FailurePrefix + o.message))
  {
    match o
    case Ok(v) => Single("search_results", v)
    case Raised(m) => Single("error", JStr(FailurePrefix + m))
  }

  /** `_execute_tool`: the two analysis tools read their argument from the input and call
      the local function; every other name goes to the remote service, whose nested
      results are extracted. A missing argument raises `KeyError`, whose message is the
      quoted key. It never raises itself: failures become an "error" object. */
  function ExecuteTool(name: string, input: map<string, Json>, o: Oracles): (r: Json)
    ensures r.JObj? && (r.fields.Keys == {"search_results"} || r.fields.Keys == {"error"})
    ensures name == "analyze_user_account" ==>
      r == Wrap(if "user" in input then o.analyzeUser(input["user"]) else Raised("'user'"))
    ensures name == "analyze_results" ==>
      r == Wrap(if "results" in input then o.analyzeResults(input["results"]) else Raised("'results'"))
    ensures name != "analyze_user_account" && name != "analyze_results" ==>
      r == Wrap(match o.remote(name, input) case Ok(raw) => RemoteResults(raw) case Raised(m) => Raised(m))
  {
    var outcome :=
      if name == "analyze_user_account" then
        if "user" in input then o.analyzeUser(input["user"]) else Raised("'user'")
      else if name == "analyze_results" then
        if "results" in input then o.analyzeResults(input["results"]) else Raised("'results'")
      else
        match o.remote(name, input)
        case Ok(raw) => RemoteResults(raw)
        case Raised(m) => Raised(m);
    Wrap(outcome)
  }

  /** A remote result whose "search_results" is null fails with Python's message for `None.get`. */
  lemma NullRemoteResultsFail(name: string, input: map<string, Json>, o: Oracles)
    requires name != "analyze_user_account" && name != "analyze_results"
    requires o.remote(name, input) == Ok(Single("search_results", JNull))
    ensures ExecuteTool(name, input, o) == Single("error", JStr(FailurePrefix + NoAttribute("NoneType", "get")))
  {
    var raw := Single("search_results", JNull);
    assert DictGet(raw, "search_results") == Ok(JNull);
    assert RemoteResults(raw) == Raised(NoAttribute("NoneType", "get"));
  }

  // ---------------------------------------------------------------- block translation

  /** The frontend block a response block becomes in iteration `it`. */
  function Translate(b: ContentBlock, it: int): ChatBlock {
    match b
    case ThinkingContent(thinking, _) => ChatBlock(ThinkingKind, Some(thinking), None, None, None, None, Some(it))
    case RedactedContent(_) => ChatBlock(RedactedThinkingKind, Some(RedactedText), None, None, None, None, Some(it))
    case TextContent(text) => ChatBlock(TextKind, Some(text), None, None, None, None, Some(it))
    case ToolUseContent(id, name, input) => ChatBlock(ToolUseKind, None, Some(name), Some(JObj(input)), None, Some(id), Some(it))
    case OtherContent(tag) => ChatBlock(UnknownKind(tag), None, None, None, None, None, Some(it))
  }

  /** The block types the loop translates; any other type is dropped. */
  predicate Translatable(b: ContentBlock) {
    !b.OtherContent?
  }

  /** The block extraction inside the loop, one block at a time. */
  function ExtractBlocks(content: seq<ContentBlock>, it: int): (r: seq<ChatBlock>)
    ensures |r| <= |content|
    ensures forall i | 0 <= i < |r| ::
      r[i].iteration == Some(it) && !r[i].kind.UnknownKind? && !r[i].kind.ToolResultKind?
    decreases |content|
  {
    if |content| == 0 then []
    else (if Translatable(content[0]) then [Translate(content[0], it)] else []) + ExtractBlocks(content[1..], it)
  }

  /** Extraction is translation of the translatable blocks, in order. */
  lemma {:induction false} ExtractIsTranslation(content: seq<ContentBlock>, it: int)
    ensures var kept := Filter(Translatable, content);
      && |ExtractBlocks(content, it)| == |kept|
      && forall i | 0 <= i < |kept| :: ExtractBlocks(content, it)[i] == Translate(kept[i], it)
    decreases |content|
  {
    if |content| > 0 {
      var b := content[0];
      var tail := ExtractBlocks(content[1..], it);
      var keptTail := Filter(Translatable, content[1..]);
      ExtractIsTranslation(content[1..], it);
      if Translatable(b) {
        assert Filter(Translatable, content) == [b] + keptTail;
        assert ExtractBlocks(content, it) == [Translate(b, it)] + tail;
      } else {
        assert Filter(Translatable, content) == keptTail;
        assert ExtractBlocks(content, it) == tail;
      }
    }
  }

  predicate NotToolUse(b: ChatBlock) {
    !b.kind.ToolUseKind?
  }

  /** The extraction after the loop, which has no tool-use case. */
  function FinalBlocks(content: seq<ContentBlock>, it: int): (r: seq<ChatBlock>)
    ensures |r| <= |content|
    ensures forall i | 0 <= i < |r| ::
      r[i].iteration == Some(it) && (r[i].kind.ThinkingKind? || r[i].kind.RedactedThinkingKind? || r[i].kind.TextKind?)
    decreases |content|
  {
    if |content| == 0 then []
    else
      (if Translatable(content[0]) && !content[0].ToolUseContent? then [Translate(content[0], it)] else [])
      + FinalBlocks(content[1..], it)
  }

  /** The final extraction is the loop's extraction with tool-use blocks removed. */
  lemma {:induction false} FinalIsExtractWithoutTools(content: seq<ContentBlock>, it: int)
    ensures FinalBlocks(content, it) == Filter(NotToolUse, ExtractBlocks(content, it))
    decreases |content|
  {
    if |content| > 0 {
      var tail := ExtractBlocks(content[1..], it);
      FinalIsExtractWithoutTools(content[1..], it);
      var head := if Translatable(content[0]) then [Translate(content[0], it)] else [];
      assert ExtractBlocks(content, it) == head + tail;
      FilterConcat(NotToolUse, head, tail);
      FinalHead(content[0], it);
    }
  }

  /** On one block, the final extraction is the loop's extraction with tool use removed. */
  lemma FinalHead(b: ContentBlock, it: int)
    ensures Filter(NotToolUse, if Translatable(b) then [Translate(b, it)] else [])
      == if Translatable(b) && !b.ToolUseContent? then [Translate(b, it)] else []
  {
    if Translatable(b) {
      assert [Translate(b, it)][1..] == [];
    }
  }

  /** Extraction distributes over concatenation of response contents. */
  lemma {:induction false} ExtractConcat(a: seq<ContentBlock>, b: seq<ContentBlock>, it: int)
    ensures ExtractBlocks(a + b, it) == ExtractBlocks(a, it) + ExtractBlocks(b, it)
    decreases |a|
  {
    if |a| > 0 {
      assert (a + b)[1..] == a[1..] + b;
      ExtractConcat(a[1..], b, it);
    } else {
      assert a + b == b;
    }
  }

  // ---------------------------------------------------------------- tool names

  /** The tool names of the blocks of one kind, in order. */
  function NamesOf(blocks: seq<ChatBlock>, kind: BlockKind): (r: seq<Option<string>>)
    ensures |r| <= |blocks|
    decreases |blocks|
  {
    if |blocks| == 0 then []
    else (if blocks[0].kind == kind then [blocks[0].toolName] else []) + NamesOf(blocks[1..], kind)
  }

  lemma {:induction false} NamesOfConcat(a: seq<ChatBlock>, b: seq<ChatBlock>, kind: BlockKind)
    ensures NamesOf(a + b, kind) == NamesOf(a, kind) + NamesOf(b, kind)
    decreases |a|
  {
    if |a| > 0 {
      assert (a + b)[1..] == a[1..] + b;
      NamesOfConcat(a[1..], b, kind);
    } else {
      assert a + b == b;
    }
  }

  function NameOf(c: ToolCall): Option<string> {
    Some(c.name)
  }

  /** A single block names its tool exactly when it has the kind asked for. */
  lemma NamesOfSingle(b: ChatBlock, kind: BlockKind)
    ensures NamesOf([b], kind) == if b.kind == kind then [b.toolName] else []
  {
    assert [b][1..] == [];
  }

  /** The tool-use blocks extracted from a response name its tool calls, in order. */
  lemma {:induction false} ExtractedUseNames(content: seq<ContentBlock>, it: int)
    ensures NamesOf(ExtractBlocks(content, it), ToolUseKind) == Map(NameOf, ToolCalls(content))
    ensures NamesOf(ExtractBlocks(content, it), ToolResultKind) == []
    decreases |content|
  {
    if |content| > 0 {
      var b := content[0];
      var tail := ExtractBlocks(content[1..], it);
      ExtractedUseNames(content[1..], it);
      var head := if Translatable(b) then [Translate(b, it)] else [];
      assert ExtractBlocks(content, it) == head + tail;
      NamesOfConcat(head, tail, ToolUseKind);
      NamesOfConcat(head, tail, ToolResultKind);
      HeadNames(b, it);
      CallNamesHead(content);
    }
  }

  /** The names one translated block contributes: its tool's, when it is a tool use. */
  lemma HeadNames(b: ContentBlock, it: int)
    ensures var head := if Translatable(b) then [Translate(b, it)] else [];
      && NamesOf(head, ToolUseKind) == (if b.ToolUseContent? then [Some(b.name)] else [])
      && NamesOf(head, ToolResultKind) == []
  {
    if Translatable(b) {
      NamesOfSingle(Translate(b, it), ToolUseKind);
      NamesOfSingle(Translate(b, it), ToolResultKind);
    }
  }

  /** The tool-call names of a response: its first block's, then the rest's. */
  lemma CallNamesHead(content: seq<ContentBlock>)
    requires |content| > 0
    ensures Map(NameOf, ToolCalls(content))
      == (if content[0].ToolUseContent? then [Some(content[0].name)] else []) + Map(NameOf, ToolCalls(content[1..]))
  {
    ToolCallsHead(content);
    NamesOfCalls(FirstCall(content[0]), ToolCalls(content[1..]));
    FirstCallName(content[0]);
  }

  lemma FirstCallName(b: ContentBlock)
    ensures Map(NameOf, FirstCall(b)) == if b.ToolUseContent? then [Some(b.name)] else []
  {
    var m := Map(NameOf, FirstCall(b));
    if b.ToolUseContent? {
      assert |m| == 1 && m[0] == NameOf(FirstCall(b)[0]);
    } else {
      assert |m| == 0;
    }
  }

  /** Tool-call names distribute over concatenation. */
  lemma NamesOfCalls(a: seq<ToolCall>, b: seq<ToolCall>)
    ensures Map(NameOf, a + b) == Map(NameOf, a) + Map(NameOf, b)
  {
    var l, r := Map(NameOf, a + b), Map(NameOf, a) + Map(NameOf, b);
    forall i | 0 <= i < |l|
      ensures l[i] == r[i]
    {
      if i < |a| {
        assert (a + b)[i] == a[i];
      } else {
        assert (a + b)[i] == b[i - |a|];
      }
    }
  }

  /** The result block appended for one tool call: it carries the call's name and input
      and the dispatcher's reply, but not the call's id. */
  function ResultBlock(c: ToolCall, it: int, o: Oracles): ChatBlock {
    ChatBlock(ToolResultKind, None, Some(c.name), Some(JObj(c.input)), Some(ExecuteTool(c.name, c.input, o)), None, Some(it))
  }

  function ToolResultBlocks(calls: seq<ToolCall>, it: int, o: Oracles): (r: seq<ChatBlock>)
    ensures |r| == |calls|
    ensures forall k | 0 <= k < |calls| :: r[k] == ResultBlock(calls[k], it, o)
  {
    seq(|calls|, k requires 0 <= k < |calls| => ResultBlock(calls[k], it, o))
  }

  /** Blocks that all have the given kind name their tools, one per block. */
  lemma {:induction false} NamesOfAll(blocks: seq<ChatBlock>, kind: BlockKind)
    requires forall i | 0 <= i < |blocks| :: blocks[i].kind == kind
    ensures |NamesOf(blocks, kind)| == |blocks|
    ensures forall i | 0 <= i < |blocks| :: NamesOf(blocks, kind)[i] == blocks[i].toolName
    decreases |blocks|
  {
    if |blocks| > 0 {
      NamesOfAll(blocks[1..], kind);
      assert NamesOf(blocks, kind) == [blocks[0].toolName] + NamesOf(blocks[1..], kind);
    }
  }

  /** The result blocks name the calls they answer, in order, and are never tool-use blocks. */
  lemma ResultNames(calls: seq<ToolCall>, it: int, o: Oracles)
    ensures NamesOf(ToolResultBlocks(calls, it, o), ToolResultKind) == Map(NameOf, calls)
    ensures NamesOf(ToolResultBlocks(calls, it, o), ToolUseKind) == []
  {
    var r := ToolResultBlocks(calls, it, o);
    assert forall i | 0 <= i < |r| :: r[i].kind == ToolResultKind && r[i].toolName == NameOf(calls[i]);
    NamesOfAll(r, ToolResultKind);
    NamesOfAbsent(r, ToolUseKind);
  }

  /** The history entry answering one tool call. */
  function Entries(calls: seq<ToolCall>, o: Oracles): (r: seq<ToolResultEntry>)
    ensures EntryIds(r) == CallIds(calls)
    ensures forall k | 0 <= k < |calls| :: r[k].content == ExecuteTool(calls[k].name, calls[k].input, o)
  {
    seq(|calls|, k requires 0 <= k < |calls| => ToolResultEntry(calls[k].id, ExecuteTool(calls[k].name, calls[k].input, o)))
  }

  /** The blocks one loop iteration contributes: its extracted blocks, then one result
      block per tool call. Tool-use and tool-result blocks pair up by name. */
  function IterationBlocks(content: seq<ContentBlock>, it: int, o: Oracles): (r: seq<ChatBlock>)
    ensures forall i | 0 <= i < |r| :: r[i].iteration == Some(it) && !r[i].kind.UnknownKind?
    ensures NamesOf(r, ToolUseKind) == NamesOf(r, ToolResultKind)
  {
    var e := ExtractBlocks(content, it);
    var t := ToolResultBlocks(ToolCalls(content), it, o);
    assert NamesOf(e + t, ToolUseKind) == NamesOf(e + t, ToolResultKind) by {
      ExtractedUseNames(content, it);
      ResultNames(ToolCalls(content), it, o);
      NamesOfConcat(e, t, ToolUseKind);
      NamesOfConcat(e, t, ToolResultKind);
    }
    e + t
  }

  // ---------------------------------------------------------------- the loop

  /** What the loop adds from iteration `iteration + 1` on. */
  datatype Tail = Tail(blocks: seq<ChatBlock>, stopReason: string, totalIterations: int, history: seq<HistoryMessage>)

  function Tag(b: ChatBlock): int {
    b.iteration.GetOr(0)
  }

  /** Every block carries an iteration tag, and the tags lie in `(lo, hi]`. */
  predicate TaggedWithin(blocks: seq<ChatBlock>, lo: int, hi: int) {
    forall i | 0 <= i < |blocks| :: blocks[i].iteration.Some? && lo < Tag(blocks[i]) <= hi
  }

  /** The tags never decrease along the list. */
  predicate TagsSorted(blocks: seq<ChatBlock>) {
    forall i | 0 < i < |blocks| :: Tag(blocks[i - 1]) <= Tag(blocks[i])
  }

  /** Tool-use blocks come from iterations before `total`. */
  predicate UsesBefore(blocks: seq<ChatBlock>, total: int) {
    forall i | 0 <= i < |blocks| && blocks[i].kind.ToolUseKind? :: Tag(blocks[i]) < total
  }

  /** Tool-use and tool-result blocks name the same tools in the same order. */
  predicate NamesPaired(blocks: seq<ChatBlock>) {
    NamesOf(blocks, ToolUseKind) == NamesOf(blocks, ToolResultKind)
  }

  /** The loop's invariants over the blocks it adds after `iteration` completed iterations:
      tags lie above `iteration` and at most the total (below it after a break, which adds
      no final blocks), never decrease, tool-use blocks precede the final iteration, and
      tool-use and tool-result blocks name the same tools in the same order. */
  predicate BlockFacts(blocks: seq<ChatBlock>, stopReason: string, total: int, iteration: nat) {
    && total > iteration
    && TaggedWithin(blocks, iteration, if stopReason == ToolUseStop then total - 1 else total)
    && TagsSorted(blocks)
    && UsesBefore(blocks, total)
    && NamesPaired(blocks)
  }

  /** Blocks all tagged `it` are sorted and lie in `(it - 1, it]`. */
  lemma UniformTags(blocks: seq<ChatBlock>, it: int)
    requires forall i | 0 <= i < |blocks| :: blocks[i].iteration == Some(it)
    ensures TaggedWithin(blocks, it - 1, it) && TagsSorted(blocks)
  {
    forall i | 0 < i < |blocks|
      ensures Tag(blocks[i - 1]) <= Tag(blocks[i])
    {
      assert blocks[i - 1].iteration == Some(it) && blocks[i].iteration == Some(it);
    }
  }

  /** Tag bounds, widened, hold of a concatenation when they hold of both parts. */
  lemma TaggedConcat(a: seq<ChatBlock>, b: seq<ChatBlock>, lo: int, hi: int, lo': int, hi': int)
    requires lo' <= lo && hi <= hi'
    requires TaggedWithin(a, lo, hi) && TaggedWithin(b, lo, hi')
    ensures TaggedWithin(a + b, lo', hi')
  {
    forall i | 0 <= i < |a + b|
      ensures (a + b)[i].iteration.Some? && lo' < Tag((a + b)[i]) <= hi'
    {
      if i < |a| {
        assert (a + b)[i] == a[i];
      } else {
        assert (a + b)[i] == b[i - |a|];
      }
    }
  }

  /** Two sorted lists whose junction does not step down are sorted together. */
  lemma SortedConcat(a: seq<ChatBlock>, b: seq<ChatBlock>, bound: int)
    requires TagsSorted(a) && TagsSorted(b)
    requires forall i | 0 <= i < |a| :: Tag(a[i]) <= bound
    requires forall i | 0 <= i < |b| :: bound < Tag(b[i])
    ensures TagsSorted(a + b)
  {
    var all := a + b;
    forall i | 0 < i < |all|
      ensures Tag(all[i - 1]) <= Tag(all[i])
    {
      if i < |a| {
        assert all[i - 1] == a[i - 1] && all[i] == a[i];
      } else if i == |a| {
        assert all[i - 1] == a[i - 1] && all[i] == b[0];
      } else {
        assert all[i - 1] == b[i - 1 - |a|] && all[i] == b[i - |a|];
      }
    }
  }

  /** The tool-use bound holds of a concatenation when it holds of both parts. */
  lemma UsesConcat(a: seq<ChatBlock>, b: seq<ChatBlock>, total: int)
    requires UsesBefore(a, total) && UsesBefore(b, total)
    ensures UsesBefore(a + b, total)
  {
    forall i | 0 <= i < |a + b| && (a + b)[i].kind.ToolUseKind?
      ensures Tag((a + b)[i]) < total
    {
      if i < |a| {
        assert (a + b)[i] == a[i];
      } else {
        assert (a + b)[i] == b[i - |a|];
      }
    }
  }

  /** The loop's invariants over the history it adds: one assistant turn per iteration,
      each answered by a tool-results message listing its tool calls' ids, except after a break. */
  predicate HistoryFacts(history: seq<HistoryMessage>, stopReason: string, total: int, iteration: nat) {
    && |history| + (if stopReason == ToolUseStop then 1 else 0) == 2 * (total - iteration - 1)
    && (forall i | 0 <= i < |history| :: history[i].role == (if i % 2 == 0 then Assistant else User))
    && (forall i | 0 <= i < |history| :: history[i].content.AssistantTurn? <==> i % 2 == 0)
    && (forall i | 0 < i < |history| && i % 2 == 1 ::
          history[i].content.ToolResults?
          && EntryIds(history[i].content.entries) == CallIds(ToolCalls(history[i - 1].content.blocks)))
  }

  predicate TailFacts(t: Tail, iteration: nat) {
    BlockFacts(t.blocks, t.stopReason, t.totalIterations, iteration)
    && HistoryFacts(t.history, t.stopReason, t.totalIterations, iteration)
  }

  /** `_handle_response_chain` from the reply at hand on, after `iteration` iterations:
      while a reply stops for tool use and holds tool calls, its blocks and its tool results
      are recorded and the next reply is taken; a reply that stops for tool use without
      calls breaks out; any other reply contributes its final blocks. */
  function Chain(replies: seq<ApiReply>, iteration: nat, o: Oracles): (r: Outcome<Tail>)
    requires Ends(replies)
    ensures replies[0].ApiFailed? ==> r == Raised(replies[0].message)
    ensures r.Raised? <==> replies[Settle(replies)].ApiFailed?
    ensures r.Raised? ==> r.message == replies[Settle(replies)].message
    ensures r.Ok? ==> TailFacts(r.value, iteration)
    decreases |replies|
  {
    match replies[0]
    case ApiFailed(msg) => Raised(msg)
    case Answered(resp) =>
      if resp.stopReason != ToolUseStop then Ok(FinalTail(resp, iteration))
      else if |ToolCalls(resp.content)| == 0 then Ok(BreakTail(resp, iteration))
      else
        match Chain(replies[1..], iteration + 1, o)
        case Raised(msg) => Raised(msg)
        case Ok(rest) => Ok(StepTail(resp, iteration + 1, o, rest))
  }

  /** A reply that does not stop for tool use: its final blocks, tagged with the next iteration. */
  function FinalTail(resp: ModelResponse, iteration: nat): (t: Tail)
    requires resp.stopReason != ToolUseStop
    ensures TailFacts(t, iteration)
    ensures t.blocks == FinalBlocks(resp.content, iteration + 1) && t.history == []
  {
    var t := Tail(FinalBlocks(resp.content, iteration + 1), resp.stopReason, iteration + 1, []);
    UniformTags(t.blocks, iteration + 1);
    NamesOfAbsent(t.blocks, ToolUseKind);
    NamesOfAbsent(t.blocks, ToolResultKind);
    t
  }

  /** A reply that stops for tool use but holds no tool call: its blocks and its assistant
      turn are recorded, then the loop breaks with no final blocks. */
  function BreakTail(resp: ModelResponse, iteration: nat): (t: Tail)
    requires resp.stopReason == ToolUseStop && |ToolCalls(resp.content)| == 0
    ensures TailFacts(t, iteration)
    ensures t.blocks == ExtractBlocks(resp.content, iteration + 1)
    ensures t.history == [HistoryMessage(Assistant, AssistantTurn(HistoryBlocks(resp.content)))]
  {
    var it := iteration + 1;
    var t := Tail(ExtractBlocks(resp.content, it), resp.stopReason, it + 1,
                  [HistoryMessage(Assistant, AssistantTurn(HistoryBlocks(resp.content)))]);
    UniformTags(t.blocks, it);
    assert NamesPaired(t.blocks) by {
      ExtractedUseNames(resp.content, it);
      assert Map(NameOf, ToolCalls(resp.content)) == [];
    }
    t
  }

  /** A continuing reply in front of what the rest of the chain adds: its blocks and tool
      results come first, and its assistant turn and tool-results message open the history. */
  function StepTail(resp: ModelResponse, it: nat, o: Oracles, rest: Tail): (t: Tail)
    requires it >= 1 && Continues(resp) && TailFacts(rest, it)
    ensures TailFacts(t, it - 1)
    ensures t.blocks == IterationBlocks(resp.content, it, o) + rest.blocks
    ensures t.stopReason == rest.stopReason && t.totalIterations == rest.totalIterations
    ensures t.history == [HistoryMessage(Assistant, AssistantTurn(HistoryBlocks(resp.content))),
                          HistoryMessage(User, ToolResults(Entries(ToolCalls(resp.content), o)))] + rest.history
  {
    var turn := HistoryMessage(Assistant, AssistantTurn(HistoryBlocks(resp.content)));
    var answer := HistoryMessage(User, ToolResults(Entries(ToolCalls(resp.content), o)));
    var here := IterationBlocks(resp.content, it, o);
    assert BlockFacts(here + rest.blocks, rest.stopReason, rest.totalIterations, it - 1) by {
      StepBlockFacts(here, it, rest);
    }
    assert HistoryFacts([turn, answer] + rest.history, rest.stopReason, rest.totalIterations, it - 1) by {
      assert EntryIds(answer.content.entries) == CallIds(ToolCalls(turn.content.blocks)) by {
        ToolCallsSurviveHistory(resp.content);
      }
      StepHistoryFacts(turn, answer, it, rest);
    }
    Tail(here + rest.blocks, rest.stopReason, rest.totalIterations, [turn, answer] + rest.history)
  }

  /** One iteration's blocks, all tagged `it` and pairing tool names, in front of blocks
      that keep the invariants after `it` iterations keep them after `it - 1`. */
  lemma StepBlockFacts(here: seq<ChatBlock>, it: nat, rest: Tail)
    requires it >= 1
    requires forall i | 0 <= i < |here| :: here[i].iteration == Some(it)
    requires NamesPaired(here)
    requires BlockFacts(rest.blocks, rest.stopReason, rest.totalIterations, it)
    ensures BlockFacts(here + rest.blocks, rest.stopReason, rest.totalIterations, it - 1)
  {
    var total := rest.totalIterations;
    var hi := if rest.stopReason == ToolUseStop then total - 1 else total;
    UniformTags(here, it);
    TaggedConcat(here, rest.blocks, it - 1, it, it - 1, hi);
    assert forall i | 0 <= i < |rest.blocks| :: it < Tag(rest.blocks[i]);
    SortedConcat(here, rest.blocks, it);
    assert UsesBefore(here, total);
    UsesConcat(here, rest.blocks, total);
    NamesOfConcat(here, rest.blocks, ToolUseKind);
    NamesOfConcat(here, rest.blocks, ToolResultKind);
  }

  /** An assistant turn and the tool results answering it, in front of a history that keeps
      the invariants after `it` iterations, keep them after `it - 1`. */
  lemma StepHistoryFacts(turn: HistoryMessage, answer: HistoryMessage, it: nat, rest: Tail)
    requires it >= 1
    requires turn.role == Assistant && turn.content.AssistantTurn?
    requires answer.role == User && answer.content.ToolResults?
    requires EntryIds(answer.content.entries) == CallIds(ToolCalls(turn.content.blocks))
    requires HistoryFacts(rest.history, rest.stopReason, rest.totalIterations, it)
    ensures HistoryFacts([turn, answer] + rest.history, rest.stopReason, rest.totalIterations, it - 1)
  {
    var h := [turn, answer] + rest.history;
    forall i | 0 <= i < |h|
      ensures h[i].role == (if i % 2 == 0 then Assistant else User)
      ensures h[i].content.AssistantTurn? <==> i % 2 == 0
    {
      if i >= 2 {
        assert h[i] == rest.history[i - 2];
        assert (i - 2) % 2 == i % 2;
      }
    }
    forall i | 0 < i < |h| && i % 2 == 1
      ensures h[i].content.ToolResults?
      ensures EntryIds(h[i].content.entries) == CallIds(ToolCalls(h[i - 1].content.blocks))
    {
      if i >= 2 {
        assert h[i] == rest.history[i - 2] && h[i - 1] == rest.history[i - 3];
        assert (i - 2) % 2 == 1;
      }
    }
  }

  /** Blocks of which none has the given kind name no tools of that kind. */
  lemma {:induction false} NamesOfAbsent(blocks: seq<ChatBlock>, kind: BlockKind)
    requires forall i | 0 <= i < |blocks| :: blocks[i].kind != kind
    ensures NamesOf(blocks, kind) == []
    decreases |blocks|
  {
    if |blocks| > 0 {
      NamesOfAbsent(blocks[1..], kind);
    }
  }

  // ---------------------------------------------------------------- process_message

  datatype ProcessResult = Success(response: ChatResponse) | Failure(error: string)

  /** `process_message`: the first model call answers the prompt and the chain takes it from
      there. A model call that raises makes the whole result a failure carrying its message;
      otherwise the response holds the chain's blocks, final stop reason and iteration count,
      which keep the invariants of `BlockFacts` from iteration 1 on. */
  function ProcessMessage(userMessage: string, replies: seq<ApiReply>, o: Oracles): (r: ProcessResult)
    requires Ends(replies)
    ensures replies[0].ApiFailed? ==> r == Failure(replies[0].message)
    ensures r.Failure? <==> replies[Settle(replies)].ApiFailed?
    ensures r.Failure? ==> r.error == replies[Settle(replies)].message
    ensures r.Success? ==>
      BlockFacts(r.response.blocks, r.response.stopReason, r.response.totalIterations, 0)
  {
    match Chain(replies, 0, o)
    case Ok(t) => Success(ChatResponse(t.blocks, t.stopReason, t.totalIterations))
    case Raised(msg) => Failure(msg)
  }

  /** The history the last model call is sent (extended by a break's assistant turn): the
      prompt, then one assistant turn per iteration, each answered by its tool results. */
  function Conversation(userMessage: string, replies: seq<ApiReply>, o: Oracles): (r: Outcome<seq<HistoryMessage>>)
    requires Ends(replies)
    ensures r.Ok? <==> ProcessMessage(userMessage, replies, o).Success?
    ensures r.Ok? ==>
      && |r.value| >= 1 && r.value[0] == HistoryMessage(User, Prompt(userMessage))
      && RolesAlternate(r.value) && ResultsAnswerCalls(r.value)
  {
    match Chain(replies, 0, o)
    case Ok(t) =>
      var h := [HistoryMessage(User, Prompt(userMessage))] + t.history;
      assert RolesAlternate(h) && ResultsAnswerCalls(h) by {
        PromptFirst(HistoryMessage(User, Prompt(userMessage)), t.history, t.stopReason, t.totalIterations);
      }
      Ok(h)
    case Raised(msg) => Raised(msg)
  }

  /** The prompt in front of a history the loop built gives an alternating history in
      which every tool-results message answers the turn before it. */
  lemma PromptFirst(prompt: HistoryMessage, history: seq<HistoryMessage>, stopReason: string, total: int)
    requires prompt.role == User && prompt.content.Prompt?
    requires HistoryFacts(history, stopReason, total, 0)
    ensures var h := [prompt] + history;
      && RolesAlternate(h) && ResultsAnswerCalls(h)
      && |h| == 2 * total - 1 - (if stopReason == ToolUseStop then 1 else 0)
      && (h[|h| - 1].role == Assistant <==> stopReason == ToolUseStop)
  {
    var h := [prompt] + history;
    forall i | 1 <= i < |h|
      ensures h[i] == history[i - 1]
      ensures h[i].role == (if i % 2 == 0 then User else Assistant)
    {
      assert (i - 1) % 2 == 0 <==> i % 2 == 1;
    }
    forall i | 0 < i < |h| && h[i].content.ToolResults?
      ensures h[i - 1].content.AssistantTurn?
      ensures EntryIds(h[i].content.entries) == CallIds(ToolCalls(h[i - 1].content.blocks))
    {
      assert h[i] == history[i - 1];
      assert (i - 1) % 2 == 1;
      assert h[i - 1] == history[i - 2];
    }
    if |history| > 0 {
      assert (|h| - 1) % 2 == 0 <==> stopReason != ToolUseStop;
    }
  }

  /** The history has one assistant turn per iteration, so its length is fixed by the
      iteration count, and it ends on an assistant turn exactly when the loop broke out
      with the stop reason still "tool_use". */
  lemma HistoryCountsIterations(userMessage: string, replies: seq<ApiReply>, o: Oracles)
    requires Ends(replies) && ProcessMessage(userMessage, replies, o).Success?
    ensures Conversation(userMessage, replies, o).Ok?
    ensures var h := Conversation(userMessage, replies, o).value;
      var resp := ProcessMessage(userMessage, replies, o).response;
      && |h| == 2 * resp.totalIterations - 1 - (if resp.stopReason == ToolUseStop then 1 else 0)
      && (h[|h| - 1].role == Assistant <==> resp.stopReason == ToolUseStop)
  {
    var t := Chain(replies, 0, o).value;
    PromptFirst(HistoryMessage(User, Prompt(userMessage)), t.history, t.stopReason, t.totalIterations);
  }

  /** A first reply that does not stop for tool use is the whole answer: one iteration,
      its final blocks tagged 1, and its stop reason. */
  lemma DirectAnswer(userMessage: string, resp: ModelResponse, more: seq<ApiReply>, o: Oracles)
    requires resp.stopReason != ToolUseStop
    ensures Ends([Answered(resp)] + more)
    ensures ProcessMessage(userMessage, [Answered(resp)] + more, o)
      == Success(ChatResponse(FinalBlocks(resp.content, 1), resp.stopReason, 1))
  {
  }
}

=== FILE: financial_dashboard.dfy ===
/** The aggregation behind the financial dashboard: totals over a user's
    accounts, net income, per-category grouping of expenses and deposits,
    the category colour palettes and the net-income styling.
    Amounts are exact integers (cents). */
module FinancialDashboard {
  import opened Wrappers

  /** An expense or a deposit; both carry the same fields. */
  datatype Entry = Entry(id: int, amount: int, category: string)

  datatype Account = Account(id: int, name: string, expenses: seq<Entry>, deposits: seq<Entry>, balance: int)

  datatype FinancialUser = FinancialUser(id: int, accounts: seq<Account>)

  /** The type tag `'expense' | 'deposit'`. */
  datatype EntryKind = Expense | Deposit

  datatype CategorySummary = CategorySummary(category: string, amount: int, kind: EntryKind)

  datatype FinancialSummary = FinancialSummary(
    totalBalance: int,
    totalIncome: int,
    totalExpenses: int,
    netIncome: int,
    expensesByCategory: seq<CategorySummary>,
    incomeByCategory: seq<CategorySummary>)

  /** `reduce((sum, e) => sum + e.amount, 0)`, folded from the left. */
  function SumAmounts(items: seq<Entry>): int
    decreases |items|
  {
    if |items| == 0 then 0 else SumAmounts(items[..|items| - 1]) + items[|items| - 1].amount
  }

  /** The sum of the amounts of the items carrying category `c`. */
  function CategoryTotal(items: seq<Entry>, c: string): int
    decreases |items|
  {
    if |items| == 0 then 0
    else CategoryTotal(items[..|items| - 1], c) + (if items[|items| - 1].category == c then items[|items| - 1].amount else 0)
  }

  /** The categories present among the items. */
  function CategoriesOf(items: seq<Entry>): set<string> {
    set i | 0 <= i < |items| :: items[i].category
  }

  /** The categories a grouping emits. */
  function GroupCategories(groups: seq<CategorySummary>): set<string> {
    set i | 0 <= i < |groups| :: groups[i].category
  }

  /** The sum of the amounts of a grouping. */
  function SumGroups(groups: seq<CategorySummary>): int
    decreases |groups|
  {
    if |groups| == 0 then 0 else groups[0].amount + SumGroups(groups[1..])
  }

  predicate DistinctCategories(groups: seq<CategorySummary>) {
    forall i, j | 0 <= i < j < |groups| :: groups[i].category != groups[j].category
  }

  /** One step of the `reduce` in `groupByCategory`: start the item's category at zero
      when it is absent, then add the item's amount to it. */
  function AddToGroup(groups: seq<CategorySummary>, e: Entry, kind: EntryKind): (r: seq<CategorySummary>)
    requires DistinctCategories(groups)
    ensures AddedTo(groups, e, kind, r)
    decreases |groups|
  {
    if |groups| == 0 then [CategorySummary(e.category, e.amount, kind)]
    else if groups[0].category == e.category then [groups[0].(amount := groups[0].amount + e.amount)] + groups[1..]
    else
      var rest := AddToGroup(groups[1..], e, kind);
      AddBehind(groups, e, kind, rest);
      [groups[0]] + rest
  }

  /** The post-state of one addition, as seen from the groups before it. */
  predicate AddedTo(groups: seq<CategorySummary>, e: Entry, kind: EntryKind, r: seq<CategorySummary>) {
    && DistinctCategories(r)
    && (|r| == |groups| || |r| == |groups| + 1)
    && (forall i | 0 <= i < |groups| ::
          r[i] == groups[i].(amount := groups[i].amount + (if groups[i].category == e.category then e.amount else 0)))
    && (|r| == |groups| + 1 <==> e.category !in GroupCategories(groups))
    && (|r| == |groups| + 1 ==> r[|groups|] == CategorySummary(e.category, e.amount, kind))
  }

  /** An addition that skips the first group keeps it in front of the rest's result. */
  lemma AddBehind(groups: seq<CategorySummary>, e: Entry, kind: EntryKind, rest: seq<CategorySummary>)
    requires |groups| > 0 && groups[0].category != e.category && DistinctCategories(groups)
    requires AddedTo(groups[1..], e, kind, rest)
    ensures AddedTo(groups, e, kind, [groups[0]] + rest)
  {
    var r := [groups[0]] + rest;
    assert GroupCategories(groups) == {groups[0].category} + GroupCategories(groups[1..]);
    forall i | 0 <= i < |groups|
      ensures r[i] == groups[i].(amount := groups[i].amount + (if groups[i].category == e.category then e.amount else 0))
    {
      if i > 0 {
        assert r[i] == rest[i - 1] && groups[i] == groups[1..][i - 1];
      }
    }
    forall i, j | 0 <= i < j < |r|
      ensures r[i].category != r[j].category
    {
      if i == 0 {
        assert r[j] == rest[j - 1];
        if j - 1 < |groups| - 1 {
          assert groups[1..][j - 1] == groups[j];
        } else {
          assert groups[0].category in GroupCategories(groups) - {e.category};
        }
      } else {
        assert r[i] == rest[i - 1] && r[j] == rest[j - 1];
      }
    }
  }

  /** `groupByCategory(items, type)`: one summary per distinct category, whose amount is the
      category's total and whose tag is `kind`, covering exactly the categories present. */
  function GroupByCategory(items: seq<Entry>, kind: EntryKind): (r: seq<CategorySummary>)
    ensures GroupsItems(r, items, kind)
    decreases |items|
  {
    if |items| == 0 then []
    else
      var prefix := items[..|items| - 1];
      var e := items[|items| - 1];
      var groups := GroupByCategory(prefix, kind);
      GroupStep(items, groups, kind);
      AddToGroup(groups, e, kind)
  }

  /** The grouping invariant: distinct categories, each carrying its total and the tag. */
  predicate GroupsItems(groups: seq<CategorySummary>, items: seq<Entry>, kind: EntryKind) {
    && DistinctCategories(groups)
    && (forall i | 0 <= i < |groups| :: groups[i].kind == kind && groups[i].amount == CategoryTotal(items, groups[i].category))
    && GroupCategories(groups) == CategoriesOf(items)
  }

  /** Adding the last item to a grouping of the others groups them all. */
  lemma GroupStep(items: seq<Entry>, groups: seq<CategorySummary>, kind: EntryKind)
    requires |items| > 0 && GroupsItems(groups, items[..|items| - 1], kind)
    ensures GroupsItems(AddToGroup(groups, items[|items| - 1], kind), items, kind)
  {
    var prefix := items[..|items| - 1];
    var e := items[|items| - 1];
    var r := AddToGroup(groups, e, kind);
    assert CategoriesOf(items) == CategoriesOf(prefix) + {e.category} by {
      assert forall i | 0 <= i < |prefix| :: prefix[i] == items[i];
    }
    forall i | 0 <= i < |r|
      ensures r[i].kind == kind && r[i].amount == CategoryTotal(items, r[i].category)
    {
      if i == |groups| {
        AbsentCategoryTotal(prefix, e.category);
      }
    }
    assert GroupCategories(r) == GroupCategories(groups) + {e.category} by {
      if |r| == |groups| {
        assert e.category in GroupCategories(groups);
      }
    }
  }

  /** A category that no item carries totals zero. */
  lemma {:induction false} AbsentCategoryTotal(items: seq<Entry>, c: string)
    requires c !in CategoriesOf(items)
    ensures CategoryTotal(items, c) == 0
    decreases |items|
  {
    if |items| > 0 {
      var prefix := items[..|items| - 1];
      assert forall i | 0 <= i < |prefix| :: prefix[i] == items[i];
      AbsentCategoryTotal(prefix, c);
    }
  }

  /** Adding an item to a grouping raises the grouping's sum by its amount. */
  lemma {:induction false} AddToGroupSum(groups: seq<CategorySummary>, e: Entry, kind: EntryKind)
    requires DistinctCategories(groups)
    ensures SumGroups(AddToGroup(groups, e, kind)) == SumGroups(groups) + e.amount
    decreases |groups|
  {
    if |groups| > 0 && groups[0].category != e.category {
      AddToGroupSum(groups[1..], e, kind);
      var r := AddToGroup(groups, e, kind);
      assert r[1..] == AddToGroup(groups[1..], e, kind);
    } else if |groups| > 0 {
      var r := AddToGroup(groups, e, kind);
      assert r[1..] == groups[1..];
    }
  }

  /** The grouped amounts add up to the sum of all the items. */
  lemma {:induction false} GroupedSumIsTotal(items: seq<Entry>, kind: EntryKind)
    ensures SumGroups(GroupByCategory(items, kind)) == SumAmounts(items)
    decreases |items|
  {
    if |items| > 0 {
      GroupedSumIsTotal(items[..|items| - 1], kind);
      AddToGroupSum(GroupByCategory(items[..|items| - 1], kind), items[|items| - 1], kind);
    }
  }

  /** `accounts.flatMap(a => a.expenses)`, in account order. */
  function AllExpenses(accounts: seq<Account>): seq<Entry>
    decreases |accounts|
  {
    if |accounts| == 0 then [] else accounts[0].expenses + AllExpenses(accounts[1..])
  }

  /** `accounts.flatMap(a => a.deposits)`, in account order. */
  function AllDeposits(accounts: seq<Account>): seq<Entry>
    decreases |accounts|
  {
    if |accounts| == 0 then [] else accounts[0].deposits + AllDeposits(accounts[1..])
  }

  /** `accounts.reduce((sum, a) => sum + a.balance, 0)`. */
  function SumBalances(accounts: seq<Account>): int
    decreases |accounts|
  {
    if |accounts| == 0 then 0 else SumBalances(accounts[..|accounts| - 1]) + accounts[|accounts| - 1].balance
  }

  /** `calculateSummary(data)`. */
  function CalculateSummary(data: FinancialUser): (r: FinancialSummary)
    ensures r.netIncome == r.totalIncome - r.totalExpenses
    ensures forall i | 0 <= i < |r.expensesByCategory| :: r.expensesByCategory[i].kind == Expense
    ensures forall i | 0 <= i < |r.incomeByCategory| :: r.incomeByCategory[i].kind == Deposit
  {
    var allExpenses := AllExpenses(data.accounts);
    var allDeposits := AllDeposits(data.accounts);
    var totalExpenses := SumAmounts(allExpenses);
    var totalIncome := SumAmounts(allDeposits);
    FinancialSummary(
      SumBalances(data.accounts),
      totalIncome,
      totalExpenses,
      totalIncome - totalExpenses,
      GroupByCategory(allExpenses, Expense),
      GroupByCategory(allDeposits, Deposit))
  }

  /** Summation of amounts splits over concatenation. */
  lemma {:induction false} SumAmountsConcat(a: seq<Entry>, b: seq<Entry>)
    ensures SumAmounts(a + b) == SumAmounts(a) + SumAmounts(b)
    decreases |b|
  {
    if |b| == 0 {
      assert a + b == a;
    } else {
      assert (a + b)[..|a + b| - 1] == a + b[..|b| - 1];
      SumAmountsConcat(a, b[..|b| - 1]);
    }
  }

  /** The per-account sums of a list of accounts' expenses. */
  function PerAccountExpenses(accounts: seq<Account>): int
    decreases |accounts|
  {
    if |accounts| == 0 then 0 else SumAmounts(accounts[0].expenses) + PerAccountExpenses(accounts[1..])
  }

  /** The per-account sums of a list of accounts' deposits. */
  function PerAccountDeposits(accounts: seq<Account>): int
    decreases |accounts|
  {
    if |accounts| == 0 then 0 else SumAmounts(accounts[0].deposits) + PerAccountDeposits(accounts[1..])
  }

  /** The per-account balances, summed from the front. */
  function BalancesFromFront(accounts: seq<Account>): int
    decreases |accounts|
  {
    if |accounts| == 0 then 0 else accounts[0].balance + BalancesFromFront(accounts[1..])
  }

  lemma {:induction false} FlattenedExpenses(accounts: seq<Account>)
    ensures SumAmounts(AllExpenses(accounts)) == PerAccountExpenses(accounts)
    decreases |accounts|
  {
    if |accounts| > 0 {
      FlattenedExpenses(accounts[1..]);
      SumAmountsConcat(accounts[0].expenses, AllExpenses(accounts[1..]));
    }
  }

  lemma {:induction false} FlattenedDeposits(accounts: seq<Account>)
    ensures SumAmounts(AllDeposits(accounts)) == PerAccountDeposits(accounts)
    decreases |accounts|
  {
    if |accounts| > 0 {
      FlattenedDeposits(accounts[1..]);
      SumAmountsConcat(accounts[0].deposits, AllDeposits(accounts[1..]));
    }
  }

  lemma {:induction false} BalancesEitherWay(accounts: seq<Account>)
    ensures SumBalances(accounts) == BalancesFromFront(accounts)
    decreases |accounts|
  {
    if |accounts| > 0 {
      var n := |accounts|;
      BalancesEitherWay(accounts[..n - 1]);
      if n > 1 {
        BalancesEitherWay(accounts[1..]);
        BalancesEitherWay(accounts[1..][..n - 2]);
        assert accounts[1..][..n - 2] == accounts[..n - 1][1..];
      }
    }
  }

  /** The totals: the balance is the sum of the accounts' `balance` fields, and the
      expense and income totals are the sums, account by account, of every expense and
      every deposit; net income is income minus expenses. */
  lemma SummaryTotals(data: FinancialUser)
    ensures CalculateSummary(data).totalBalance == BalancesFromFront(data.accounts)
    ensures CalculateSummary(data).totalExpenses == PerAccountExpenses(data.accounts)
    ensures CalculateSummary(data).totalIncome == PerAccountDeposits(data.accounts)
    ensures CalculateSummary(data).netIncome == PerAccountDeposits(data.accounts) - PerAccountExpenses(data.accounts)
  {
    BalancesEitherWay(data.accounts);
    FlattenedExpenses(data.accounts);
    FlattenedDeposits(data.accounts);
  }

  /** The total balance reads only the `balance` fields: two users whose accounts carry the
      same balances have the same total, whatever their transactions. */
  lemma {:induction false} BalanceIgnoresTransactions(a: seq<Account>, b: seq<Account>)
    requires |a| == |b|
    requires forall i | 0 <= i < |a| :: a[i].balance == b[i].balance
    ensures SumBalances(a) == SumBalances(b)
    decreases |a|
  {
    if |a| > 0 {
      BalanceIgnoresTransactions(a[..|a| - 1], b[..|b| - 1]);
    }
  }

  /** The categorised amounts account for every expense and every deposit exactly once,
      and the categories listed are exactly those present. */
  lemma CategoriesCoverTotals(data: FinancialUser)
    ensures SumGroups(CalculateSummary(data).expensesByCategory) == CalculateSummary(data).totalExpenses
    ensures SumGroups(CalculateSummary(data).incomeByCategory) == CalculateSummary(data).totalIncome
    ensures GroupCategories(CalculateSummary(data).expensesByCategory) == CategoriesOf(AllExpenses(data.accounts))
    ensures GroupCategories(CalculateSummary(data).incomeByCategory) == CategoriesOf(AllDeposits(data.accounts))
  {
    GroupedSumIsTotal(AllExpenses(data.accounts), Expense);
    GroupedSumIsTotal(AllDeposits(data.accounts), Deposit);
  }

  /** A user without accounts gets zero totals and empty category lists. */
  lemma EmptySummary(data: FinancialUser)
    requires |data.accounts| == 0
    ensures CalculateSummary(data) == FinancialSummary(0, 0, 0, 0, [], [])
  {
  }

  const ExpensePalette: map<string, string> := map[
    "food" := "bg-red-100 text-red-800",
    "rent" := "bg-orange-100 text-orange-800",
    "entertainment" := "bg-purple-100 text-purple-800",
    "savings" := "bg-blue-100 text-blue-800",
    "default" := "bg-gray-100 text-gray-800"]

  const IncomePalette: map<string, string> := map[
    "work" := "bg-green-100 text-green-800",
    "gift" := "bg-pink-100 text-pink-800",
    "default" := "bg-emerald-100 text-emerald-800"]

  function Palette(kind: EntryKind): (p: map<string, string>)
    ensures "default" in p
  {
    if kind == Expense then ExpensePalette else IncomePalette
  }

  /** `getCategoryColor(category, type)`: the palette is chosen by the type; a key of that
      palette gets its colour and any other key that palette's default. */
  function CategoryColor(category: string, kind: EntryKind): (r: string)
    ensures r in Palette(kind).Values
    ensures category in Palette(kind) ==> r == Palette(kind)[category]
    ensures category !in Palette(kind) ==> r == Palette(kind)["default"]
  {
    var colors := Palette(kind);
    if category in colors then colors[category] else colors["default"]
  }

  lemma ExpenseColors(v: string)
    requires v in ExpensePalette.Values
    ensures v in {"bg-red-100 text-red-800", "bg-orange-100 text-orange-800",
      "bg-purple-100 text-purple-800", "bg-blue-100 text-blue-800", "bg-gray-100 text-gray-800"}
  {
    var k :| k in ExpensePalette && ExpensePalette[k] == v;
  }

  lemma IncomeColors(v: string)
    requires v in IncomePalette.Values
    ensures v in {"bg-green-100 text-green-800", "bg-pink-100 text-pink-800", "bg-emerald-100 text-emerald-800"}
  {
    var k :| k in IncomePalette && IncomePalette[k] == v;
  }

  /** The two palettes share no colour, so every colour reveals the type it was chosen for:
      "food" as a deposit gets the income default, not the food colour. */
  lemma ColorRevealsKind(category: string, kind: EntryKind)
    ensures CategoryColor(category, kind) in ExpensePalette.Values <==> kind == Expense
    ensures CategoryColor("food", Deposit) == IncomePalette["default"]
  {
    var r := CategoryColor(category, kind);
    if kind == Deposit && r in ExpensePalette.Values {
      IncomeColors(r);
      ExpenseColors(r);
    }
  }

  /** The class of the net-income figure; no summary yet counts as negative. */
  function NetIncomeClass(summary: Option<FinancialSummary>): (r: string)
    ensures r == "text-green-800" || r == "text-red-800"
    ensures r == "text-green-800" <==> summary.Some? && summary.value.netIncome >= 0
  {
    if summary.Some? && summary.value.netIncome >= 0 then "text-green-800" else "text-red-800"
  }
}

=== FILE: json.dfy ===
/** A JSON-like value: tool inputs, tool results and the request/response
    bodies exchanged between the backend and the frontend. */
module JsonValues {

  datatype Json =
    | JNull
    | JBool(b: bool)
    | JNum(n: int)
    | JStr(s: string)
    | JArr(elems: seq<Json>)
    | JObj(fields: map<string, Json>)

  /** An object with exactly one field. */
  function Single(key: string, value: Json): (r: Json)
    ensures r.JObj? && r.fields.Keys == {key} && r.fields[key] == value
  {
    JObj(map[key := value])
  }

  /** A list of strings. */
  function Strings(items: seq<string>): (r: Json)
    ensures r.JArr? && |r.elems| == |items|
    ensures forall i | 0 <= i < |items| :: r.elems[i] == JStr(items[i])
  {
    JArr(seq(|items|, i requires 0 <= i < |items| => JStr(items[i])))
  }

  /** Python's name for the type of a decoded JSON value. */
  function PyTypeName(v: Json): string {
    match v
    case JNull => "NoneType"
    case JBool(_) => "bool"
    case JNum(_) => "int"
    case JStr(_) => "str"
    case JArr(_) => "list"
    case JObj(_) => "dict"
  }

  /** The message of the `AttributeError` Python raises when a value of the named type
      lacks an attribute. */
  function NoAttribute(typeName: string, attribute: string): string {
    "'" + typeName + "' object has no attribute '" + attribute + "'"
  }

  /** The message of the `TypeError` Python raises when a value of the named type is used
      as a dictionary key. */
  function Unhashable(typeName: string): string {
    "unhashable type: '" + typeName + "'"
  }
}

=== FILE: model_api.dfy ===
/** The slice of the model API the agent loops depend on: the content blocks
    of a model response, its stop reason, and the conversation history sent
    back to the model. The API itself is not modelled; a run is given the
    sequence of replies it receives. */
module ModelApi {
  import opened Wrappers
  import opened JsonValues
  import opened Seqs
  import opened ChatBlocks

  /** A block of a model response, by its `type`. Tool inputs are JSON objects. */
  datatype ContentBlock =
    | ThinkingContent(thinking: string, signature: string)
    | RedactedContent(data: string)
    | TextContent(text: string)
    | ToolUseContent(id: string, name: string, input: map<string, Json>)
    | OtherContent(blockType: string)

  datatype ModelResponse = ModelResponse(stopReason: string, content: seq<ContentBlock>)

  /** One call to the model: its response, or the message of the exception it raised. */
  datatype ApiReply = Answered(response: ModelResponse) | ApiFailed(message: string)

  const ToolUseStop := "tool_use"

  datatype ToolCall = ToolCall(id: string, name: string, input: map<string, Json>)

  datatype ToolResultEntry = ToolResultEntry(toolUseId: string, content: Json)

  datatype HistoryContent =
    | Prompt(text: string)
    | AssistantTurn(blocks: seq<ContentBlock>)
    | ToolResults(entries: seq<ToolResultEntry>)

  datatype HistoryMessage = HistoryMessage(role: Role, content: HistoryContent)

  /** The blocks echoed back to the model in the assistant turn: thinking, redacted thinking and tool use. */
  predicate IsHistoryBlock(b: ContentBlock) {
    b.ThinkingContent? || b.RedactedContent? || b.ToolUseContent?
  }

  function HistoryBlocks(content: seq<ContentBlock>): (r: seq<ContentBlock>)
    ensures IsSubsequence(r, content)
    ensures forall i | 0 <= i < |r| :: IsHistoryBlock(r[i]) && r[i] in content
    ensures forall i | 0 <= i < |content| :: IsHistoryBlock(content[i]) ==> content[i] in r
    ensures forall b :: Count(b, r) == if IsHistoryBlock(b) then Count(b, content) else 0
  {
    FilterCounts(IsHistoryBlock, content);
    Filter(IsHistoryBlock, content)
  }

  /** The tool-use blocks of a response, in order. */
  function ToolCalls(content: seq<ContentBlock>): (r: seq<ToolCall>)
    ensures |r| <= |content|
    ensures forall i | 0 <= i < |r| :: ToolUseContent(r[i].id, r[i].name, r[i].input) in content
    ensures |r| == 0 <==> forall i | 0 <= i < |content| :: !content[i].ToolUseContent?
  {
    if |content| == 0 then []
    else
      var rest := ToolCalls(content[1..]);
      assert forall i | 0 <= i < |rest| :: ToolUseContent(rest[i].id, rest[i].name, rest[i].input) in content[1..];
      match content[0]
      case ToolUseContent(id, name, input) => [ToolCall(id, name, input)] + rest
      case _ =>
        assert forall i | 1 <= i < |content| :: content[i] == content[1..][i - 1];
        rest
  }

  /** The tool call a single block makes, if it is a tool-use block. */
  function FirstCall(b: ContentBlock): seq<ToolCall> {
    if b.ToolUseContent? then [ToolCall(b.id, b.name, b.input)] else []
  }

  /** The calls are read block by block: the first block's call, if any, then the rest's. */
  lemma ToolCallsHead(content: seq<ContentBlock>)
    requires |content| > 0
    ensures ToolCalls(content) == FirstCall(content[0]) + ToolCalls(content[1..])
  {
  }

  /** Echoing only the history blocks loses no tool call. */
  lemma {:induction false} ToolCallsSurviveHistory(content: seq<ContentBlock>)
    ensures ToolCalls(HistoryBlocks(content)) == ToolCalls(content)
    decreases |content|
  {
    if |content| > 0 {
      ToolCallsSurviveHistory(content[1..]);
      var tail := Filter(IsHistoryBlock, content[1..]);
      if IsHistoryBlock(content[0]) {
        assert Filter(IsHistoryBlock, content) == [content[0]] + tail;
        assert ([content[0]] + tail)[1..] == tail;
      } else {
        assert Filter(IsHistoryBlock, content) == tail;
      }
    }
  }

  function CallIds(calls: seq<ToolCall>): (r: seq<string>)
    ensures |r| == |calls| && forall i | 0 <= i < |calls| :: r[i] == calls[i].id
  {
    Map((c: ToolCall) => c.id, calls)
  }

  function EntryIds(entries: seq<ToolResultEntry>): (r: seq<string>)
    ensures |r| == |entries| && forall i | 0 <= i < |entries| :: r[i] == entries[i].toolUseId
  {
    Map((e: ToolResultEntry) => e.toolUseId, entries)
  }

  /** A history in which the roles alternate, the user speaking first. */
  predicate RolesAlternate(h: seq<HistoryMessage>) {
    forall i | 0 <= i < |h| :: h[i].role == (if i % 2 == 0 then User else Assistant)
  }

  /** Every tool-results message answers the assistant turn just before it, one
      entry per tool call of that turn, in the same order. */
  predicate ResultsAnswerCalls(h: seq<HistoryMessage>) {
    forall i | 0 < i < |h| && h[i].content.ToolResults? ::
      h[i - 1].content.AssistantTurn?
      && EntryIds(h[i].content.entries) == CallIds(ToolCalls(h[i - 1].content.blocks))
  }

  /** A reply an agent loop answers with tool results and another model call. */
  predicate Continues(resp: ModelResponse) {
    resp.stopReason == ToolUseStop && |ToolCalls(resp.content)| > 0
  }

  /** The reply chain reaches a reply that ends an agent loop (or a failed call) before it runs out. */
  predicate Ends(replies: seq<ApiReply>)
    decreases |replies|
  {
    |replies| > 0 && (replies[0].ApiFailed? || !Continues(replies[0].response) || Ends(replies[1..]))
  }

  /** The position of the reply that settles a loop: the first failed call or the first
      reply that does not continue; every reply before it continues. */
  function Settle(replies: seq<ApiReply>): (n: nat)
    requires Ends(replies)
    ensures n < |replies|
    ensures replies[n].ApiFailed? || !Continues(replies[n].response)
    ensures forall j | 0 <= j < n :: replies[j].Answered? && Continues(replies[j].response)
    decreases |replies|
  {
    if replies[0].ApiFailed? || !Continues(replies[0].response) then 0
    else
      var n := Settle(replies[1..]);
      assert forall j | 1 <= j <= n :: replies[j] == replies[1..][j - 1];
      1 + n
  }

  /** A chain in which every reply continues never ends a loop: the loops that take such a
      chain have no iteration cap, so the models of them require a chain that ends. */
  lemma {:induction false} ContinuingNeverEnds(replies: seq<ApiReply>)
    requires forall j | 0 <= j < |replies| :: replies[j].Answered? && Continues(replies[j].response)
    ensures !Ends(replies)
    decreases |replies|
  {
    if |replies| > 0 {
      assert forall j | 0 <= j < |replies| - 1 :: replies[1..][j] == replies[j + 1];
      ContinuingNeverEnds(replies[1..]);
    }
  }
}

=== FILE: orders_page.dfy ===
/** The orders page: the search filter over the order list, the
    "selected, else first" choice of the order shown in detail, and the
    initial selection made when the orders load. */
module OrdersPage {
  import opened Wrappers
  import opened Text
  import Seqs

  datatype OrderItem = OrderItem(id: int, stockItemId: int, name: string, quantity: int, unitPrice: int, totalPrice: int)

  datatype Order = Order(id: int, status: string, totalAmount: int, createdAt: string, updatedAt: string, items: seq<OrderItem>)

  /** Some item name contains the query, both lower-cased. */
  predicate SomeItemMatches(order: Order, query: string) {
    exists i | 0 <= i < |order.items| :: Contains(Lower(order.items[i].name), Lower(query))
  }

  /** The filter predicate: an empty query keeps everything; otherwise the order's decimal
      id contains the query or some item name contains it case-insensitively. */
  predicate Matches(order: Order, query: string) {
    query == "" || Contains(IntToDecimal(order.id), query) || SomeItemMatches(order, query)
  }

  /** `filteredOrders`: the orders the query keeps, in their original order. */
  function FilterOrders(orders: seq<Order>, query: string): (r: seq<Order>)
    ensures Seqs.IsSubsequence(r, orders)
    ensures forall i | 0 <= i < |r| :: r[i] in orders && Matches(r[i], query)
    ensures forall i | 0 <= i < |orders| :: Matches(orders[i], query) ==> orders[i] in r
    ensures forall o :: Seqs.Count(o, r) == if Matches(o, query) then Seqs.Count(o, orders) else 0
  {
    Seqs.FilterCounts((o: Order) => Matches(o, query), orders);
    Seqs.Filter((o: Order) => Matches(o, query), orders)
  }

  /** An empty query keeps every order. */
  lemma EmptyQueryKeepsAll(orders: seq<Order>)
    ensures FilterOrders(orders, "") == orders
  {
    Seqs.FilterKeepsAll((o: Order) => Matches(o, ""), orders);
  }

  /** An order kept by a longer query (one containing `shorter`) is kept by `shorter`. */
  lemma LongerQueryMatchesLess(order: Order, shorter: string, longer: string)
    requires Contains(longer, shorter)
    requires Matches(order, longer)
    ensures Matches(order, shorter)
  {
    if shorter != "" && longer != "" {
      if Contains(IntToDecimal(order.id), longer) {
        ContainsTransitive(IntToDecimal(order.id), longer, shorter);
      } else {
        var i :| 0 <= i < |order.items| && Contains(Lower(order.items[i].name), Lower(longer));
        LowerContains(longer, shorter);
        ContainsTransitive(Lower(order.items[i].name), Lower(longer), Lower(shorter));
      }
    }
  }

  /** Lengthening the query never adds orders: the new result is a subsequence of the old. */
  lemma LongerQueryNarrows(orders: seq<Order>, shorter: string, longer: string)
    requires Contains(longer, shorter)
    ensures Seqs.IsSubsequence(FilterOrders(orders, longer), FilterOrders(orders, shorter))
  {
    forall i | 0 <= i < |orders| && Matches(orders[i], longer)
      ensures Matches(orders[i], shorter)
    {
      LongerQueryMatchesLess(orders[i], shorter, longer);
    }
    Seqs.FilterMonotone((o: Order) => Matches(o, longer), (o: Order) => Matches(o, shorter), orders);
  }

  /** The position `orders.find(o => o.id === id)` stops at: the first order with that id. */
  function FindIndexById(orders: seq<Order>, id: int): (r: Option<nat>)
    ensures r.None? <==> forall i | 0 <= i < |orders| :: orders[i].id != id
    ensures r.Some? ==> r.value < |orders| && orders[r.value].id == id
    ensures r.Some? ==> forall j | 0 <= j < r.value :: orders[j].id != id
    decreases |orders|
  {
    if |orders| == 0 then None
    else if orders[0].id == id then Some(0)
    else
      match FindIndexById(orders[1..], id)
      case None => None
      case Some(k) => Some(k + 1)
  }

  /** `selectedOrder`: the first filtered order with the selected id, else the first filtered
      order, else none. A chosen order is always one of the filtered orders. */
  function SelectedOrder(filtered: seq<Order>, selected: Option<int>): (r: Option<Order>)
    ensures r.None? <==> |filtered| == 0
    ensures r.Some? ==> r.value in filtered
    ensures selected.Some? && (exists i | 0 <= i < |filtered| :: filtered[i].id == selected.value) ==>
      r.Some? && r.value.id == selected.value &&
      (exists k | 0 <= k < |filtered| :: (filtered[k] == r.value && forall j | 0 <= j < k :: filtered[j].id != selected.value))
    ensures (selected.None? || forall i | 0 <= i < |filtered| :: filtered[i].id != selected.value) && |filtered| > 0 ==>
      r == Some(filtered[0])
  {
    var found := if selected.Some? then FindIndexById(filtered, selected.value) else None;
    if found.Some? then Some(filtered[found.value])
    else if |filtered| > 0 then Some(filtered[0])
    else None
  }

  /** The selection after the orders load: the first order's id when nothing is selected
      and the list is non-empty; otherwise the selection is left as it was. */
  function InitialSelection(data: seq<Order>, selected: Option<int>): (r: Option<int>)
    ensures selected.Some? ==> r == selected
    ensures |data| == 0 ==> r == selected
    ensures selected.None? && |data| > 0 ==> r == Some(data[0].id)
  {
    if |data| > 0 && selected.None? then Some(data[0].id) else selected
  }

  /** After a load of a non-empty list with nothing selected and no query, the detail pane
      shows the first order. */
  lemma LoadShowsFirstOrder(data: seq<Order>)
    requires |data| > 0
    ensures SelectedOrder(FilterOrders(data, ""), InitialSelection(data, None)) == Some(data[0])
  {
    EmptyQueryKeepsAll(data);
  }
}

=== FILE: seqs.dfy ===
/** Order-preserving operations on sequences: `Array.prototype.filter`,
    `slice(0, n)` and `map`, with the subsequence relation they establish. */
module Seqs {

  /** `a` can be obtained from `b` by deleting elements, keeping order. */
  predicate IsSubsequence<T(==)>(a: seq<T>, b: seq<T>)
    decreases |b|
  {
    |a| == 0 || (|b| > 0 && ((a[0] == b[0] && IsSubsequence(a[1..], b[1..])) || IsSubsequence(a, b[1..])))
  }

  /** `s.filter(p)`. */
  function Filter<T(==)>(p: T -> bool, s: seq<T>): (r: seq<T>)
    ensures |r| <= |s|
    ensures forall i | 0 <= i < |r| :: r[i] in s && p(r[i])
    ensures forall i | 0 <= i < |s| :: p(s[i]) ==> s[i] in r
    ensures IsSubsequence(r, s)
  {
    if |s| == 0 then []
    else if p(s[0]) then [s[0]] + Filter(p, s[1..])
    else Filter(p, s[1..])
  }

  /** The number of occurrences of `x` in `s`. */
  function Count<T(==)>(x: T, s: seq<T>): nat
    decreases |s|
  {
    if |s| == 0 then 0 else (if s[0] == x then 1 else 0) + Count(x, s[1..])
  }

  /** A filter keeps every passing element as many times as it occurs, and nothing else. */
  lemma {:induction false} FilterCounts<T>(p: T -> bool, s: seq<T>)
    ensures forall x :: Count(x, Filter(p, s)) == if p(x) then Count(x, s) else 0
    decreases |s|
  {
    if |s| > 0 {
      FilterCounts(p, s[1..]);
      FilterCons(p, s);
      forall x ensures Count(x, Filter(p, s)) == if p(x) then Count(x, s) else 0 {
        CountConcat(x, if p(s[0]) then [s[0]] else [], Filter(p, s[1..]));
      }
    }
  }

  /** `Count` is the multiplicity of `x` in the multiset of `s`. */
  lemma {:induction false} CountIsMultiplicity<T>(x: T, s: seq<T>)
    ensures Count(x, s) == multiset(s)[x]
    decreases |s|
  {
    if |s| > 0 {
      CountIsMultiplicity(x, s[1..]);
      assert s == [s[0]] + s[1..];
    }
  }

  /** Occurrences add up over concatenation. */
  lemma {:induction false} CountConcat<T>(x: T, a: seq<T>, b: seq<T>)
    ensures Count(x, a + b) == Count(x, a) + Count(x, b)
    decreases |a|
  {
    if |a| > 0 {
      assert (a + b)[1..] == a[1..] + b;
      CountConcat(x, a[1..], b);
    } else {
      assert a + b == b;
    }
  }

  /** One step of a filter: the head, when it passes, in front of the filtered tail. */
  lemma FilterCons<T>(p: T -> bool, s: seq<T>)
    requires |s| > 0
    ensures Filter(p, s) == (if p(s[0]) then [s[0]] else []) + Filter(p, s[1..])
  {
  }

  /** Filtering with a weaker predicate keeps at least the same elements, in the same order. */
  lemma {:induction false} FilterMonotone<T>(p: T -> bool, q: T -> bool, s: seq<T>)
    requires forall i | 0 <= i < |s| :: p(s[i]) ==> q(s[i])
    ensures IsSubsequence(Filter(p, s), Filter(q, s))
    decreases |s|
  {
    if |s| > 0 {
      FilterMonotone(p, q, s[1..]);
      var a, b := Filter(p, s[1..]), Filter(q, s[1..]);
      if p(s[0]) {
        assert Filter(p, s) == [s[0]] + a && Filter(q, s) == [s[0]] + b;
        assert ([s[0]] + a)[1..] == a && ([s[0]] + b)[1..] == b;
      } else if q(s[0]) {
        assert Filter(q, s) == [s[0]] + b && ([s[0]] + b)[1..] == b;
        SubsequenceOfTail(a, [s[0]] + b);
      }
    }
  }

  /** Dropping the first element of the longer sequence keeps the relation one way. */
  lemma SubsequenceOfTail<T>(a: seq<T>, b: seq<T>)
    requires |b| > 0 && IsSubsequence(a, b[1..])
    ensures IsSubsequence(a, b)
  {
  }

  /** A filter that rejects nothing returns its input. */
  lemma {:induction false} FilterKeepsAll<T>(p: T -> bool, s: seq<T>)
    requires forall i | 0 <= i < |s| :: p(s[i])
    ensures Filter(p, s) == s
    decreases |s|
  {
    if |s| > 0 {
      FilterKeepsAll(p, s[1..]);
      assert [s[0]] + s[1..] == s;
    }
  }

  /** Filtering distributes over concatenation. */
  lemma {:induction false} FilterConcat<T>(p: T -> bool, a: seq<T>, b: seq<T>)
    ensures Filter(p, a + b) == Filter(p, a) + Filter(p, b)
    decreases |a|
  {
    if |a| > 0 {
      assert (a + b)[1..] == a[1..] + b;
      FilterConcat(p, a[1..], b);
    } else {
      assert a + b == b;
    }
  }

  /** `s.slice(0, n)`: the longest prefix of `s` of length at most `n`. */
  function Take<T>(s: seq<T>, n: nat): (r: seq<T>)
    ensures |r| == if |s| <= n then |s| else n
    ensures r == s[..|r|]
  {
    if |s| <= n then s else s[..n]
  }

  /** Keeping `n` elements of a sequence with a head keeps the head and `n - 1` of the tail. */
  lemma TakeCons<T>(x: T, s: seq<T>, n: nat)
    requires n > 0
    ensures Take([x] + s, n) == [x] + Take(s, n - 1)
  {
    var r, t := Take([x] + s, n), Take(s, n - 1);
    assert |r| == 1 + |t|;
    forall i | 0 <= i < |r|
      ensures r[i] == ([x] + t)[i]
    {
      if i > 0 {
        assert r[i] == s[i - 1] == t[i - 1];
      }
    }
  }

  /** A prefix of a suffix is a slice. */
  lemma PrefixOfSuffix<T>(s: seq<T>, lo: nat, n: nat)
    requires lo + n <= |s|
    ensures s[lo..][..n] == s[lo..lo + n]
  {
  }

  /** `s.map(f)`. */
  function Map<A, B>(f: A -> B, s: seq<A>): (r: seq<B>)
    ensures |r| == |s|
    ensures forall i | 0 <= i < |s| :: r[i] == f(s[i])
  {
    seq(|s|, i requires 0 <= i < |s| => f(s[i]))
  }
}

=== FILE: text.dfy ===
/** String helpers the components rely on: JavaScript `trim`, ASCII case
    mapping (`toLowerCase`, `toUpperCase`, Python `lower`), substring search
    (`includes`) and decimal rendering and parsing of integers
    (`toString`, Python `str` and `int`). */
module Text {
  import opened Wrappers
  import Seqs

  /** The whitespace and line terminators JavaScript's `trim` removes. */
  predicate IsSpace(c: char) {
    || c == ' ' || c == '\t' || c == '\n' || c == '\r' || c == '\U{000B}' || c == '\U{000C}'
    || c == '\U{00A0}' || c == '\U{FEFF}' || c == '\U{1680}' || ('\U{2000}' <= c <= '\U{200A}')
    || c == '\U{2028}' || c == '\U{2029}' || c == '\U{202F}' || c == '\U{205F}' || c == '\U{3000}'
  }

  predicate AllSpace(s: string) {
    forall i | 0 <= i < |s| :: IsSpace(s[i])
  }

  /** Removes leading whitespace: the result is the longest suffix that does not start with a space. */
  function TrimStart(s: string): (r: string)
    ensures |r| <= |s| && r == s[|s| - |r|..]
    ensures |r| > 0 ==> !IsSpace(r[0])
    ensures forall i | 0 <= i < |s| - |r| :: IsSpace(s[i])
    decreases |s|
  {
    if |s| > 0 && IsSpace(s[0]) then TrimStart(s[1..]) else s
  }

  /** Removes trailing whitespace: the result is the longest prefix that does not end with a space. */
  function TrimEnd(s: string): (r: string)
    ensures |r| <= |s| && r == s[..|r|]
    ensures |r| > 0 ==> !IsSpace(r[|r| - 1])
    ensures forall i | |r| <= i < |s| :: IsSpace(s[i])
    decreases |s|
  {
    if |s| > 0 && IsSpace(s[|s| - 1]) then TrimEnd(s[..|s| - 1]) else s
  }

  /** `s.trim()`: empty exactly when `s` is all whitespace; otherwise it neither starts nor ends with a space. */
  function Trim(s: string): (r: string)
    ensures |r| == 0 <==> AllSpace(s)
    ensures |r| > 0 ==> !IsSpace(r[0]) && !IsSpace(r[|r| - 1])
    ensures |r| <= |s|
  {
    var t := TrimStart(s);
    assert t == s[|s| - |t|..];
    TrimEnd(t)
  }

  /** What `Trim` keeps is one slice of its input, starting where `TrimStart` starts. */
  lemma TrimIsSlice(s: string)
    ensures var r, lead := Trim(s), |s| - |TrimStart(s)|;
      && lead + |r| <= |s|
      && r == s[lead..lead + |r|]
  {
    var t := TrimStart(s);
    Seqs.PrefixOfSuffix(s, |s| - |t|, |TrimEnd(t)|);
  }

  /** Everything `Trim` removes, before and after the kept slice, is whitespace. */
  lemma TrimDropsSpaces(s: string)
    ensures var r, lead := Trim(s), |s| - |TrimStart(s)|;
      && (forall i | 0 <= i < lead :: IsSpace(s[i]))
      && (forall i | lead + |r| <= i < |s| :: IsSpace(s[i]))
  {
    var t := TrimStart(s);
    assert t == s[|s| - |t|..];
  }

  function LowerChar(c: char): char {
    if 'A' <= c <= 'Z' then (c as int + 32) as char else c
  }

  function UpperChar(c: char): char {
    if 'a' <= c <= 'z' then (c as int - 32) as char else c
  }

  /** `s.toLowerCase()` over ASCII letters. */
  function Lower(s: string): (r: string)
    ensures |r| == |s|
    ensures forall i | 0 <= i < |s| :: r[i] == LowerChar(s[i])
  {
    seq(|s|, i requires 0 <= i < |s| => LowerChar(s[i]))
  }

  /** Lower-casing twice is lower-casing once. */
  lemma LowerIdempotent(s: string)
    ensures Lower(Lower(s)) == Lower(s)
  {
    assert forall i | 0 <= i < |s| :: LowerChar(LowerChar(s[i])) == LowerChar(s[i]);
  }

  /** `s.includes(q)`: `q` occurs in `s` as a contiguous run. */
  predicate Contains(s: string, q: string)
    decreases |s|
  {
    q <= s || (|s| > 0 && Contains(s[1..], q))
  }

  /** A run is never longer than the string it occurs in. */
  lemma {:induction false} ContainsNeedsRoom(s: string, q: string)
    requires Contains(s, q)
    ensures |q| <= |s|
    decreases |s|
  {
    if !(q <= s) {
      ContainsNeedsRoom(s[1..], q);
    }
  }

  /** A run found in a prefix of `a` is found in `a`. */
  lemma {:induction false} PrefixContains(a: string, b: string, c: string)
    requires b <= a && Contains(b, c)
    ensures Contains(a, c)
    decreases |b|
  {
    if !(c <= b) {
      assert b[1..] <= a[1..];
      PrefixContains(a[1..], b[1..], c);
    }
  }

  /** Containment is transitive: a run of a run of `a` is a run of `a`. */
  lemma {:induction false} ContainsTransitive(a: string, b: string, c: string)
    requires Contains(a, b) && Contains(b, c)
    ensures Contains(a, c)
    decreases |a|
  {
    if b <= a {
      PrefixContains(a, b, c);
    } else {
      ContainsTransitive(a[1..], b, c);
    }
  }

  /** Lower-casing both sides preserves containment. */
  lemma {:induction false} LowerContains(s: string, q: string)
    requires Contains(s, q)
    ensures Contains(Lower(s), Lower(q))
    decreases |s|
  {
    if q <= s {
      assert Lower(q) == Lower(s)[..|q|];
    } else {
      LowerContains(s[1..], q);
      assert Lower(s)[1..] == Lower(s[1..]);
    }
  }

  predicate IsDigit(c: char) {
    '0' <= c <= '9'
  }

  function DigitChar(d: nat): (c: char)
    requires d < 10
    ensures IsDigit(c) && DigitValue(c) == d
  {
    ('0' as int + d) as char
  }

  function DigitValue(c: char): nat
    requires IsDigit(c)
  {
    c as int - '0' as int
  }

  /** The decimal rendering of a natural number, without leading zeros. */
  function NatToDecimal(n: nat): (r: string)
    ensures |r| > 0
    ensures forall i | 0 <= i < |r| :: IsDigit(r[i])
    decreases n
  {
    if n < 10 then [DigitChar(n)] else NatToDecimal(n / 10) + [DigitChar(n % 10)]
  }

  /** `n.toString()` / `str(n)` for an integer. */
  function IntToDecimal(i: int): string {
    if i < 0 then "-" + NatToDecimal(-i) else NatToDecimal(i)
  }

  /** The value of a non-empty run of decimal digits (leading zeros allowed). */
  function ParseDigits(s: string): Option<nat>
    decreases |s|
  {
    if |s| == 0 || !IsDigit(s[|s| - 1]) then None
    else if |s| == 1 then Some(DigitValue(s[0]))
    else match ParseDigits(s[..|s| - 1])
      case None => None
      case Some(v) => Some(v * 10 + DigitValue(s[|s| - 1]))
  }

  /** Python `int(s)` on an optionally negative run of digits; `None` where Python raises. */
  function ParseInt(s: string): Option<int> {
    if |s| > 0 && s[0] == '-' then
      match ParseDigits(s[1..])
      case None => None
      case Some(v) => Some(-(v as int))
    else
      match ParseDigits(s)
      case None => None
      case Some(v) => Some(v)
  }

  /** Parsing the rendering of a natural number gives it back. */
  lemma {:induction false} NatRoundTrip(n: nat)
    ensures ParseDigits(NatToDecimal(n)) == Some(n)
    decreases n
  {
    var s := NatToDecimal(n);
    if n >= 10 {
      NatRoundTrip(n / 10);
      assert s[..|s| - 1] == NatToDecimal(n / 10);
    }
  }

  /** Parsing the rendering of an integer gives it back: `int(str(i)) == i`. */
  lemma IntRoundTrip(i: int)
    ensures ParseInt(IntToDecimal(i)) == Some(i)
  {
    if i < 0 {
      var d := NatToDecimal(-i);
      NatRoundTrip(-i);
      assert IntToDecimal(i) == "-" + d;
      assert ("-" + d)[1..] == d;
    } else {
      var d := NatToDecimal(i);
      NatRoundTrip(i);
      assert IsDigit(d[0]);
    }
  }
}

=== FILE: thinking_block.dfy ===
/** The thinking-block view: a 200-code-unit preview of the model's
    reasoning with a show-more toggle, a fixed notice for redacted blocks and
    an optional iteration label. */
module ThinkingBlock {
  import opened Wrappers

  const PreviewLength: nat := 200

  /** A character's UTF-16 code units: one below U+10000, otherwise a high and a low surrogate. */
  function Utf16Char(c: char): (u: seq<int>)
    ensures 1 <= |u| <= 2 && (|u| == 1 <==> (c as int) < 0x1_0000)
    ensures |u| == 1 ==> u[0] == c as int
    ensures |u| == 2 ==> 0xD800 <= u[0] < 0xDC00 && 0xDC00 <= u[1] < 0xE000
  {
    var n := c as int;
    if n < 0x1_0000 then [n] else [0xD800 + (n - 0x1_0000) / 0x400, 0xDC00 + (n - 0x1_0000) % 0x400]
  }

  /** A string as JavaScript sees it: its UTF-16 code units, which `length` and `slice` count. */
  function Utf16(s: string): (u: seq<int>)
    ensures |s| <= |u| <= 2 * |s|
    decreases |s|
  {
    if |s| == 0 then [] else Utf16Char(s[0]) + Utf16(s[1..])
  }

  /** Every character lies in the Basic Multilingual Plane, so each is one code unit. */
  predicate Bmp(s: string) {
    forall i | 0 <= i < |s| :: (s[i] as int) < 0x1_0000
  }

  /** `shouldTruncate`: the content is longer than the preview, counted in code units, so
      more than 200 characters always truncate and 100 or fewer never do. */
  predicate ShouldTruncate(content: string): (b: bool)
    ensures |content| > PreviewLength ==> b
    ensures b ==> 2 * |content| > PreviewLength
  {
    |Utf16(content)| > PreviewLength
  }

  /** `displayContent`: the whole content when expanded, else its first 200 code units. */
  function DisplayContent(content: string, expanded: bool): (r: seq<int>)
    ensures r <= Utf16(content)
    ensures expanded || !ShouldTruncate(content) ==> r == Utf16(content)
    ensures !expanded && ShouldTruncate(content) ==> |r| == PreviewLength
  {
    var units := Utf16(content);
    if expanded then units
    else if |units| <= PreviewLength then units
    else units[..PreviewLength]
  }

  /** Code units distribute over concatenation. */
  lemma {:induction false} Utf16Concat(a: string, b: string)
    ensures Utf16(a + b) == Utf16(a) + Utf16(b)
    decreases |a|
  {
    if |a| > 0 {
      assert (a + b)[1..] == a[1..] + b;
      Utf16Concat(a[1..], b);
    } else {
      assert a + b == b;
    }
  }

  /** Text of the Basic Multilingual Plane has one code unit per character, each its code point. */
  lemma {:induction false} BmpUnits(s: string)
    requires Bmp(s)
    ensures |Utf16(s)| == |s|
    ensures forall i | 0 <= i < |s| :: Utf16(s)[i] == s[i] as int
    decreases |s|
  {
    if |s| > 0 {
      BmpUnits(s[1..]);
      assert Utf16(s) == [s[0] as int] + Utf16(s[1..]);
    }
  }

  /** On such text the code-unit preview is the first 200 characters, encoded, and the
      toggle appears exactly when there are more than 200 characters. */
  lemma BmpPreviewIsCharacterPrefix(content: string)
    requires Bmp(content)
    ensures ShouldTruncate(content) <==> |content| > PreviewLength
    ensures DisplayContent(content, false) == Utf16(content[..if |content| > PreviewLength then PreviewLength else |content|])
  {
    var n := if |content| > PreviewLength then PreviewLength else |content|;
    var head := content[..n];
    BmpUnits(content);
    assert Bmp(head) by {
      forall i | 0 <= i < |head|
        ensures (head[i] as int) < 0x1_0000
      {
        assert head[i] == content[i];
      }
    }
    BmpUnits(head);
  }

  /** 199 letters followed by an emoji make 201 code units, so the collapsed preview ends
      in the emoji's high surrogate alone: `slice` cuts the character in half. */
  lemma PreviewCanSplitSurrogatePair()
    ensures var content := seq(199, _ => 'a') + ['\U{1F600}'];
      && ShouldTruncate(content)
      && |DisplayContent(content, false)| == PreviewLength
      && DisplayContent(content, false)[PreviewLength - 1] == 0xD83D
  {
    var letters: string := seq(199, _ => 'a');
    var content := letters + ['\U{1F600}'];
    assert Bmp(letters);
    BmpUnits(letters);
    Utf16Concat(letters, ['\U{1F600}']);
    assert Utf16(['\U{1F600}']) == Utf16Char('\U{1F600}') + Utf16([]);
    assert Utf16Char('\U{1F600}') == [0xD83D, 0xDE00];
    assert Utf16(content)[199] == 0xD83D;
  }

  /** What the `{iteration && ...}` slot of the header puts on screen. */
  datatype IterationSlot =
    | NoLabel
    | StrayText(text: string)
    | IterationLabel(n: int)

  /** The slot as written: React renders the number `0` that `0 && ...` evaluates to,
      so an iteration of 0 shows a bare "0" instead of nothing. */
  function IterationSlotAsWritten(iteration: Option<int>): (r: IterationSlot)
    ensures r.StrayText? <==> iteration == Some(0)
    ensures r.StrayText? ==> r.text == "0"
    ensures r.IterationLabel? <==> iteration.Some? && iteration.value != 0
    ensures r.IterationLabel? ==> r.n == iteration.value
  {
    match iteration
    case None => NoLabel
    case Some(n) => if n == 0 then StrayText("0") else IterationLabel(n)
  }

  lemma ZeroIterationShowsStrayZero()
    ensures IterationSlotAsWritten(Some(0)) == StrayText("0")
  {
  }

  /** The slot as intended: a label exactly for a present, non-zero iteration, and
      never a stray text node. */
  function IterationSlotFor(iteration: Option<int>): (r: IterationSlot)
    ensures !r.StrayText?
    ensures r.IterationLabel? <==> iteration.Some? && iteration.value != 0
    ensures r.IterationLabel? ==> r.n == iteration.value
  {
    match iteration
    case None => NoLabel
    case Some(n) => if n == 0 then NoLabel else IterationLabel(n)
  }

  /** The two slots differ only at iteration 0. */
  lemma SlotsAgreeAwayFromZero(iteration: Option<int>)
    requires iteration != Some(0)
    ensures IterationSlotFor(iteration) == IterationSlotAsWritten(iteration)
  {
  }

  datatype Body =
    | RedactedNotice
    | Visible(units: seq<int>, ellipsis: bool)

  datatype ThinkingView = ThinkingView(badge: string, slot: IterationSlot, toggle: Option<string>, body: Body)

  /** The rendered block, as written. The toggle depends only on the content's length, so
      a long redacted block still shows it; the body of a redacted block is the fixed
      notice whatever its content; an iteration of 0 shows the stray "0". */
  function Render(content: string, isRedacted: bool, iteration: Option<int>, expanded: bool): (v: ThinkingView)
    ensures v.badge == (if isRedacted then "REDACTED THINKING" else "THINKING")
    ensures v.toggle.Some? <==> ShouldTruncate(content)
    ensures v.toggle.Some? ==> v.toggle.value == (if expanded then "Show less" else "Show more")
    ensures v.body.RedactedNotice? <==> isRedacted
    ensures v.body.Visible? ==> v.body.units == DisplayContent(content, expanded)
    ensures v.body.Visible? ==> (v.body.ellipsis <==> ShouldTruncate(content) && !expanded)
    ensures v.slot == IterationSlotAsWritten(iteration)
  {
    ThinkingView(
      if isRedacted then "REDACTED THINKING" else "THINKING",
      IterationSlotAsWritten(iteration),
      if ShouldTruncate(content) then Some(if expanded then "Show less" else "Show more") else None,
      if isRedacted then RedactedNotice
      else Visible(DisplayContent(content, expanded), ShouldTruncate(content) && !expanded))
  }

  /** Away from iteration 0 the rendered slot is the intended one; at 0 it is the stray "0". */
  lemma RenderedSlotAsIntended(content: string, isRedacted: bool, iteration: Option<int>, expanded: bool)
    ensures iteration != Some(0) ==> Render(content, isRedacted, iteration, expanded).slot == IterationSlotFor(iteration)
    ensures iteration == Some(0) ==> Render(content, isRedacted, iteration, expanded).slot == StrayText("0")
  {
    if iteration != Some(0) {
      SlotsAgreeAwayFromZero(iteration);
    }
  }

  /** The collapsed preview is a prefix of the content's code units, at most 200 of them,
      and the whole content exactly when nothing is cut off. */
  lemma PreviewIsPrefix(content: string)
    ensures DisplayContent(content, false) <= Utf16(content)
    ensures |DisplayContent(content, false)| <= PreviewLength
    ensures DisplayContent(content, false) == Utf16(content) <==> !ShouldTruncate(content)
  {
  }
}

=== FILE: tool_block.dfy ===
/** The tool-block view: the icon chosen for a tool, the artifact guards that
    decide whether a tool result is drawn as a search-results or a
    user-analysis artifact, the display caps of those artifacts, the parsing
    of recommendations out of an analysis text and the priority colours. */
module ToolBlock {
  import opened Wrappers
  import opened JsonValues
  import opened Text
  import Seqs

  /** The `type` prop: a tool call or its result. */
  datatype ToolBlockType = Use | Result

  // ---------------------------------------------------------------- regions

  const RegionLabels: map<string, string> := map[
    "asia" := "Asian Markets",
    "us" := "US Markets",
    "europe" := "European Markets",
    "crypto" := "Crypto",
    "currencies" := "Currencies",
    "futures" := "Futures",
    "featured" := "Featured"]

  /** `charAt(0).toUpperCase() + slice(1)`. */
  function Capitalize(s: string): string {
    if |s| == 0 then "" else [UpperChar(s[0])] + s[1..]
  }

  /** `getRegionDisplayName`: a fixed label for the seven known regions; any other
      region with its first character upper-cased and the rest unchanged. */
  function RegionDisplayName(region: string): (r: string)
    ensures region in RegionLabels ==> r == RegionLabels[region]
    ensures region !in RegionLabels ==> |r| == |region|
    ensures region !in RegionLabels ==> forall i | 1 <= i < |region| :: r[i] == region[i]
    ensures region !in RegionLabels && |region| > 0 ==> r[0] == UpperChar(region[0])
  {
    if region in RegionLabels then RegionLabels[region] else Capitalize(region)
  }

  /** An unknown region keeps its length, so the empty region stays empty, and a known
      region's label is never empty. */
  lemma RegionLabelShapes(region: string)
    ensures RegionDisplayName("") == ""
    ensures region in RegionLabels ==> |RegionDisplayName(region)| > 0
  {
  }

  // ---------------------------------------------------------------- icons

  datatype ToolIcon = SearchIcon | MoneyIcon | WeatherIcon | NewsIcon | WrenchIcon

  predicate IsSearchTool(lowerName: string) {
    Contains(lowerName, "search") || Contains(lowerName, "finance")
  }

  predicate IsAnalysisTool(lowerName: string) {
    Contains(lowerName, "analyze_user_account") || Contains(lowerName, "user_analysis")
  }

  /** `getToolIcon`: rules tried in order on the lower-cased name: search or finance,
      then user analysis, then exactly "weather" or "news", else the wrench. */
  function ToolIconFor(name: string): (r: ToolIcon)
    ensures r == SearchIcon <==> IsSearchTool(Lower(name))
    ensures r == MoneyIcon <==> !IsSearchTool(Lower(name)) && IsAnalysisTool(Lower(name))
    ensures r == WeatherIcon <==> !IsSearchTool(Lower(name)) && !IsAnalysisTool(Lower(name)) && Lower(name) == "weather"
    ensures r == NewsIcon <==> !IsSearchTool(Lower(name)) && !IsAnalysisTool(Lower(name)) && Lower(name) == "news"
  {
    var lowerName := Lower(name);
    if IsSearchTool(lowerName) then SearchIcon
    else if IsAnalysisTool(lowerName) then MoneyIcon
    else if lowerName == "weather" then WeatherIcon
    else if lowerName == "news" then NewsIcon
    else WrenchIcon
  }

  /** Every rule, the exact-name cases included, sees only the lower-cased name, so the
      icon ignores letter case. */
  lemma IconIgnoresCase(name: string)
    ensures ToolIconFor(name) == ToolIconFor(Lower(name))
    ensures ToolIconFor("Weather") == WeatherIcon
  {
    LowerIdempotent(name);
    WeatherNotSpecial();
    assert Lower("Weather") == "weather";
  }

  /** "weather" matches neither the search nor the analysis rule. */
  lemma WeatherNotSpecial()
    ensures !IsSearchTool("weather") && !IsAnalysisTool("weather")
  {
    var w := "weather";
    assert !Contains(w, "search") by {
      if Contains(w, "search") {
        assert "search"[0] != w[0] && "search"[0] != w[1..][0];
        ContainsNeedsRoom(w[1..][1..], "search");
      }
    }
    assert !Contains(w, "finance") by {
      if Contains(w, "finance") {
        assert "finance"[0] != w[0];
        ContainsNeedsRoom(w[1..], "finance");
      }
    }
    assert !Contains(w, "analyze_user_account") by {
      if Contains(w, "analyze_user_account") {
        ContainsNeedsRoom(w, "analyze_user_account");
      }
    }
    assert !Contains(w, "user_analysis") by {
      if Contains(w, "user_analysis") {
        ContainsNeedsRoom(w, "user_analysis");
      }
    }
  }

  // ---------------------------------------------------------------- artifact guards

  /** JavaScript truthiness of a value that may be `undefined`. */
  predicate Truthy(v: Option<Json>) {
    match v
    case None => false
    case Some(j) =>
      match j
      case JNull => false
      case JBool(b) => b
      case JNum(n) => n != 0
      case JStr(s) => s != ""
      case JArr(_) => true
      case JObj(_) => true
  }

  /** `typeof v === 'object'`, which holds of `null` too. */
  predicate TypeofObject(v: Option<Json>) {
    v == Some(JNull) || (v.Some? && (v.value.JArr? || v.value.JObj?))
  }

  /** A non-null object or array. */
  predicate IsObject(v: Option<Json>) {
    v.Some? && (v.value.JArr? || v.value.JObj?)
  }

  /** `key in v`, which throws a TypeError unless `v` is a non-null object. The keys probed
      here are never array indices, so on an array only "length" is present. */
  function JsIn(key: string, v: Option<Json>): (r: Outcome<bool>)
    ensures r.Raised? <==> !IsObject(v)
  {
    match v
    case Some(JObj(f)) => Ok(key in f)
    case Some(JArr(_)) => Ok(key == "length")
    case _ => Raised("TypeError")
  }

  /** `v[key]`, `undefined` when absent. */
  function Property(v: Option<Json>, key: string): Option<Json> {
    match v
    case Some(JObj(f)) => if key in f then Some(f[key]) else None
    case _ => None
  }

  /** `isSearchResult` as written: a `search_results` field that is `null` passes the
      `typeof` test and then makes the `in` test throw. */
  function IsSearchResultAsWritten(result: Option<Json>): (r: Outcome<bool>)
    ensures r.Raised? <==> IsObject(result) && NullProbe(result, "search_results")
    ensures r == Ok(true) <==>
      && IsObject(result)
      && Property(result, "search_results").Some? && Property(result, "search_results").value.JObj?
      && TypeofObject(Property(Property(result, "search_results"), "search_results"))
  {
    if !Truthy(result) || !TypeofObject(result) then Ok(false)
    else
      match JsIn("search_results", result)
      case Raised(m) => Raised(m)
      case Ok(present) =>
        if !present then Ok(false)
        else
          var inner := Property(result, "search_results");
          if !TypeofObject(inner) then Ok(false)
          else
            match JsIn("search_results", inner)
            case Raised(m) => Raised(m)
            case Ok(nested) => Ok(nested && TypeofObject(Property(inner, "search_results")))
  }

  /** `isUserAnalysisResult` as written: a `user_analysis` field that is `null` makes the
      `in` test throw. */
  function IsUserAnalysisResultAsWritten(result: Option<Json>): (r: Outcome<bool>)
    ensures r.Raised? <==> IsObject(result) && NullProbe(result, "user_analysis")
    ensures r == Ok(true) <==> IsUserAnalysisResult(result)
  {
    if !Truthy(result) || !TypeofObject(result) then Ok(false)
    else
      match JsIn("user_analysis", result)
      case Raised(m) => Raised(m)
      case Ok(present) =>
        if !present then Ok(false)
        else
          var inner := Property(result, "user_analysis");
          if !TypeofObject(inner) then Ok(false)
          else
            match JsIn("account_analysis", inner)
            case Raised(m) => Raised(m)
            case Ok(nested) =>
              var list := Property(inner, "account_analysis");
              Ok(nested && list.Some? && list.value.JArr?)
  }

  /** `shouldShowArtifact` as written, with `||` short-circuiting. */
  function ShouldShowArtifactAsWritten(blockType: ToolBlockType, result: Option<Json>): (r: Outcome<bool>)
    ensures blockType != Result ==> r == Ok(false)
    ensures r.Raised? <==>
      && blockType == Result && IsObject(result)
      && (NullProbe(result, "search_results") ||
          (NullProbe(result, "user_analysis") && IsSearchResultAsWritten(result) == Ok(false)))
    ensures r == Ok(true) <==>
      && blockType == Result
      && (IsSearchResultAsWritten(result) == Ok(true) ||
          (IsSearchResultAsWritten(result) == Ok(false) && IsUserAnalysisResult(result)))
  {
    if blockType != Result then Ok(false)
    else
      match IsSearchResultAsWritten(result)
      case Raised(m) => Raised(m)
      case Ok(b) => if b then Ok(true) else IsUserAnalysisResultAsWritten(result)
  }

  /** A tool result `{"search_results": null}` makes the result view throw while rendering. */
  lemma NullSearchResultsThrows()
    ensures ShouldShowArtifactAsWritten(Result, Some(Single("search_results", JNull))).Raised?
  {
  }

  /** The search-results guard as intended: the result is an object whose `search_results`
      field is an object whose own `search_results` field is a non-null object. */
  predicate IsSearchResult(result: Option<Json>) {
    var inner := Property(result, "search_results");
    IsObject(result) && inner.Some? && inner.value.JObj? && IsObject(Property(inner, "search_results"))
  }

  /** The user-analysis guard as intended: `user_analysis.account_analysis` is an array. */
  predicate IsUserAnalysisResult(result: Option<Json>) {
    var inner := Property(result, "user_analysis");
    var list := Property(inner, "account_analysis");
    IsObject(result) && inner.Some? && inner.value.JObj? && list.Some? && list.value.JArr?
  }

  /** The nested field the as-written guards probe with `in` is `null`. */
  predicate NullProbe(result: Option<Json>, outer: string) {
    Property(result, outer) == Some(JNull)
  }

  /** The innermost field the search guard tests with `typeof` is `null`. */
  predicate NullInnermost(result: Option<Json>) {
    Property(Property(result, "search_results"), "search_results") == Some(JNull)
  }

  /** The as-written guards throw exactly on a `null` probe and otherwise agree with the
      intended guards, except that a `null` innermost search field passes as written. */
  lemma GuardsAgreeAwayFromNull(result: Option<Json>)
    ensures IsSearchResultAsWritten(result).Raised? <==> IsObject(result) && NullProbe(result, "search_results")
    ensures IsUserAnalysisResultAsWritten(result).Raised? <==> IsObject(result) && NullProbe(result, "user_analysis")
    ensures !NullProbe(result, "search_results") && !NullInnermost(result) ==>
      IsSearchResultAsWritten(result) == Ok(IsSearchResult(result))
    ensures !NullProbe(result, "user_analysis") ==>
      IsUserAnalysisResultAsWritten(result) == Ok(IsUserAnalysisResult(result))
  {
  }

  /** A result whose innermost `search_results` is `null` passes the as-written search guard,
      so the search artifact is drawn and then reads `markets` on `null`; the intended
      decision draws no artifact. */
  lemma NullInnermostShowsSearchArtifact()
    ensures var result := Some(Single("search_results", Single("search_results", JNull)));
      && ShouldShowArtifactAsWritten(Result, result) == Ok(true)
      && ArtifactFor(Result, result) == None
  {
  }

  /** Whether a block shows an artifact: only results, and only when a guard holds. */
  predicate ShouldShowArtifact(blockType: ToolBlockType, result: Option<Json>): (b: bool)
    ensures b ==> blockType == Result && IsObject(result)
  {
    blockType == Result && (IsSearchResult(result) || IsUserAnalysisResult(result))
  }

  datatype ArtifactKind = SearchArtifact | UserAnalysisArtifact

  /** The artifact drawn for a block: none for a tool call or an unrecognised result; the
      search artifact whenever the search guard holds, even if the other one does too. */
  function ArtifactFor(blockType: ToolBlockType, result: Option<Json>): (r: Option<ArtifactKind>)
    ensures r.Some? <==> ShouldShowArtifact(blockType, result)
    ensures r.Some? ==> blockType == Result
    ensures r == Some(SearchArtifact) <==> blockType == Result && IsSearchResult(result)
    ensures r == Some(UserAnalysisArtifact) <==> blockType == Result && !IsSearchResult(result) && IsUserAnalysisResult(result)
  {
    if !ShouldShowArtifact(blockType, result) then None
    else if IsSearchResult(result) then Some(SearchArtifact)
    else Some(UserAnalysisArtifact)
  }

  /** Wherever the as-written decision does not throw and no innermost search field is
      `null`, it agrees with the intended one. */
  lemma ArtifactDecisionAgrees(blockType: ToolBlockType, result: Option<Json>)
    requires !NullProbe(result, "search_results") && !NullProbe(result, "user_analysis") && !NullInnermost(result)
    ensures ShouldShowArtifactAsWritten(blockType, result) == Ok(ShouldShowArtifact(blockType, result))
  {
    GuardsAgreeAwayFromNull(result);
  }

  // ---------------------------------------------------------------- search artifact

  datatype ForumResult = ForumResult(title: Option<string>, answers: seq<Json>)

  /** The `search_results.search_results` payload: market results per region, organic
      results and forum discussions, each card kept as raw JSON. */
  datatype SearchResults = SearchResults(
    markets: Option<seq<(string, seq<Json>)>>,
    organic: Option<seq<Json>>,
    forums: Option<seq<ForumResult>>)

  datatype RegionSection = RegionSection(heading: string, cards: seq<Json>)

  datatype ForumCard = ForumCard(title: Option<string>, answers: seq<Json>)

  /** What the search artifact draws; an absent section is `None`. */
  datatype SearchView = SearchView(regions: seq<RegionSection>, organic: Option<seq<Json>>, forums: Option<seq<ForumCard>>)

  const MaxMarketCards: nat := 8
  const MaxOrganicResults: nat := 2
  const MaxForums: nat := 1
  const MaxAnswers: nat := 1
  const MaxRecommendations: nat := 3

  function Min(a: nat, b: nat): nat {
    if a <= b then a else b
  }

  function RegionSections(markets: seq<(string, seq<Json>)>): (r: seq<RegionSection>)
    ensures |r| == |markets|
    ensures forall i | 0 <= i < |markets| ::
      r[i].heading == RegionDisplayName(markets[i].0) && r[i].cards == Seqs.Take(markets[i].1, MaxMarketCards)
  {
    seq(|markets|, i requires 0 <= i < |markets| =>
      RegionSection(RegionDisplayName(markets[i].0), Seqs.Take(markets[i].1, MaxMarketCards)))
  }

  /** `SearchResultsArtifact`: one section per market region showing its first 8 cards, the
      first 2 organic results and the first forum with its first answer; the organic and
      forum sections appear only for non-empty lists, and every list shown is the leading
      `min(cap, length)` entries of its source list. */
  function RenderSearch(results: SearchResults): (v: SearchView)
    ensures |v.regions| == (if results.markets.Some? then |results.markets.value| else 0)
    ensures results.markets.Some? ==> v.regions == RegionSections(results.markets.value)
    ensures forall i | 0 <= i < |v.regions| ::
      && |v.regions[i].cards| == Min(|results.markets.value[i].1|, MaxMarketCards)
      && v.regions[i].cards <= results.markets.value[i].1
    ensures v.organic.Some? <==> results.organic.Some? && |results.organic.value| > 0
    ensures v.organic.Some? ==>
      && |v.organic.value| == Min(|results.organic.value|, MaxOrganicResults)
      && v.organic.value <= results.organic.value
    ensures v.forums.Some? <==> results.forums.Some? && |results.forums.value| > 0
    ensures v.forums.Some? ==> |v.forums.value| == MaxForums
    ensures v.forums.Some? ==> v.forums.value[0].title == results.forums.value[0].title
    ensures v.forums.Some? ==>
      && |v.forums.value[0].answers| == Min(|results.forums.value[0].answers|, MaxAnswers)
      && v.forums.value[0].answers <= results.forums.value[0].answers
  {
    SearchView(
      if results.markets.Some? then RegionSections(results.markets.value) else [],
      if results.organic.Some? && |results.organic.value| > 0
      then Some(Seqs.Take(results.organic.value, MaxOrganicResults)) else None,
      if results.forums.Some? && |results.forums.value| > 0
      then Some(Seqs.Map((f: ForumResult) => ForumCard(f.title, Seqs.Take(f.answers, MaxAnswers)),
                         Seqs.Take(results.forums.value, MaxForums)))
      else None)
  }

  /** A list within its cap is shown whole: the caps only ever cut long lists. */
  lemma ShortListsShownWhole(results: SearchResults)
    ensures var v := RenderSearch(results);
      && (results.organic.Some? && 0 < |results.organic.value| <= MaxOrganicResults ==> v.organic == results.organic)
      && (forall i | 0 <= i < |v.regions| ::
            |results.markets.value[i].1| <= MaxMarketCards ==> v.regions[i].cards == results.markets.value[i].1)
  {
  }

  // ---------------------------------------------------------------- recommendations

  datatype Recommendation = Recommendation(
    category: string,
    title: string,
    description: string,
    priority: string,
    actionItems: seq<string>)

  /** The two regular-expression splits `parseRecommendations` performs: the analysis text
      split at numbered bold headers (header names at the odd positions), and a section
      body split at bullet markers. */
  datatype Splitters = Splitters(headers: string -> seq<string>, bullets: string -> seq<string>)

  /** The text before the first `-` or `•`. */
  function BeforeBullet(s: string): (r: string)
    ensures r <= s
    ensures forall i | 0 <= i < |r| :: r[i] != '-' && r[i] != '•'
    ensures r == s || s[|r|] == '-' || s[|r|] == '•'
    decreases |s|
  {
    if |s| == 0 || s[0] == '-' || s[0] == '•' then "" else [s[0]] + BeforeBullet(s[1..])
  }

  /** The text before the first line break: the regular-expression replace that drops a line break and all that follows. */
  function FirstLine(s: string): (r: string)
    ensures r <= s
    ensures forall i | 0 <= i < |r| :: r[i] != '\n'
    ensures r == s || s[|r|] == '\n'
    decreases |s|
  {
    if |s| == 0 || s[0] == '\n' then "" else [s[0]] + FirstLine(s[1..])
  }

  function CleanItem(item: string): string {
    FirstLine(Trim(item))
  }

  /** The candidate action items of a section body: every bullet piece after the first,
      trimmed and cut at its first line break. */
  function BulletItems(content: string, sp: Splitters): (r: seq<string>)
    ensures var pieces := sp.bullets(content);
      && |r| == (if |pieces| > 0 then |pieces| - 1 else 0)
      && forall j | 0 <= j < |r| :: r[j] == CleanItem(pieces[j + 1])
  {
    var pieces := sp.bullets(content);
    Seqs.Map(CleanItem, if |pieces| > 0 then pieces[1..] else [])
  }

  predicate NonEmpty(item: string) {
    |item| > 0
  }

  /** `r` holds the first non-empty `items`, at most `k` of them: they are items in their
      original order, they lead the non-empty items, there are `k` of them unless fewer
      exist, and when fewer than `k` are kept, no non-empty item was dropped. */
  predicate FirstKept(r: seq<string>, items: seq<string>, k: nat) {
    var nonEmpty := Seqs.Filter(NonEmpty, items);
    && |r| == (if |nonEmpty| <= k then |nonEmpty| else k)
    && r == nonEmpty[..|r|]
    && (forall i | 0 <= i < |r| :: |r[i]| > 0)
    && Seqs.IsSubsequence(r, items)
    && (|r| < k ==> forall j | 0 <= j < |items| :: NonEmpty(items[j]) ==> items[j] in r)
  }

  /** The action items of one section: the first three non-empty candidates. */
  function ActionItems(content: string, sp: Splitters): (r: seq<string>)
    ensures |r| <= MaxRecommendations
    ensures forall i | 0 <= i < |r| :: |r[i]| > 0
    ensures FirstKept(r, BulletItems(content, sp), MaxRecommendations)
  {
    var items := BulletItems(content, sp);
    TakeFilterIsFirstNonEmpty(items, MaxRecommendations);
    FirstNonEmptyFacts(items, MaxRecommendations);
    Seqs.Take(Seqs.Filter(NonEmpty, items), MaxRecommendations)
  }

  /** A scan that keeps non-empty items until `k` are kept: the loop-with-break reading of
      "filter, then keep the first `k`". */
  function FirstNonEmpty(items: seq<string>, k: nat): seq<string>
    decreases |items|
  {
    if k == 0 || |items| == 0 then []
    else if NonEmpty(items[0]) then [items[0]] + FirstNonEmpty(items[1..], k - 1)
    else FirstNonEmpty(items[1..], k)
  }

  /** The scan keeps at most `k` non-empty items, in order, and misses none when it keeps fewer than `k`. */
  lemma {:induction false} FirstNonEmptyFacts(items: seq<string>, k: nat)
    ensures FirstKept(FirstNonEmpty(items, k), items, k)
    decreases |items|
  {
    TakeFilterIsFirstNonEmpty(items, k);
    if k > 0 && |items| > 0 {
      var rest := FirstNonEmpty(items[1..], if NonEmpty(items[0]) then k - 1 else k);
      FirstNonEmptyFacts(items[1..], if NonEmpty(items[0]) then k - 1 else k);
      assert forall j | 1 <= j < |items| :: items[j] == items[1..][j - 1];
      if NonEmpty(items[0]) {
        var r := [items[0]] + rest;
        assert r[1..] == rest;
        assert forall i | 1 <= i < |r| :: r[i] == rest[i - 1];
      }
    }
  }

  /** Keeping the first `k` of the non-empty items is the scan. */
  lemma {:induction false} TakeFilterIsFirstNonEmpty(items: seq<string>, k: nat)
    ensures Seqs.Take(Seqs.Filter(NonEmpty, items), k) == FirstNonEmpty(items, k)
    decreases |items|
  {
    if |items| > 0 && k > 0 {
      var f := Seqs.Filter(NonEmpty, items[1..]);
      Seqs.FilterCons(NonEmpty, items);
      if NonEmpty(items[0]) {
        calc {
          Seqs.Take(Seqs.Filter(NonEmpty, items), k);
          Seqs.Take([items[0]] + f, k);
          { Seqs.TakeCons(items[0], f, k); }
          [items[0]] + Seqs.Take(f, k - 1);
          { TakeFilterIsFirstNonEmpty(items[1..], k - 1); }
          [items[0]] + FirstNonEmpty(items[1..], k - 1);
        }
      } else {
        calc {
          Seqs.Take(Seqs.Filter(NonEmpty, items), k);
          { assert [] + f == f; }
          Seqs.Take(f, k);
          { TakeFilterIsFirstNonEmpty(items[1..], k); }
          FirstNonEmpty(items[1..], k);
        }
      }
    }
  }

  /** The body following the header at position `i`, trimmed; empty after the last header. */
  function SectionBody(sections: seq<string>, i: nat): string {
    if i + 1 < |sections| then Trim(sections[i + 1]) else ""
  }

  /** A recommendation made from the header at position `i` and the body after it: the
      trimmed header as category and title, the body's text before its first bullet marker
      as description, medium priority, and the body's action items. */
  predicate MadeFrom(r: Recommendation, sections: seq<string>, i: nat, sp: Splitters)
    requires i < |sections|
  {
    && r.category == Trim(sections[i]) && r.title == r.category
    && r.description == Trim(BeforeBullet(SectionBody(sections, i)))
    && r.priority == "medium"
    && r.actionItems == ActionItems(SectionBody(sections, i), sp)
  }

  /** The recommendation built from the header at odd position `i` and the body after it. */
  function SectionAt(sections: seq<string>, i: nat, sp: Splitters): (r: Recommendation)
    requires i < |sections|
    ensures MadeFrom(r, sections, i, sp)
    ensures r.category == Trim(sections[i]) && r.title == r.category
    ensures r.priority == "medium"
    ensures |r.actionItems| <= 3 && forall k | 0 <= k < |r.actionItems| :: |r.actionItems[k]| > 0
  {
    var category := Trim(sections[i]);
    var content := SectionBody(sections, i);
    Recommendation(category, category, Trim(BeforeBullet(content)), "medium", ActionItems(content, sp))
  }

  /** `parseRecommendations`: one recommendation per header, in order (the header split
      puts the header names at the odd positions), each made from its header and the body
      after it. */
  function ParseRecommendations(text: string, sp: Splitters): (r: seq<Recommendation>)
    ensures |r| == |sp.headers(text)| / 2
    ensures forall k | 0 <= k < |r| :: 2 * k + 1 < |sp.headers(text)| && MadeFrom(r[k], sp.headers(text), 2 * k + 1, sp)
  {
    var sections := sp.headers(text);
    var n := |sections| / 2;
    assert 2 * n <= |sections|;
    seq(n, k requires 0 <= k < n => SectionAt(sections, 2 * k + 1, sp))
  }

  /** The positions `for (let i = start; i < n; i += 2)` visits, in order. */
  function Positions(n: nat, start: nat): (p: seq<nat>)
    ensures start < n ==> n <= start + 2 * |p| <= n + 1
    ensures start >= n ==> p == []
    ensures forall k | 0 <= k < |p| :: start <= p[k] < n
    decreases n - start
  {
    if start < n then [start] + Positions(n, start + 2) else []
  }

  /** The `k`-th visited position is `start + 2k`. */
  lemma {:induction false} PositionsAt(n: nat, start: nat, k: nat)
    requires k < |Positions(n, start)|
    ensures Positions(n, start)[k] == start + 2 * k
    decreases k
  {
    if k > 0 {
      PositionsAt(n, start + 2, k - 1);
    }
  }

  /** The source's loop: from position 1, stepping by two, one recommendation pushed per
      visited position. */
  function ParseLoop(sections: seq<string>, sp: Splitters): (r: seq<Recommendation>)
    ensures |r| == |Positions(|sections|, 1)|
  {
    var p := Positions(|sections|, 1);
    seq(|p|, k requires 0 <= k < |p| => SectionAt(sections, p[k], sp))
  }

  /** Reading the headers at the odd positions is the source's loop. */
  lemma ParseIsLoop(text: string, sp: Splitters)
    ensures ParseRecommendations(text, sp) == ParseLoop(sp.headers(text), sp)
  {
    var sections := sp.headers(text);
    var a, b := ParseRecommendations(text, sp), ParseLoop(sections, sp);
    var p := Positions(|sections|, 1);
    assert |a| == |b|;
    forall k | 0 <= k < |a|
      ensures a[k] == b[k]
    {
      PositionsAt(|sections|, 1, k);
      assert p[k] == 2 * k + 1;
    }
  }

  /** `user_analysis.recommendations || parseRecommendations(overall_analysis)`: a supplied
      list, even an empty one, wins over parsing; the view shows at most three of them. */
  function ShownRecommendations(supplied: Option<seq<Recommendation>>, overall: string, sp: Splitters): (r: seq<Recommendation>)
    ensures supplied.Some? ==> r == Seqs.Take(supplied.value, MaxRecommendations)
    ensures supplied.None? ==> r == Seqs.Take(ParseRecommendations(overall, sp), MaxRecommendations)
    ensures |r| <= MaxRecommendations
  {
    Seqs.Take(if supplied.Some? then supplied.value else ParseRecommendations(overall, sp), MaxRecommendations)
  }

  // ---------------------------------------------------------------- priorities

  const HighColor := "bg-red-100 text-red-700 border-red-200"
  const MediumColor := "bg-yellow-100 text-yellow-700 border-yellow-200"
  const LowColor := "bg-green-100 text-green-700 border-green-200"
  const OtherColor := "bg-gray-100 text-gray-700 border-gray-200"

  /** `getPriorityColor`: three distinct classes for high, medium and low, gray otherwise. */
  function PriorityColor(priority: string): (r: string)
    ensures r in {HighColor, MediumColor, LowColor, OtherColor}
    ensures r == HighColor <==> priority == "high"
    ensures r == MediumColor <==> priority == "medium"
    ensures r == LowColor <==> priority == "low"
    ensures r == OtherColor <==> priority !in {"high", "medium", "low"}
  {
    if priority == "high" then HighColor
    else if priority == "medium" then MediumColor
    else if priority == "low" then LowColor
    else OtherColor
  }
}

=== FILE: tools_example.dfy ===
/** The two mock tools of the example agent: a fixed weather table looked up
    by exact city name, and a fixed headline table looked up by lower-cased
    topic. */
module ExampleTools {
  import opened JsonValues
  import opened Text

  /** One weather record: a temperature and a condition. */
  function Reading(temperature: int, condition: string): (r: Json)
    ensures r.JObj? && r.fields.Keys == {"temperature", "condition"}
    ensures r.fields["temperature"] == JNum(temperature) && r.fields["condition"] == JStr(condition)
  {
    JObj(map["temperature" := JNum(temperature), "condition" := JStr(condition)])
  }

  const WeatherData: map<string, Json> := map[
    "New York" := Reading(72, "Sunny"),
    "London" := Reading(62, "Cloudy"),
    "Tokyo" := Reading(80, "Partly cloudy"),
    "Paris" := Reading(65, "Rainy"),
    "Sydney" := Reading(85, "Clear"),
    "Berlin" := Reading(60, "Foggy")]

  /** The error text for a location that is not listed. */
  function NoWeatherFor(location: string): string {
    "No weather data available for " + location
  }

  /** `weather(location)`: the stored record of a listed city (exact, case-sensitive
      match), otherwise an error naming the location. */
  function Weather(location: string): (r: Json)
    ensures location in WeatherData ==> r == WeatherData[location]
    ensures location !in WeatherData ==> r == Single("error", JStr(NoWeatherFor(location)))
    ensures r.JObj? && ("error" in r.fields <==> location !in WeatherData)
  {
    if location in WeatherData then WeatherData[location]
    else Single("error", JStr(NoWeatherFor(location)))
  }

  /** London is listed; its lower-case spelling is not. */
  lemma WeatherIsCaseSensitive()
    ensures Weather("London") == Reading(62, "Cloudy")
    ensures Weather("london") == Single("error", JStr(NoWeatherFor("london")))
  {
    assert "london"[0] != "London"[0];
  }

  const FallbackHeadline := "No news available for this topic"

  const NewsData: map<string, seq<string>> := map[
    "technology" := [
      "New AI breakthrough announced by research lab",
      "Tech company releases latest smartphone model",
      "Quantum computing reaches milestone achievement"],
    "sports" := [
      "Local team wins championship game",
      "Star player signs record-breaking contract",
      "Olympic committee announces host city for 2036"],
    "weather" := [
      "Storm system developing in the Atlantic",
      "Record temperatures recorded across Europe",
      "Climate scientists release new research findings"]]

  /** `news(topic)`: the headlines stored under the lower-cased topic, or the single
      fallback headline, always under "headlines". */
  function News(topic: string): (r: Json)
    ensures r.JObj? && r.fields.Keys == {"headlines"}
    ensures Lower(topic) in NewsData ==> r.fields["headlines"] == Strings(NewsData[Lower(topic)])
    ensures Lower(topic) !in NewsData ==> r.fields["headlines"] == Strings([FallbackHeadline])
  {
    var key := Lower(topic);
    Single("headlines", Strings(if key in NewsData then NewsData[key] else [FallbackHeadline]))
  }

  /** Topic lookup ignores case: a topic and its lower-cased spelling get the same headlines. */
  lemma NewsIgnoresCase(topic: string)
    ensures News(topic) == News(Lower(topic))
  {
    LowerIdempotent(topic);
  }

  /** A known topic gives its three headlines; any other gives exactly one. */
  lemma NewsHeadlineCount(topic: string)
    ensures |News(topic).fields["headlines"].elems| == if Lower(topic) in NewsData then 3 else 1
  {
  }
}

=== FILE: user_controllers.dfy ===
/** The account endpoints: sign-up, login, logout and the profile lookup,
    over an abstract user table and token blacklist. Password hashing and
    checking, token identifiers and the token string are parameters; the
    access guard stands for the library's `jwt_required` with the app's
    revocation check. */
module UserControllers {
  import opened Wrappers
  import opened JsonValues
  import opened Text

  datatype StoredUser = StoredUser(id: int, username: string, email: Option<string>, password: string)

  /** The fields a request body supplies; an absent field is `None`. */
  datatype Credentials = Credentials(username: Option<string>, email: Option<string>, password: Option<string>)

  datatype Reply = Reply(status: int, body: Json)

  /** An issued access token: its identity claim and its unique identifier. */
  datatype Token = Token(identity: string, jti: string)

  /** The bcrypt operations: hashing a password and checking one against a stored hash. */
  datatype Hasher = Hasher(hash: string -> string, check: (string, string) -> bool)

  /** A field is missing when absent or empty, as Python's `not` reads a string. */
  predicate Blank(v: Option<string>) {
    v.None? || v.value == ""
  }

  /** `filter_by(username=...).first()`: the first stored user with that name. */
  function FindByUsername(users: seq<StoredUser>, name: string): (r: Option<nat>)
    ensures r.Some? ==>
      && r.value < |users| && users[r.value].username == name
      && (forall j | 0 <= j < r.value :: users[j].username != name)
    ensures r.None? <==> forall j | 0 <= j < |users| :: users[j].username != name
  {
    if |users| == 0 then None
    else if users[0].username == name then Some(0)
    else match FindByUsername(users[1..], name)
      case None => None
      case Some(k) => Some(k + 1)
  }

  /** `filter_by(email=...)`: a `None` email matches a user whose email is null. */
  predicate EmailTaken(users: seq<StoredUser>, email: Option<string>) {
    exists j | 0 <= j < |users| :: users[j].email == email
  }

  /** `User.query.get(id)`. */
  function FindById(users: seq<StoredUser>, id: int): (r: Option<nat>)
    ensures r.Some? ==> r.value < |users| && users[r.value].id == id
    ensures r.None? <==> forall j | 0 <= j < |users| :: users[j].id != id
  {
    if |users| == 0 then None
    else if users[0].id == id then Some(0)
    else match FindById(users[1..], id)
      case None => None
      case Some(k) => Some(k + 1)
  }

  /** The identifier the table assigns next: one above every stored id. */
  function NextId(users: seq<StoredUser>): (r: int)
    ensures r >= 1 && forall j | 0 <= j < |users| :: users[j].id < r
  {
    if |users| == 0 then 1
    else
      var rest := NextId(users[1..]);
      assert forall j | 1 <= j < |users| :: users[j] == users[1..][j - 1];
      if users[0].id + 1 > rest then users[0].id + 1 else rest
  }

  function ErrorReply(status: int, message: string): Reply {
    Reply(status, Single("error", JStr(message)))
  }

  function MsgReply(status: int, message: string): Reply {
    Reply(status, Single("msg", JStr(message)))
  }

  /** `signup`: missing credentials (400) are checked before a taken username (409),
      which is checked before a taken email (409); a failed commit (500) is rolled back.
      Only a successful sign-up changes the table: it appends one user with a fresh id
      and the hashed password. */
  function Signup(users: seq<StoredUser>, req: Credentials, h: Hasher, commitOk: bool): (r: (Reply, seq<StoredUser>))
    ensures Blank(req.username) || Blank(req.password) ==>
      r == (ErrorReply(400, "username and password required"), users)
    ensures !Blank(req.username) && !Blank(req.password) && FindByUsername(users, req.username.value).Some? ==>
      r == (ErrorReply(409, "username taken"), users)
    ensures (!Blank(req.username) && !Blank(req.password) && FindByUsername(users, req.username.value).None?
             && EmailTaken(users, req.email)) ==> r == (ErrorReply(409, "email taken"), users)
    ensures (!Blank(req.username) && !Blank(req.password) && FindByUsername(users, req.username.value).None?
             && !EmailTaken(users, req.email) && !commitOk) ==> r == (ErrorReply(500, "database error"), users)
    ensures r.0.status == 201 <==>
      !Blank(req.username) && !Blank(req.password) && FindByUsername(users, req.username.value).None?
      && !EmailTaken(users, req.email) && commitOk
    ensures r.0.status != 201 ==> r.1 == users
    ensures r.0.status == 201 ==>
      && r.1 == users + [StoredUser(NextId(users), req.username.value, req.email, h.hash(req.password.value))]
      && r.0 == MsgReply(201, "signup succesful")
  {
    if Blank(req.username) || Blank(req.password) then (ErrorReply(400, "username and password required"), users)
    else if FindByUsername(users, req.username.value).Some? then (ErrorReply(409, "username taken"), users)
    else if EmailTaken(users, req.email) then (ErrorReply(409, "email taken"), users)
    else if !commitOk then (ErrorReply(500, "database error"), users)
    else
      var user := StoredUser(NextId(users), req.username.value, req.email, h.hash(req.password.value));
      (MsgReply(201, "signup succesful"), users + [user])
  }

  /** Ids and usernames are unique in the table. */
  predicate WellFormed(users: seq<StoredUser>) {
    forall i, j | 0 <= i < j < |users| :: users[i].id != users[j].id && users[i].username != users[j].username
  }

  /** Sign-up keeps ids and usernames unique. */
  lemma SignupKeepsWellFormed(users: seq<StoredUser>, req: Credentials, h: Hasher, commitOk: bool)
    requires WellFormed(users)
    ensures WellFormed(Signup(users, req, h, commitOk).1)
  {
    var r := Signup(users, req, h, commitOk);
    if r.0.status == 201 {
      var n := |users|;
      assert r.1[n].id == NextId(users) && r.1[n].username == req.username.value;
      assert forall i | 0 <= i < n :: r.1[i] == users[i];
    }
  }

  datatype LoginResult = LoginResult(reply: Reply, token: Option<Token>)

  /** `login`: missing credentials give 400; an unknown user and a wrong password give
      the same 401; otherwise a token whose identity is the decimal user id is issued. */
  function Login(users: seq<StoredUser>, req: Credentials, h: Hasher, jti: string, encode: Token -> string): (r: LoginResult)
    ensures Blank(req.username) || Blank(req.password) ==>
      r == LoginResult(ErrorReply(400, "username and password required"), None)
    ensures !Blank(req.username) && !Blank(req.password) ==>
      var found := FindByUsername(users, req.username.value);
      && (found.None? || !h.check(users[found.value].password, req.password.value) ==>
            r == LoginResult(ErrorReply(401, "invalid username or password"), None))
      && (found.Some? && h.check(users[found.value].password, req.password.value) ==>
            && r.reply.status == 200 && r.token == Some(Token(IntToDecimal(users[found.value].id), jti))
            && r.reply.body.JObj? && r.reply.body.fields.Keys == {"message", "access_token", "user"}
            && r.reply.body.fields["message"] == JStr("Login successful")
            && r.reply.body.fields["access_token"] == JStr(encode(r.token.value))
            && r.reply.body.fields["user"]
               == JObj(map["id" := JNum(users[found.value].id), "username" := JStr(users[found.value].username)]))
    ensures r.token.Some? <==> r.reply.status == 200
  {
    if Blank(req.username) || Blank(req.password) then
      LoginResult(ErrorReply(400, "username and password required"), None)
    else match FindByUsername(users, req.username.value)
      case None => LoginResult(ErrorReply(401, "invalid username or password"), None)
      case Some(k) =>
        if !h.check(users[k].password, req.password.value) then
          LoginResult(ErrorReply(401, "invalid username or password"), None)
        else
          var token := Token(IntToDecimal(users[k].id), jti);
          var body := JObj(map[
            "message" := JStr("Login successful"),
            "access_token" := JStr(encode(token)),
            "user" := JObj(map["id" := JNum(users[k].id), "username" := JStr(users[k].username)])]);
          LoginResult(Reply(200, body), Some(token))
  }

  /** `check_if_token_revoked`: a token is revoked exactly when its identifier is blacklisted. */
  predicate IsRevoked(token: Token, blacklist: set<string>) {
    token.jti in blacklist
  }

  /** Why the access guard turns a request away; both are answered with 401. */
  datatype Rejection = MissingToken | RevokedToken

  /** `jwt_required`: a request needs a token that is not revoked. */
  function Guard(token: Option<Token>, blacklist: set<string>): (r: Option<Rejection>)
    ensures r.None? <==> token.Some? && !IsRevoked(token.value, blacklist)
    ensures token.None? ==> r == Some(MissingToken)
  {
    match token
    case None => Some(MissingToken)
    case Some(t) => if IsRevoked(t, blacklist) then Some(RevokedToken) else None
  }

  datatype Guarded<T> = Refused(why: Rejection) | Served(value: T)

  /** `logout`: behind the guard, blacklists the token's identifier. A refused request
      leaves the blacklist as it was. */
  function Logout(token: Option<Token>, blacklist: set<string>): (r: (Guarded<Reply>, set<string>))
    ensures Guard(token, blacklist).Some? ==> r == (Refused(Guard(token, blacklist).value), blacklist)
    ensures Guard(token, blacklist).None? ==>
      r == (Served(MsgReply(200, "Successfully logged out")), blacklist + {token.value.jti})
    ensures blacklist <= r.1
  {
    match Guard(token, blacklist)
    case Some(why) => (Refused(why), blacklist)
    case None => (Served(MsgReply(200, "Successfully logged out")), blacklist + {token.value.jti})
  }

  /** After logging out, the same token is refused as revoked by every guarded endpoint. */
  lemma LogoutRevokes(token: Token, blacklist: set<string>)
    ensures var after := Logout(Some(token), blacklist).1;
      IsRevoked(token, after) && Guard(Some(token), after) == Some(RevokedToken)
  {
  }

  /** A user's public fields; a null email is JSON null. */
  function ProfileBody(u: StoredUser): Json {
    JObj(map[
      "id" := JNum(u.id),
      "username" := JStr(u.username),
      "email" := match u.email case Some(e) => JStr(e) case None => JNull])
  }

  /** `get_profile`: behind the guard, an identity that is not a decimal integer makes
      `int()` raise (500); a path id other than the token's identity gives 403, checked
      before a missing user gives 404. */
  function GetProfile(userId: int, token: Option<Token>, blacklist: set<string>, users: seq<StoredUser>): (r: Guarded<Reply>)
    ensures Guard(token, blacklist).Some? ==> r == Refused(Guard(token, blacklist).value)
    ensures Guard(token, blacklist).None? ==>
      var parsed := ParseInt(token.value.identity);
      && (parsed.None? ==> r == Served(Reply(500, JNull)))
      && (parsed.Some? && parsed.value != userId ==> r == Served(MsgReply(403, "unauthorized access")))
      && (parsed == Some(userId) && FindById(users, userId).None? ==> r == Served(MsgReply(404, "User not found")))
      && (parsed == Some(userId) && FindById(users, userId).Some? ==>
            r == Served(Reply(200, ProfileBody(users[FindById(users, userId).value]))))
  {
    match Guard(token, blacklist)
    case Some(why) => Refused(why)
    case None =>
      match ParseInt(token.value.identity)
      case None => Served(Reply(500, JNull))
      case Some(current) =>
        if userId != current then Served(MsgReply(403, "unauthorized access"))
        else match FindById(users, userId)
          case None => Served(MsgReply(404, "User not found"))
          case Some(k) => Served(Reply(200, ProfileBody(users[k])))
  }

  /** A token from a successful login, not yet revoked, opens exactly its own user's
      profile: their own id gives 200 with their fields, any other id gives 403. */
  lemma LoginOpensOwnProfile(users: seq<StoredUser>, req: Credentials, h: Hasher, jti: string,
                             encode: Token -> string, blacklist: set<string>, other: int)
    requires WellFormed(users)
    requires Login(users, req, h, jti, encode).reply.status == 200
    requires jti !in blacklist
    ensures var k := FindByUsername(users, req.username.value).value;
      var token := Login(users, req, h, jti, encode).token;
      && GetProfile(users[k].id, token, blacklist, users) == Served(Reply(200, ProfileBody(users[k])))
      && (other != users[k].id ==> GetProfile(other, token, blacklist, users) == Served(MsgReply(403, "unauthorized access")))
  {
    var k := FindByUsername(users, req.username.value).value;
    IntRoundTrip(users[k].id);
    assert FindById(users, users[k].id) == Some(k);
  }
}

=== FILE: wrappers.dfy ===
/** Failure-carrying values used throughout the model: an optional value
    (JavaScript `undefined` / Python `None`) and the outcome of a computation
    that may raise (a Python exception or a JavaScript throw). */
module Wrappers {

  datatype Option<+T> = None | Some(value: T) {
    /** `x || fallback` on an optional value whose present values are all truthy. */
    function GetOr(fallback: T): T {
      match this
      case Some(v) => v
      case None => fallback
    }
  }

  /** Either a value or a raised error carrying its message. */
  datatype Outcome<+T> = Ok(value: T) | Raised(message: string)
}
